=== FILE: README.md ===
# Huffman coding over bytes, modelled in Dafny

This project models the Go package `pkg/huffman`, a small Huffman
compressor that works on bytes. The model covers these parts:

- **Bit writer** (`BitStringWriter`): packs fields of 0 to 8 bits, most
  significant bit first, into a byte buffer. `WriteBytes` writes a
  multi-byte search result.
- **Bit reader** (`BitStringReader`): reads fields of up to 8 bits back.
- **Frequency table** (`computeFreqTable`): counts the input bytes and
  stably sorts the counts in ascending order.
- **Tree builder** (`NewNode`): merges the two lightest items until one
  tree is left. After each merge the items are stably sorted again.
- **Path search** (`Search`): finds a byte's leaf, probing the right child
  first. It returns the root-to-leaf path as bytes, with the last edge at
  bit 0 of the first byte.
- **Tree serialiser** (`WriteBytes`): writes the tree depth first as 2-bit
  tags (`01` pair, `11` left, `10` right) plus one 8-bit symbol per leaf.
- **Tree parser** (`newNodeFromBytes`): reads that format back.
- **Drivers**: `Encode` and the placeholder `Decode`.
- **Legacy variants**:
  - the rune version in `pkg/huffman/huffman.go`: a one-byte left-first
    `Search`, `computeRightByte`, `maxDepth` and the `Huffman` driver;
  - the string-path `Search` and `maxDepth` of the root `node.go`.

The repository has no content decoder. `WalkDecoder` adds one: it walks the
tree from the root, one bit per edge, and emits a symbol at each leaf. It is
the partner of both content streams, so the model can state that the encoded
content decodes back to the input.

The modules follow the source files:

| module | what it models |
|---|---|
| `BitOps` | bytes as `bv8`, each read as 8 booleans, most significant first |
| `Masks` | `onesMask`, `computeRightByte` |
| `BitWriter` | the writer |
| `BitReader` | the reader |
| `FreqTable` | the frequency table |
| `StableSort` | `sort.SliceStable` |
| `HuffmanTree` | the node type |
| `Builder` | the tree builder |
| `PathSearch` | the right-first search |
| `TreeCodec` | tree serialisation and parsing |
| `Encoder` | `Encode` |
| `WalkDecoder` | the content decoder described above |
| `LegacySearch` | the older variants |
| `KnownVectors` | the unit tests' fixed examples |

Go-specific behaviour is modelled as follows:

- Go's nil `*Node` is `Nil`. A Go `error`, and a panic that the
  package's own callers can reach, becomes a `Failure` value. A panic that
  no caller in the package can reach is excluded by a precondition
  instead; "## Left out" lists each such case.
- A shift of a byte by 8 or more gives 0, as in Go.
- Map iteration order is an explicit `order` parameter: a duplicate-free
  listing of the distinct input symbols.

## Model

| member | source | states |
|---|---|---|
| BitWriter.Write | pkg/huffman/bitstringwriter.go:30-59 | A width below 1 leaves the writer untouched. From a valid writer (a fresh one, or one any earlier writes left), a write of width 1..8 leaves it valid: the cursor is in 1..8 and the bits after it are clear, whatever value is written, even one wider than w bits. If the value fits in w ≤ 8 bits, the written bit stream grows by exactly its w bits, most significant first. |
| BitWriter.WriteOverflow | pkg/huffman/bitstringwriter.go:41-56 | A write that crosses a byte boundary adds exactly one byte. The stream still grows by exactly the value's w bits: the high part fills the current byte and the low part opens the new one. |
| BitWriter.AddByte | pkg/huffman/bitstringwriter.go:69-72 | Appends one zero byte and resets the cursor. When the last byte is full, or there is none, the written stream is unchanged. |
| BitWriter.WriteToLastByte | pkg/huffman/bitstringwriter.go:74-77 | Places a value just after the cursor in the last byte. If that byte is clear from the cursor on and the value fits, the stream grows by the value's bits and the rest of the byte stays clear. |
| BitWriter.WriteBytes | pkg/huffman/bitstringwriter.go:10-21 | Writes w bits of a byte slice: each whole byte in slice order, then the low bits of the next byte. The stream grows by exactly those w bits. A width ≤ 0 writes nothing. |
| BitWriter.ValidPacked | pkg/huffman/bitstringwriter.go:65-67 | The buffer of a valid writer is its stream padded with fewer than 8 zero bits to a whole number of bytes. |
| BitWriter.StreamDetermines | pkg/huffman/bitstringwriter.go:3-8 | Two valid writers with the same stream are equal: the buffer and the offset depend only on the bits written. |
| Masks.OnesMask | pkg/huffman/encode.go:36-58 | For a width w from 0 to 8 the mask is 2^w − 1, the low w bits set. |
| Masks.ComputeRightByteField | pkg/huffman/encode.go:32-34 | The result fits in w bits, and those bits are the low w bits of the input byte. |
| LegacySearch.LegacyComputeRightByte | pkg/huffman/huffman.go:271-291 | For widths 0 to 7 the literal-mask version equals the `onesMask` version, fits in w bits and keeps the input's low w bits. |
| BitReader.NewReader | pkg/huffman/bitstringreader.go:11-16 | Empty input gives no reader. Otherwise the reader is valid, at position 0, and its unread bits are the whole input. |
| BitReader.AddOffset | pkg/huffman/bitstringreader.go:49-57 | The bit position advances by exactly w and the offset stays below 8. |
| BitReader.Read | pkg/huffman/bitstringreader.go:18-47 | A width above 8 is an error. A read succeeds exactly when 0 ≤ w ≤ 8, the cursor is inside the buffer and w bits remain. Reading past the last byte otherwise fails as "no next byte". On success the reader moves past exactly w bits. When those bits lie in the current byte, or w is 8, the value fits in w bits and equals them. A narrower read that crosses into the next byte computes the source's expression: the bits from the current byte at the top of the value, then 8 − w zero bits, then the bits from the next byte (see Findings). |
| BitReader.ReadBack | pkg/huffman/bitstringreader.go:18-47 | A w-bit field that lies in the current byte, or fills 8 bits, is read back as the value that was written, and the reader is left before the bits that follow it. |
| BitReader.StraddleMisreads | pkg/huffman/bitstringreader.go:24-38 | A narrower field that crosses into the next byte and starts with a 1 bit is not read back as the value written. |
| BitReader.StraddleAsWrittenBits | pkg/huffman/bitstringreader.go:24-38 | The source's straddling expression yields the current byte's remaining bits, then 8 − w zero bits, then the next byte's first bits. |
| BitReader.EvenReads | pkg/huffman/decode.go:35-37 | The parser's 2-bit and 8-bit reads from an even offset never split a 2-bit read across bytes, and they keep the offset even. |
| BitReader.StraddleField | pkg/huffman/bitstringreader.go:24-38 | With the corrected expression, a straddling read returns a value that fits in w bits: the tail of the current byte followed by the head of the next. |
| BitReader.StraddleAsWrittenCounterexample | pkg/huffman/bitstringreader.go:26-36 | The expression as written reads 0x81 from bytes 0x01 0x80 at offset 7 with width 2. 0x81 does not fit in 2 bits; the corrected value is 0x03. |
| FreqTable.ComputeFreqTable | pkg/huffman/encode.go:73-92 | One entry per distinct input byte, no symbol twice. A symbol is present exactly when it occurs in the input, and its frequency is its count (at least 1). The entries are in ascending frequency order. |
| FreqTable.FreqTableTotal | pkg/huffman/encode.go:76-81 | The frequencies sum to the input length. |
| FreqTable.FreqTableTies | pkg/huffman/encode.go:83-89 | Entries of equal frequency keep the map's iteration order, because the sort is stable. |
| StableSort.SortStable | pkg/huffman/encode.go:87-89 | Sorting keeps the relative order of the elements of each key. |
| StableSort.StableSortUnique | pkg/huffman/node.go:67-69 | A sorted sequence that keeps the input's order within every key is the sort's result. So the stable sort's output is fully determined. |
| Builder.NewNode | pkg/huffman/node.go:22-74 | An empty table and a one-entry table are errors (panics in the source); two or more entries always build a tree. The tree is full and each inner weight is the sum of its children's. Its leaves are exactly the table's pairs (as a multiset), the root weight is the table's total, and the root is an inner node. The tree is the one `Build` gives: the merges happen in exactly the source's order, so ties are broken as the stable sort breaks them. |
| Builder.Build | pkg/huffman/node.go:29-70 | Repeating the merge step until one item is left: the last item is well formed, an inner node when there were two or more items, with the leaves and total weight of all the items. |
| Builder.MergeAll | pkg/huffman/node.go:29-70 | The source's loop, which merges while more than one item is left, ends with exactly what `Build` gives. |
| Builder.StepPreserves | pkg/huffman/node.go:29-70 | One merge step keeps every item well formed. It also keeps the multiset of leaves and the total weight, and the merged node is among the new items. |
| Builder.StepFrontFirst | pkg/huffman/node.go:64-69 | The merged node is put at the front before the stable sort, so it comes first among the items of its weight. |
| HuffmanTree.WeightedRoot | pkg/huffman/node.go:64 | In a weighted full tree the root's weight is the sum of its leaves' frequencies. |
| PathSearch.Search | pkg/huffman/node.go:76-113 | If the byte is at a leaf, the result encodes the right-first root-to-leaf path. The width is the path length, there are ⌈width/8⌉ bytes (one for the root), and the last edge is bit 0 of the first byte. A missing byte gives (nil, −1). |
| PathSearch.PushRightEncodes | pkg/huffman/node.go:87-99 | Going up a right edge sets the next bit, starting a new byte when the last one is full. The result encodes the longer path. |
| PathSearch.PushLeftEncodes | pkg/huffman/node.go:102-110 | Going up a left edge adds a zero bit, starting a new byte when the last one is full. The result encodes the longer path. |
| PathSearch.SearchEmits | pkg/huffman/encode.go:21-27 | `WriteBytes` of a search result writes exactly as many bits as the path is long. A path of at most 8 edges is written root first; a longer path is written low byte first. |
| TreeCodec.TagsDistinct | pkg/huffman/decode.go:72-90 | The three control tags are the 2-bit patterns 01, 11 and 10, and their names differ. |
| TreeCodec.WriteTree | pkg/huffman/node.go:157-193 | A nil tree writes nothing. Otherwise the stream grows by exactly the tree's depth-first encoding and the writer stays valid. |
| TreeCodec.TreeBitsSize | pkg/huffman/node.go:158-166 | A full tree with n leaves serialises to 14n − 4 bits. |
| TreeCodec.ParseNode | pkg/huffman/decode.go:30-70 | A successful parse gives a full tree without weights. The reader moves past exactly that tree's encoding. |
| TreeCodec.ParseKeepsEven | pkg/huffman/decode.go:30-70 | A parse that starts at an even bit offset ends at one. So the parser's 2-bit reads never cross a byte boundary, and its reads are always exact. |
| TreeCodec.NewNodeFromBytes | pkg/huffman/decode.go:19-28 | A nil reader gives the nil tree. Any tree parsed is full and has no weights. |
| TreeCodec.Decode | pkg/huffman/decode.go:5-17 | Empty input is the only "empty" error. Otherwise decoding succeeds exactly when the tree parses, and the output is empty because no content is decoded yet. |
| TreeCodec.TreeRoundTrip | pkg/huffman/decode_test.go:57-74 | Bytes holding a full tree's encoding parse back to that tree without weights, and `Decode` of them succeeds. |
| TreeCodec.UnknownTagFails | pkg/huffman/decode.go:42-69 | A `00` tag matches no case of the switch, and every path after it panics: the parse fails, naming the tag. |
| TreeCodec.NoInputFails | pkg/huffman/decode.go:59-61 | An inner tag and a complete first child with no bits after them fail with "no input remaining". |
| TreeCodec.WrongSiblingFails | pkg/huffman/decode.go:62-69 | An inner tag and a complete first child followed by any tag other than the opposite side's fail, naming the expected tag and the one read. |
| TreeCodec.ParseRightFirst | pkg/huffman/decode.go:52-56 | A right child encoded before the left one parses to the same tree. |
| TreeCodec.EmptyInputNilTree | pkg/huffman/decode_test.go:42-46 | Empty input gives the nil tree, and `Decode` reports it as empty. |
| Encoder.FirstNonAscii | pkg/huffman/encode.go:9-13 | Finds nothing exactly when every byte is at most 127. Otherwise it finds the first byte above 127. |
| Encoder.Encode | pkg/huffman/encode.go:8-30 | A byte above 127 is an error naming the first such byte and its position. Fewer than two distinct bytes is an error too. Otherwise: the tree is full and weighted, with the frequency table as its leaves, and it is the one `Builder.Build` gives for that table. The tree bytes parse back to the tree. The content bytes hold every input byte's search result in input order. When every code has at most 8 edges, the content is the root-first code stream, and walking the tree over it gives back the input. |
| Encoder.WriteContent | pkg/huffman/encode.go:19-27 | The content buffer is the concatenated search results, padded to whole bytes. |
| Encoder.ContentRoundTrip | pkg/huffman/encode.go:21-26 | If every code has at most 8 edges, walking the tree over the content gives back exactly the input. |
| Encoder.ShortContentIsCodeStream | pkg/huffman/encode.go:21-26 | If every code has at most 8 edges, the content is each input byte's root-first path, in input order. |
| Encoder.CodeStreamRoundTrip | pkg/huffman/encode.go:21-26 | Each input byte's root-first path, in input order, walks back to exactly the input, whatever the code lengths. |
| Encoder.DeepCodeMisdecodes | pkg/huffman/bitstringwriter.go:10-21 | In a full tree with byte 1 nine edges deep, the content of [1] is the eight deepest edges followed by the root edge. Walking it does not give [1]; the code stream does. |
| WalkDecoder.CodewordFirst | pkg/huffman/decode_test.go:9-39 | A leaf's root-to-leaf path is a non-empty codeword: walking it yields that symbol, then decoding continues with the bits after it. |
| LegacySearch.ByteSearch | pkg/huffman/huffman.go:95-118 | Width −1 exactly when the left-first search misses. Otherwise the width is the left-first path length and the byte holds that path's last 8 edges. |
| LegacySearch.FullFound | pkg/huffman/huffman.go:96-105 | In a full tree both searches find a symbol exactly when it is at some leaf. |
| LegacySearch.SearchesAgree | pkg/huffman/huffman.go:107-117 | In a full tree with distinct leaf symbols, the left-first and right-first searches return the same path. |
| LegacySearch.DuplicateLeavesDisagree | pkg/huffman/node.go:87-110 | With a symbol at two leaves, the left-first search returns the left path and the right-first search returns the right one. |
| LegacySearch.StringSearch | node.go:74-97 | Found exactly when the left-first search finds the rune. The string is that path as '0'/'1' characters, and it is empty when nothing is found. |
| LegacySearch.StringSearchWalks | node.go:86-94 | The returned string, read as edges, leads from the root to the rune, and it is as long as the byte search's width. |
| LegacySearch.MaxDepth | pkg/huffman/huffman.go:180-216 | Nil gives the depth passed in; any node gives its height (a lone leaf has height 1). |
| LegacySearch.MaxDepthLongestWalk | pkg/huffman/huffman.go:180-216 | For a node, the result is one more than the longest path from the root that ends at a node: every such path is shorter, and some path reaches that length. |
| LegacySearch.WriteEdges | pkg/huffman/huffman.go:232-261 | The legacy writer appends a w-bit field (0 ≤ w ≤ 8) to the stream and stays valid. |
| LegacySearch.WriteRunes | pkg/huffman/huffman.go:18-25 | Stops with an error naming a rune deeper than 8 edges, which happens exactly when some rune is. Otherwise it writes each rune's left-first path in input order. |
| LegacySearch.Huffman | pkg/huffman/huffman.go:10-28 | Fewer than two distinct runes is an error. Otherwise the tree is full and weighted, with the rune frequency table as its leaves. The tree is the one `Builder.Build` gives for the rune table. When no rune is deeper than 8 edges, the output holds the paths, and walking the tree over them gives back the input. A `PathTooDeep` failure carries that same tree, and some rune of the input is deeper than 8 edges in it. Since success needs every rune at most 8 edges deep in the same tree, the model fails exactly when some rune of the built tree is deeper. |
| LegacySearch.LegacyRoundTrip | pkg/huffman/huffman.go:18-27 | The concatenated left-first paths walk back to the input. |
| KnownVectors.SeventeenBitsWritten | pkg/huffman/bitstringwriter_test.go:9-15 | Writing the 17-bit value {0xff, 0xff, 0x01} gives buffer {0xff, 0xff, 0x80} with offset 1. |
| KnownVectors.HelloWorldWritten | pkg/huffman/bitstringwriter_test.go:112-129 | The eleven codes of "hello world" give buffer {0x2E, 0xBE, 0x6F, 0x12} with offset 8. |
| KnownVectors.SeventeenRights | pkg/huffman/node_test.go:79-87 | A leaf 17 right edges deep is found as bytes {0xff, 0xff, 0x01} with width 17. |

## Left out

- BitWriter.WriteBytes, BitWriter.Write, LegacySearch.ByteSearch,
  LegacySearch.StringSearch, LegacySearch.LegacyComputeRightByte and
  LegacySearch.WriteRunes: these Go panics, and one process exit, are
  excluded by preconditions rather than modelled as failures. No caller
  in the package reaches them.
  - WriteBytes requires at least ⌈w/8⌉ bytes. A shorter slice is an index
    panic at pkg/huffman/bitstringwriter.go:14 and :19.
  - Write requires a non-empty buffer whenever the offset is 1..7. An
    empty buffer there is an index panic at
    pkg/huffman/bitstringwriter.go:75. Every writer the package builds
    meets this.
  - ByteSearch and StringSearch require a non-nil receiver, which
    pkg/huffman/huffman.go:96 and node.go:75 dereference.
  - LegacyComputeRightByte requires a width of at most 7.
    pkg/huffman/huffman.go:290 panics on a larger one.
  - WriteRunes requires every rune to be in the tree. Otherwise
    pkg/huffman/huffman.go:20-22 exits the process through `log.Fatalf`.
    Huffman builds the tree from the input's own runes, so this never
    happens.
- Printing and debugging output is not modelled: `String`, `printTree`,
  `printTreeString`, `TreeToDot`, `ControlBit.String`'s panic, and the
  `fmt.Printf` and `printTree` calls inside `Huffman`. `main.go` (command
  line and file I/O) is not part of this model.
- `log.Fatalf` in `Huffman` (rune not found) is a branch the model proves
  unreachable.
- The same holds for the "cannot find the byte" error in `Encode`.
- `NewNode` in pkg/huffman/huffman.go:41-93 and `makeTree` in node.go:20-72
  are the same loop as pkg/huffman/node.go:22-74, over runes, so they are
  modelled once by Builder.NewNode.
- The legacy `computeFreqTable` (huffman.go:316-335) is likewise
  FreqTable.ComputeFreqTable over `char`, and the legacy writer
  (huffman.go:218-301) is BitWriter.
- Encoder.Encode: the tree bytes are modelled as the tree's `WriteBytes`
  output (TreeCodec.TreeBytes). The only `Node.Bytes` in the repository
  (pkg/huffman/huffman.go:159-162) returns nil. "The tree bytes parse back
  to the tree" holds for the serialiser put in its place, not for that stub.
- `bs.InputRemaining()` in decode.go is not defined in the repository. It
  is modelled as "the cursor is before the end of the buffer".
- decode.go uses `bs.Read(...)` as one value, although `Read` returns a
  value and an error. The model propagates the read error as a parse
  failure.
- Unknown tags and a wrong sibling tag are modelled as failures. In the
  source they are panics or nil-pointer dereferences.
- Content decoding in `Decode` is empty in the source (it returns nil).
  The model's `Decode` does the same. WalkDecoder is added only as the
  partner that states what the content means.
- Map iteration order is a parameter, not a random choice.
- Go's `int` overflow is not modelled. Counts and widths are unbounded.
- Masks.OnesMask: a width above 8 (a panic) is excluded by its
  precondition. Every caller passes at most 8.
- BitWriter.Write: a width above 8 is excluded by its precondition. No
  caller in the package passes one: `WriteBytes` splits into pieces of at
  most 8 bits, and the tree writer uses 2 and 8. With such a width the
  source would write zero bits above the byte's value, or panic in
  `onesMask` once more than 8 bits spill into the next byte.
- LegacySearch.Huffman and LegacySearch.WriteRunes: a rune deeper than 8
  edges stops with `PathTooDeep`, raised in WriteRunes; the error carries the rune, its depth and the tree. The legacy writer would instead write the path's last 8
  edges with zero bits above them, or panic in `computeRightByte`. The model does not state the
  truncated output.
- LegacySearch.Huffman, LegacySearch.WriteRunes and
  LegacySearch.LegacyRoundTrip: the input is the rune sequence that Go's
  `range` over the string decodes (pkg/huffman/huffman.go:18 and :319). Go
  turns every invalid UTF-8 byte into U+FFFD, so the round trip gives back
  that rune sequence, not the string's bytes. UTF-8 decoding is not
  modelled.
- BitReader.Read and BitReader.ReadBack: Read states the exact value only
  for reads inside the current byte and for 8-bit reads. For a narrower read
  across a byte boundary it states the source's gapped value instead, and
  ReadBack requires that no such read happens. The source's reader gets
  those reads wrong (see Findings). The tree parser never makes one
  (TreeCodec.ParseKeepsEven).
- Encoder.Encode and Encoder.ContentRoundTrip state the walk-back round
  trip only when every code has at most 8 edges. A longer code is written
  low byte first, so its content cannot be walked from the root (see
  Findings).

## Findings

| source | as written | input that shows it | evidently intended | confidence | as-written member | corrected member |
|---|---|---|---|---|---|---|
| pkg/huffman/bitstringreader.go:24-38 | In a read that straddles two bytes, the bits from the current byte are shifted left by the offset. That puts them at the top of the result rather than just above the bits taken from the next byte. | Bytes 0x01 0x80, offset 7, width 2: the read returns 0x81. | Shift the left part by the number of bits taken from the next byte, giving 0x03 here (the two bits 1, 1). The two shifts coincide only for 8-bit reads (BitReader.StraddleAgreesOnBytes), and the tree parser stays at even offsets, so it never makes a straddling 2-bit read (TreeCodec.ParseKeepsEven). | not executed | BitReader.StraddleAsWrittenCounterexample | BitReader.StraddleField |
| pkg/huffman/node.go:87-99 | `Search` puts the deepest eight edges of a code in the first byte, and `WriteBytes` (pkg/huffman/bitstringwriter.go:10-21) writes that byte first. A code longer than 8 edges therefore reaches the content with its deepest edges first and its root edge last. | A full tree whose right subtree is a chain of eight left edges down to byte 1, with byte 0 as the root's left leaf: encoding [1] writes eight 0 bits, then a 1. Walking from the root, the first 0 bit already reaches byte 0. | Write each code root edge first, so that the content can be walked from the root for every code length. | not executed | Encoder.DeepCodeMisdecodes | Encoder.CodeStreamRoundTrip |

=== FILE: bits.dfy ===
/**
 * Bytes and bit sequences. A byte is a `bv8`, so Go's `|` and `&` on `byte`
 * are written as they are in the source; Go's shifts by a variable amount are
 * `Shl` and `Shr` below. The abstract view of a byte buffer is a `seq<bool>`
 * read most-significant bit first within each byte, which is the order both
 * the writer and the reader use.
 *
 * The lemmas connect each byte operator to an operation on `ByteBits`, so the
 * proofs in the other modules reason about plain sequences of bits.
 */
module BitOps {

  function Pow2(n: nat): (r: nat)
    ensures r >= 1
  {
    if n == 0 then 1 else 2 * Pow2(n - 1)
  }

  /** The byte with only bit `i` set, counting from the most significant bit. */
  function BitMask(i: nat): bv8
    requires i < 8
  {
    match i
    case 0 => 0x80
    case 1 => 0x40
    case 2 => 0x20
    case 3 => 0x10
    case 4 => 0x08
    case 5 => 0x04
    case 6 => 0x02
    case _ => 0x01
  }

  /** Bit `i` of `x`, counting from the most significant bit (i = 0). */
  predicate Bit(x: bv8, i: nat)
    requires i < 8
  {
    x & BitMask(i) != 0
  }

  /** The eight bits of `x`, most significant first. */
  function ByteBits(x: bv8): (r: seq<bool>)
    ensures |r| == 8
  {
    seq(8, i requires 0 <= i < 8 => Bit(x, i))
  }

  function Zeros(n: nat): (r: seq<bool>)
    ensures |r| == n
    ensures forall i :: 0 <= i < n ==> !r[i]
  {
    seq(n, i => false)
  }

  /** The low `w` bits of `v`, most significant first: a `w`-bit field. */
  function FieldBits(v: bv8, w: nat): (r: seq<bool>)
    requires w <= 8
    ensures |r| == w
  {
    ByteBits(v)[8 - w..]
  }

  /** `v` is a `w`-bit value: its top `8 - w` bits are clear. */
  predicate Fits(v: bv8, w: nat)
    requires w <= 8
  {
    ByteBits(v)[..8 - w] == Zeros(8 - w)
  }

  /** Go's `x << s` on a byte: bits shifted past the top are lost, so a shift
      by 8 or more gives 0. Written one position at a time. */
  function Shl(x: bv8, s: nat): bv8
    decreases s
  {
    if s == 0 then x else Shl(x << 1, s - 1)
  }

  /** Go's `x >> s` on a byte, a logical shift: 8 or more gives 0. */
  function Shr(x: bv8, s: nat): bv8
    decreases s
  {
    if s == 0 then x else Shr(x >> 1, s - 1)
  }

  /** The whole buffer as a bit sequence. */
  function Bits(buf: seq<bv8>): (r: seq<bool>)
    ensures |r| == 8 * |buf|
  {
    if |buf| == 0 then [] else Bits(buf[..|buf| - 1]) + ByteBits(buf[|buf| - 1])
  }

  /** `bytes` holds exactly `bits`, padded with zero bits to the next byte boundary. */
  predicate Packed(bytes: seq<bv8>, bits: seq<bool>)
  {
    && |bits| <= 8 * |bytes| < |bits| + 8
    && Bits(bytes) == bits + Zeros(8 * |bytes| - |bits|)
  }

  /** Sequence concatenation regroups; stated generically so that no proof
      has to compare bit sequences element by element. */
  lemma AppendAssoc<T>(a: seq<T>, b: seq<T>, c: seq<T>)
    ensures (a + b) + c == a + (b + c)
  {
  }

  /** The bits of a concatenation are the concatenated bits. */
  lemma {:induction false} BitsAppend(a: seq<bv8>, b: seq<bv8>)
    ensures Bits(a + b) == Bits(a) + Bits(b)
    decreases |b|
  {
    if |b| == 0 {
      assert a + b == a;
    } else {
      var init := b[..|b| - 1];
      assert (a + b)[..|a + b| - 1] == a + init;
      BitsAppend(a, init);
      AppendAssoc(Bits(a), Bits(init), ByteBits(b[|b| - 1]));
    }
  }

  // ---------------------------------------------------------------------------
  // One bit at a time

  lemma OrBit(x: bv8, y: bv8, j: nat)
    requires j < 8
    ensures ByteBits(x | y)[j] == (ByteBits(x)[j] || ByteBits(y)[j])
  {
    assert ByteBits(x | y)[j] == Bit(x | y, j);
    assert ByteBits(x)[j] == Bit(x, j) && ByteBits(y)[j] == Bit(y, j);
  }

  lemma AndBit(x: bv8, y: bv8, j: nat)
    requires j < 8
    ensures ByteBits(x & y)[j] == (ByteBits(x)[j] && ByteBits(y)[j])
  {
    assert ByteBits(x & y)[j] == Bit(x & y, j);
    assert ByteBits(x)[j] == Bit(x, j) && ByteBits(y)[j] == Bit(y, j);
  }

  lemma Shl1Bit(x: bv8, j: nat)
    requires j < 8
    ensures ByteBits(x << 1)[j] == (j < 7 && ByteBits(x)[j + 1])
  {
    assert ByteBits(x << 1)[j] == Bit(x << 1, j);
    assert j < 7 ==> ByteBits(x)[j + 1] == Bit(x, j + 1);
  }

  lemma Shr1Bit(x: bv8, j: nat)
    requires j < 8
    ensures ByteBits(x >> 1)[j] == (j > 0 && ByteBits(x)[j - 1])
  {
    assert ByteBits(x >> 1)[j] == Bit(x >> 1, j);
    assert j > 0 ==> ByteBits(x)[j - 1] == Bit(x, j - 1);
  }

  // ---------------------------------------------------------------------------
  // Whole bytes

  lemma OrBits(x: bv8, y: bv8)
    ensures forall j :: 0 <= j < 8 ==> ByteBits(x | y)[j] == (ByteBits(x)[j] || ByteBits(y)[j])
  {
    forall j | 0 <= j < 8
      ensures ByteBits(x | y)[j] == (ByteBits(x)[j] || ByteBits(y)[j])
    {
      OrBit(x, y, j);
    }
  }

  /** Bitwise or of two bit sequences of the same length. */
  function OrSeq(a: seq<bool>, b: seq<bool>): (r: seq<bool>)
    requires |a| == |b|
    ensures |r| == |a| && forall j :: 0 <= j < |a| ==> r[j] == (a[j] || b[j])
  {
    seq(|a|, j requires 0 <= j < |a| => a[j] || b[j])
  }

  /** Go's `x | y` on bytes is the bitwise or of their bit sequences. */
  lemma OrBytes(x: bv8, y: bv8, xs: seq<bool>, ys: seq<bool>)
    requires ByteBits(x) == xs && ByteBits(y) == ys
    ensures ByteBits(x | y) == OrSeq(xs, ys)
  {
    OrBits(x, y);
  }

  lemma AndBits(x: bv8, y: bv8)
    ensures forall j :: 0 <= j < 8 ==> ByteBits(x & y)[j] == (ByteBits(x)[j] && ByteBits(y)[j])
  {
    forall j | 0 <= j < 8
      ensures ByteBits(x & y)[j] == (ByteBits(x)[j] && ByteBits(y)[j])
    {
      AndBit(x, y, j);
    }
  }

  lemma Shl1Bits(x: bv8)
    ensures ByteBits(x << 1) == ByteBits(x)[1..] + [false]
  {
    forall j | 0 <= j < 8
      ensures ByteBits(x << 1)[j] == (ByteBits(x)[1..] + [false])[j]
    {
      Shl1Bit(x, j);
    }
  }

  lemma Shr1Bits(x: bv8)
    ensures ByteBits(x >> 1) == [false] + ByteBits(x)[..7]
  {
    forall j | 0 <= j < 8
      ensures ByteBits(x >> 1)[j] == ([false] + ByteBits(x)[..7])[j]
    {
      Shr1Bit(x, j);
    }
  }

  /** A left shift drops the first `s` bits and fills with zeros. */
  lemma {:induction false} ShlBits(v: bv8, s: nat)
    requires s <= 8
    ensures ByteBits(Shl(v, s)) == ByteBits(v)[s..] + Zeros(s)
    decreases s
  {
    if s > 0 {
      var u := v << 1;
      ShlBits(u, s - 1);
      Shl1Bits(v);
      assert ByteBits(u)[s - 1..] == ByteBits(v)[s..] + [false];
      assert [false] + Zeros(s - 1) == Zeros(s);
      AppendAssoc(ByteBits(v)[s..], [false], Zeros(s - 1));
    }
  }

  /** A right shift drops the last `s` bits and fills with zeros. */
  lemma {:induction false} ShrBits(v: bv8, s: nat)
    requires s <= 8
    ensures ByteBits(Shr(v, s)) == Zeros(s) + ByteBits(v)[..8 - s]
    decreases s
  {
    if s > 0 {
      var u := v >> 1;
      ShrBits(u, s - 1);
      Shr1Bits(v);
      assert ByteBits(u)[..8 - (s - 1)] == [false] + ByteBits(v)[..8 - s];
      assert Zeros(s - 1) + [false] == Zeros(s);
      AppendAssoc(Zeros(s - 1), [false], ByteBits(v)[..8 - s]);
    }
  }

  /** OR-ing a byte whose bits are `ys` into `x`. */
  lemma OrBitsWith(x: bv8, y: bv8, ys: seq<bool>)
    requires ByteBits(y) == ys
    ensures forall j :: 0 <= j < 8 ==> ByteBits(x | y)[j] == (ByteBits(x)[j] || ys[j])
  {
    OrBits(x, y);
  }

  /** OR-ing `Shl(v, s)` into `x`, as a bit sequence. */
  lemma OrShlBits(x: bv8, v: bv8, s: nat)
    requires s <= 8
    ensures forall j :: 0 <= j < 8 ==>
      ByteBits(x | Shl(v, s))[j] == (ByteBits(x)[j] || (ByteBits(v)[s..] + Zeros(s))[j])
  {
    ShlBits(v, s);
    OrBitsWith(x, Shl(v, s), ByteBits(v)[s..] + Zeros(s));
  }

  lemma ZeroBits()
    ensures ByteBits(0) == Zeros(8)
  {
  }

  /** A byte is determined by its bits. */
  lemma ByteBitsInjective(x: bv8, y: bv8)
    requires ByteBits(x) == ByteBits(y)
    ensures x == y
  {
    assert ByteBits(x)[0] == ByteBits(y)[0] && ByteBits(x)[1] == ByteBits(y)[1];
    assert ByteBits(x)[2] == ByteBits(y)[2] && ByteBits(x)[3] == ByteBits(y)[3];
    assert ByteBits(x)[4] == ByteBits(y)[4] && ByteBits(x)[5] == ByteBits(y)[5];
    assert ByteBits(x)[6] == ByteBits(y)[6] && ByteBits(x)[7] == ByteBits(y)[7];
  }

  /** Equal `w`-bit fields hold equal values. */
  lemma FieldBitsInjective(a: bv8, b: bv8, w: nat)
    requires w <= 8 && Fits(a, w) && Fits(b, w) && FieldBits(a, w) == FieldBits(b, w)
    ensures a == b
  {
    assert ByteBits(a) == ByteBits(a)[..8 - w] + FieldBits(a, w);
    assert ByteBits(b) == ByteBits(b)[..8 - w] + FieldBits(b, w);
    ByteBitsInjective(a, b);
  }

  lemma FieldBitsOfByte(v: bv8)
    ensures FieldBits(v, 8) == ByteBits(v)
    ensures Fits(v, 8)
  {
  }

  /** Two buffers of the same length with the same bits are the same. */
  lemma {:induction false} BitsInjective(x: seq<bv8>, y: seq<bv8>)
    requires |x| == |y| && Bits(x) == Bits(y)
    ensures x == y
    decreases |x|
  {
    if |x| > 0 {
      var n := |x| - 1;
      BitsSplit(x);
      BitsSplit(y);
      BitsInjective(x[..n], y[..n]);
      ByteBitsInjective(x[n], y[n]);
      LastEqual(x, y);
    }
  }

  lemma {:induction false} BitsSplit(x: seq<bv8>)
    requires |x| > 0
    ensures Bits(x[..|x| - 1]) == Bits(x)[..8 * (|x| - 1)]
    ensures ByteBits(x[|x| - 1]) == Bits(x)[8 * (|x| - 1)..]
  {
  }

  lemma LastEqual<T>(x: seq<T>, y: seq<T>)
    requires |x| == |y| > 0 && x[..|x| - 1] == y[..|y| - 1] && x[|x| - 1] == y[|y| - 1]
    ensures x == y
  {
    assert x == x[..|x| - 1] + [x[|x| - 1]];
    assert y == y[..|y| - 1] + [y[|y| - 1]];
  }

  /** The padded buffer holding a bit sequence is unique. */
  lemma PackedUnique(x: seq<bv8>, y: seq<bv8>, bits: seq<bool>)
    requires Packed(x, bits) && Packed(y, bits)
    ensures x == y
  {
    assert |x| == |y|;
    BitsInjective(x, y);
  }
}

=== FILE: builder.dfy ===
/**
 * `NewNode` of pkg/huffman/node.go (and its twins `NewNode` in
 * pkg/huffman/huffman.go and `makeTree` in node.go): the Huffman merge loop.
 * The work list starts as the frequency pairs; each pass takes the first two
 * entries as left and right child of a new node, puts the new node in front of
 * the remaining entries and stable-sorts the list by weight.
 */
module Builder {
  import opened Wrappers
  import opened SeqUtil
  import opened StableSort
  import opened HuffmanTree

  /** An entry of the `[]Frequentable` work list: a frequency pair not yet
      turned into a leaf, or a tree built so far. */
  datatype Item<S> = Pair(pair: FreqPair<S>) | Sub(tree: Tree<S>)

  /** How `NewNode` fails: the empty table makes `nodes[0]` index out of
      range, and a one-entry table fails the `*Node` type assertion. */
  datatype BuildError = EmptyTable | SinglePair

  /** Frequentable.Freq. */
  function ItemFreq<S>(it: Item<S>): nat
  {
    match it
    case Pair(p) => p.freq
    case Sub(t) => if t.Node? then t.freq else 0
  }

  /** The node an entry becomes when it is merged: a pair becomes a leaf. */
  function AsNode<S>(it: Item<S>): Tree<S>
  {
    match it
    case Pair(p) => LeafOf(p)
    case Sub(t) => t
  }

  function ItemLeaves<S>(it: Item<S>): seq<FreqPair<S>>
  {
    Leaves(AsNode(it))
  }

  /** Every entry stands for a full, correctly weighted tree. */
  predicate Good<S>(it: Item<S>)
  {
    Full(AsNode(it)) && Weighted(AsNode(it))
  }

  /** The work list before the first pass. */
  function Items<S>(ordered: seq<FreqPair<S>>): (r: seq<Item<S>>)
    ensures |r| == |ordered|
    ensures forall i :: 0 <= i < |r| ==> r[i] == Pair(ordered[i]) && Good(r[i])
  {
    if |ordered| == 0 then [] else [Pair(ordered[0])] + Items(ordered[1..])
  }

  /** The node one pass builds: the first entry on the left, the second on
      the right, weighing their sum. */
  function Merge<S>(a: Item<S>, b: Item<S>): (r: Tree<S>)
    requires Good(a) && Good(b)
    ensures Full(r) && Weighted(r) && r.freq == ItemFreq(a) + ItemFreq(b)
    ensures Leaves(r) == ItemLeaves(a) + ItemLeaves(b)
    ensures r.pair.None?
  {
    Node(ItemFreq(a) + ItemFreq(b), None, AsNode(a), AsNode(b))
  }

  /** One pass of the loop. */
  function Step<S>(nodes: seq<Item<S>>): (r: seq<Item<S>>)
    requires |nodes| >= 2 && Good(nodes[0]) && Good(nodes[1])
    ensures |r| == |nodes| - 1 && SortedBy(r, ItemFreq)
  {
    Sort([Sub(Merge(nodes[0], nodes[1]))] + nodes[2..], ItemFreq)
  }

  lemma {:induction false} ItemsLeaves<S>(ordered: seq<FreqPair<S>>)
    ensures Flatten(Items(ordered), ItemLeaves) == ordered
    ensures Sum(Items(ordered), ItemFreq) == Sum(ordered, PairFreq)
  {
    if |ordered| > 0 {
      ItemsLeaves(ordered[1..]);
      assert Items(ordered)[1..] == Items(ordered[1..]);
      assert Leaves(LeafOf(ordered[0])) == [ordered[0]] + [] + [];
    }
  }

  /** A pass keeps every entry good, keeps the leaves and the total weight,
      and the new node is on the list. */
  lemma StepPreserves<S>(nodes: seq<Item<S>>)
    requires |nodes| >= 2 && forall i :: 0 <= i < |nodes| ==> Good(nodes[i])
    ensures forall i :: 0 <= i < |Step(nodes)| ==> Good(Step(nodes)[i])
    ensures multiset(Flatten(Step(nodes), ItemLeaves)) == multiset(Flatten(nodes, ItemLeaves))
    ensures Sum(Step(nodes), ItemFreq) == Sum(nodes, ItemFreq)
    ensures Sub(Merge(nodes[0], nodes[1])) in Step(nodes)
  {
    var m := Sub(Merge(nodes[0], nodes[1]));
    var pre := [m] + nodes[2..];
    var r := Step(nodes);
    assert multiset(r) == multiset(pre);
    StepGood(nodes, pre, r);
    MergeFlat(nodes, m);
    FlattenPermutation(r, pre, ItemLeaves);
    SumPermutation(r, pre, ItemFreq);
    assert m in multiset(pre);
  }

  lemma StepGood<S>(nodes: seq<Item<S>>, pre: seq<Item<S>>, r: seq<Item<S>>)
    requires |nodes| >= 2 && forall i :: 0 <= i < |nodes| ==> Good(nodes[i])
    requires pre == [Sub(Merge(nodes[0], nodes[1]))] + nodes[2..]
    requires multiset(r) == multiset(pre)
    ensures forall i :: 0 <= i < |r| ==> Good(r[i])
  {
    forall i | 0 <= i < |r|
      ensures Good(r[i])
    {
      assert r[i] in multiset(pre);
      var k :| 0 <= k < |pre| && pre[k] == r[i];
      if k > 0 {
        assert pre[k] == nodes[k + 1];
      }
    }
  }

  /** Replacing the first two entries by their merge keeps the leaves and the
      total weight. */
  lemma MergeFlat<S>(nodes: seq<Item<S>>, m: Item<S>)
    requires |nodes| >= 2 && Good(nodes[0]) && Good(nodes[1])
    requires m == Sub(Merge(nodes[0], nodes[1]))
    ensures Flatten([m] + nodes[2..], ItemLeaves) == Flatten(nodes, ItemLeaves)
    ensures Sum([m] + nodes[2..], ItemFreq) == Sum(nodes, ItemFreq)
  {
    var rest := nodes[2..];
    assert ([m] + rest)[1..] == rest;
    assert nodes[1..][1..] == rest;
    assert ItemFreq(m) == ItemFreq(nodes[0]) + ItemFreq(nodes[1]);
    assert ItemLeaves(m) == ItemLeaves(nodes[0]) + ItemLeaves(nodes[1]);
  }

  /** The merged node goes in front of every entry of the same weight: it is
      placed at index 0 before the stable sort. */
  lemma StepFrontFirst<S>(nodes: seq<Item<S>>)
    requires |nodes| >= 2 && Good(nodes[0]) && Good(nodes[1])
    ensures var m := Merge(nodes[0], nodes[1]);
      WithKey(Step(nodes), ItemFreq, m.freq) == [Sub(m)] + WithKey(nodes[2..], ItemFreq, m.freq)
  {
    var m := Merge(nodes[0], nodes[1]);
    assert ItemFreq(Sub(m)) == m.freq;
    FrontFirstAmongEqual(Sub(m), nodes[2..], ItemFreq);
  }

  /** The merge loop as a function: passes until one entry is left. Every
      pass merges the two lightest entries, so this fixes which tree the
      loop builds, and the entry left holds every leaf and the total
      weight. */
  function Build<S>(nodes: seq<Item<S>>): (r: seq<Item<S>>)
    requires |nodes| >= 1 && forall i :: 0 <= i < |nodes| ==> Good(nodes[i])
    ensures |r| == 1 && Good(r[0])
    ensures |nodes| >= 2 ==> r[0].Sub? && AsNode(r[0]).pair.None?
    ensures multiset(ItemLeaves(r[0])) == multiset(Flatten(nodes, ItemLeaves))
    ensures ItemFreq(r[0]) == Sum(nodes, ItemFreq)
    decreases |nodes|
  {
    if |nodes| == 1 then
      assert Flatten(nodes, ItemLeaves) == ItemLeaves(nodes[0]) + [];
      assert Sum(nodes, ItemFreq) == ItemFreq(nodes[0]) + 0;
      nodes
    else
      StepPreserves(nodes);
      StepMerged(nodes);
      Build(Step(nodes))
  }

  lemma BuildStep<S>(nodes: seq<Item<S>>)
    requires |nodes| >= 2 && forall i :: 0 <= i < |nodes| ==> Good(nodes[i])
    ensures forall i :: 0 <= i < |Step(nodes)| ==> Good(Step(nodes)[i])
    ensures Build(nodes) == Build(Step(nodes))
  {
    StepPreserves(nodes);
  }

  /** What the entry that Build leaves says about the table. */
  lemma BuiltTree<S>(ordered: seq<FreqPair<S>>, head: Tree<S>)
    requires |ordered| >= 1 && Build(Items(ordered)) == [Sub(head)]
    ensures Full(head) && Weighted(head)
    ensures multiset(Leaves(head)) == multiset(ordered)
    ensures head.freq == Sum(ordered, PairFreq)
    ensures |ordered| >= 2 ==> head.pair.None?
  {
    ItemsLeaves(ordered);
    assert Good(Sub(head));
  }

  /** After a pass that leaves one entry, that entry is the merged node. */
  lemma StepMerged<S>(nodes: seq<Item<S>>)
    requires |nodes| >= 2 && Good(nodes[0]) && Good(nodes[1])
    ensures |nodes| == 2 ==> Step(nodes) == [Sub(Merge(nodes[0], nodes[1]))]
  {
    if |nodes| == 2 {
      var m := Sub(Merge(nodes[0], nodes[1]));
      assert [m] + nodes[2..] == [m];
      var r := Sort([m], ItemFreq);
      assert r[0] in multiset(r);
      assert r == [r[0]];
    }
  }

  /** NewNode: the Huffman tree of a frequency table. It fails unless the
      table has at least two entries; otherwise the tree is full, holds
      exactly the table's pairs as leaves, and every node weighs the sum of
      its leaves' frequencies. */
  method NewNode<S>(ordered: seq<FreqPair<S>>) returns (r: Result<Tree<S>, BuildError>)
    ensures |ordered| == 0 ==> r == Failure(EmptyTable)
    ensures |ordered| == 1 ==> r == Failure(SinglePair)
    ensures r.Success? <==> |ordered| >= 2
    ensures r.Success? ==> Full(r.value) && Weighted(r.value)
    ensures r.Success? ==> multiset(Leaves(r.value)) == multiset(ordered)
    ensures r.Success? ==> r.value.freq == Sum(ordered, PairFreq)
    ensures r.Success? ==> r.value.pair.None?
    ensures r.Success? ==> Build(Items(ordered)) == [Sub(r.value)]
  {
    if |ordered| == 0 {
      return Failure(EmptyTable);
    }
    var nodes := MergeAll(Items(ordered));
    if nodes[0].Pair? {
      return Failure(SinglePair);
    }
    var head := nodes[0].tree;
    BuiltTree(ordered, head);
    r := Success(head);
  }

  /** The loop of NewNode: merge the two lightest entries and re-sort, until
      one entry is left. */
  method MergeAll<S>(items: seq<Item<S>>) returns (nodes: seq<Item<S>>)
    requires |items| >= 1 && forall i :: 0 <= i < |items| ==> Good(items[i])
    ensures nodes == Build(items)
  {
    nodes := items;
    while |nodes| > 1
      invariant 1 <= |nodes| && forall i :: 0 <= i < |nodes| ==> Good(nodes[i])
      invariant Build(nodes) == Build(items)
      decreases |nodes|
    {
      BuildStep(nodes);
      nodes := Step(nodes);
    }
  }
}

=== FILE: encode.dfy ===
/**
 * `Encode` of pkg/huffman/encode.go: reject bytes above 127, build the
 * frequency table and the tree, then write each input byte's search result to
 * one bit writer. The result is the serialised tree and the content buffer.
 *
 * The iteration order of the counting map is a parameter (`order`), as in
 * FreqTable. `tree.Bytes()` is taken to be the tree's serialisation
 * (TreeCodec.TreeBytes).
 */
module Encoder {
  import opened Wrappers
  import opened SeqUtil
  import opened HuffmanTree
  import opened FreqTable
  import opened Builder
  import opened PathSearch
  import opened BitWriter
  import opened TreeCodec
  import opened BitOps
  import opened WalkDecoder

  datatype EncodeError =
    | NonAscii(symbol: bv8, index: nat)  // a byte above 127 at this position
    | TooFewSymbols(cause: BuildError)   // NewNode panics on fewer than two table entries

  datatype Encoded = Encoded(tree: seq<bv8>, content: seq<bv8>)

  predicate Ascii(input: seq<bv8>)
  {
    forall i :: 0 <= i < |input| ==> input[i] <= 127
  }

  /** Every input byte has a leaf the search finds. */
  predicate AllFound(t: Tree<bv8>, input: seq<bv8>)
  {
    forall i :: 0 <= i < |input| ==> Holds(t, input[i])
  }

  /** The content bitstream: each input byte's path, in input order, as
      WriteBytes emits a search result. */
  function Content(t: Tree<bv8>, input: seq<bv8>): (r: seq<bool>)
    requires AllFound(t, input)
  {
    if |input| == 0 then []
    else Content(t, input[..|input| - 1]) + EmitOrder(RightFirstPath(t, input[|input| - 1]))
  }

  /** Every input byte's leaf is at most eight edges deep, so its search
      result is written root edge first. */
  predicate ShortCodes(t: Tree<bv8>, input: seq<bv8>)
  {
    forall i :: 0 <= i < |input| ==> Holds(t, input[i]) && |RightFirstPath(t, input[i])| <= 8
  }

  /** A pair at a leaf of a full tree is found by the search. */
  lemma {:induction false} LeafHolds<S>(t: Tree<S>, p: FreqPair<S>)
    requires Full(t) && p in Leaves(t)
    ensures Holds(t, p.symbol)
  {
    if t.pair.None? {
      if p in Leaves(t.left) {
        LeafHolds(t.left, p);
      } else {
        LeafHolds(t.right, p);
      }
    }
  }

  /** Every input byte is a leaf of the tree built from the input's table, so
      the "cannot find the byte" error never happens. */
  lemma TableTreeHoldsInput(input: seq<bv8>, order: seq<bv8>, t: Tree<bv8>)
    requires KeyOrder(order, input)
    requires Full(t) && multiset(Leaves(t)) == multiset(ComputeFreqTable(input, order))
    ensures AllFound(t, input)
  {
    var table := ComputeFreqTable(input, order);
    forall i | 0 <= i < |input|
      ensures Holds(t, input[i])
    {
      assert input[i] in Symbols(table);
      var k :| 0 <= k < |table| && Symbols(table)[k] == input[i];
      assert table[k] in multiset(table);
      LeafHolds(t, table[k]);
    }
  }

  /** The range check: the position of the first byte above 127, if any. */
  method FirstNonAscii(input: seq<bv8>) returns (bad: Option<nat>)
    ensures bad.None? <==> Ascii(input)
    ensures bad.Some? ==> bad.value < |input| && input[bad.value] > 127 && Ascii(input[..bad.value])
  {
    var i := 0;
    while i < |input|
      invariant 0 <= i <= |input| && Ascii(input[..i])
    {
      if input[i] > 127 {
        return Some(i);
      }
      assert input[..i + 1] == input[..i] + [input[i]];
      i := i + 1;
    }
    assert input[..|input|] == input;
    return None;
  }

  /** One more input byte adds its emitted path to the content. */
  lemma ContentStep(t: Tree<bv8>, input: seq<bv8>, k: nat)
    requires AllFound(t, input) && k < |input|
    ensures AllFound(t, input[..k]) && AllFound(t, input[..k + 1])
    ensures Content(t, input[..k + 1]) == Content(t, input[..k]) + EmitOrder(RightFirstPath(t, input[k]))
  {
    assert input[..k + 1][..k] == input[..k];
  }

  /** The second loop: each input byte's search result, written in input
      order to a fresh writer. */
  method WriteContent(t: Tree<bv8>, input: seq<bv8>) returns (content: seq<bv8>)
    requires AllFound(t, input)
    ensures Packed(content, Content(t, input))
  {
    var wr := Empty;
    EmptyValid();
    var k := 0;
    while k < |input|
      invariant 0 <= k <= |input|
      invariant Valid(wr) && Stream(wr) == Content(t, input[..k])
    {
      var b := input[k];
      var found := Search(t, b);
      if found.width == -1 {
        // the "cannot find the byte" error: unreachable, the search finds
        // every byte of the input
        assert false;
      }
      SearchEmits(t, b);
      wr := WriteBytes(wr, found.bytes, found.width);
      ContentStep(t, input, k);
      k := k + 1;
    }
    assert input[..|input|] == input;
    ValidPacked(wr);
    return wr.buffer;
  }

  /** Encode: the first byte above 127 is an error; so is an input with fewer
      than two distinct bytes. Otherwise the tree is full, holds the frequency
      table as its leaves, its bytes decode back to it, and the content holds
      every input byte's path in input order. */
  method Encode(input: seq<bv8>, order: seq<bv8>) returns (r: Result<Encoded, EncodeError>, ghost tree: Tree<bv8>)
    requires KeyOrder(order, input)
    ensures (r.Failure? && r.error.NonAscii?) <==> !Ascii(input)
    ensures r.Failure? && r.error.NonAscii? ==>
      && r.error.index < |input| && input[r.error.index] == r.error.symbol && r.error.symbol > 127
      && Ascii(input[..r.error.index])
    ensures (r.Failure? && r.error.TooFewSymbols?) <==> Ascii(input) && |order| < 2
    ensures r.Success? <==> Ascii(input) && |order| >= 2
    ensures r.Success? ==> Full(tree) && Weighted(tree)
    ensures r.Success? ==> multiset(Leaves(tree)) == multiset(ComputeFreqTable(input, order))
    ensures r.Success? ==> Build(Items(ComputeFreqTable(input, order))) == [Sub(tree)]
    ensures r.Success? ==> Packed(r.value.tree, TreeBits(tree))
    ensures r.Success? ==> NewNodeFromBytes(BitReader.NewReader(r.value.tree)) == Success(Strip(tree))
    ensures r.Success? ==> AllFound(tree, input) && Packed(r.value.content, Content(tree, input))
    ensures r.Success? && ShortCodes(tree, input) ==>
      && Full(tree) && tree.pair.None? && Content(tree, input) == CodeStream(tree, input)
      && WalkDecode(tree, Content(tree, input)) == Some(input)
  {
    tree := Nil;
    var bad := FirstNonAscii(input);
    if bad.Some? {
      return Failure(NonAscii(input[bad.value], bad.value)), tree;
    }
    var ordered := ComputeFreqTable(input, order);
    var built := NewNode(ordered);
    if built.Failure? {
      return Failure(TooFewSymbols(built.error)), tree;
    }
    var t := built.value;
    tree := t;
    TableTreeHoldsInput(input, order, t);
    var content := WriteContent(t, input);
    var treeBytes := TreeBytes(t);
    TreeRoundTrip(t, treeBytes);
    if ShortCodes(t, input) {
      ShortContentIsCodeStream(t, input);
      ContentRoundTrip(t, input);
    }
    r := Success(Encoded(treeBytes, content));
  }

  // ---------------------------------------------------------------------------
  // Walking the content back

  /** The stream the walk back reads: each input byte's root-first path, in
      input order. For codes of at most eight edges it is the content
      (`ShortContentIsCodeStream`); a deeper code is emitted low byte first
      (`EmitOrder`), and the walk misreads it (`DeepCodeMisdecodes`). */
  function CodeStream(t: Tree<bv8>, input: seq<bv8>): (r: seq<bool>)
    requires AllFound(t, input)
  {
    if |input| == 0 then []
    else CodeStream(t, input[..|input| - 1]) + RightFirstPath(t, input[|input| - 1])
  }

  /** The code stream is the run of the symbols' root-first paths: the walk
      reads the symbols off in order and carries on with what follows. */
  lemma {:induction false} CodeStreamDecodes(t: Tree<bv8>, input: seq<bv8>, rest: seq<bool>)
    requires Full(t) && t.pair.None? && AllFound(t, input)
    ensures WalkDecode(t, CodeStream(t, input) + rest) == Prepend(input, WalkDecode(t, rest))
    decreases |input|
  {
    if |input| == 0 {
      assert CodeStream(t, input) + rest == rest;
      assert WalkDecode(t, rest).Some? ==> [] + WalkDecode(t, rest).value == WalkDecode(t, rest).value;
    } else {
      var init, x := input[..|input| - 1], input[|input| - 1];
      assert AllFound(t, init) by {
        forall i | 0 <= i < |init|
          ensures Holds(t, init[i])
        {
          assert init[i] == input[i];
        }
      }
      var p := RightFirstPath(t, x);
      AppendAssoc(CodeStream(t, init), p, rest);
      CodeStreamDecodes(t, init, p + rest);
      CodewordFirst(t, p, x, rest);
      if WalkDecode(t, rest).Some? {
        AppendAssoc(init, [x], WalkDecode(t, rest).value);
        assert init + [x] == input;
      }
    }
  }

  /** Every input byte of a full tree, written as its root-first path, walks
      back to the input. */
  lemma CodeStreamRoundTrip(t: Tree<bv8>, input: seq<bv8>)
    requires Full(t) && t.pair.None? && AllFound(t, input)
    ensures WalkDecode(t, CodeStream(t, input)) == Some(input)
  {
    CodeStreamDecodes(t, input, []);
    assert CodeStream(t, input) + [] == CodeStream(t, input);
    assert input + [] == input;
  }

  /** With every code at most eight edges long, the content WriteBytes
      emits is the code stream. */
  lemma {:induction false} ShortContentIsCodeStream(t: Tree<bv8>, input: seq<bv8>)
    requires ShortCodes(t, input)
    ensures AllFound(t, input) && Content(t, input) == CodeStream(t, input)
    decreases |input|
  {
    if |input| > 0 {
      var init := input[..|input| - 1];
      assert ShortCodes(t, init) by {
        forall i | 0 <= i < |init|
          ensures Holds(t, init[i]) && |RightFirstPath(t, init[i])| <= 8
        {
          assert init[i] == input[i];
        }
      }
      ShortContentIsCodeStream(t, init);
      ShortPathsInOrder(RightFirstPath(t, input[|input| - 1]));
    }
  }

  /** With every leaf at most eight edges deep, the content is the run of the
      symbols' root-first paths: the walk reads the symbols off in order and
      carries on with what follows. */
  lemma ContentDecodes(t: Tree<bv8>, input: seq<bv8>, rest: seq<bool>)
    requires Full(t) && t.pair.None? && ShortCodes(t, input)
    ensures WalkDecode(t, Content(t, input) + rest) == Prepend(input, WalkDecode(t, rest))
  {
    ShortContentIsCodeStream(t, input);
    CodeStreamDecodes(t, input, rest);
  }

  /** The content of an input whose codes fit a byte decodes, by walking the
      tree, to the input. */
  lemma ContentRoundTrip(t: Tree<bv8>, input: seq<bv8>)
    requires Full(t) && t.pair.None? && ShortCodes(t, input)
    ensures WalkDecode(t, Content(t, input)) == Some(input)
  {
    ShortContentIsCodeStream(t, input);
    CodeStreamRoundTrip(t, input);
  }

  /** A chain of `k` left edges down to the leaf for byte 1, with the leaf for
      byte 2 as every right child on the way. */
  function Chain(k: nat): (t: Tree<bv8>)
    ensures Full(t) && Holds(t, 1) && RightFirstPath(t, 1) == Zeros(k)
  {
    if k == 0 then LeafOf(FreqPair(1, 1))
    else
      var t := Node(0, None, Chain(k - 1), LeafOf(FreqPair(2, 1)));
      assert [false] + Zeros(k - 1) == Zeros(k);
      t
  }

  /** A code nine edges long does not walk back. Byte 1 below sits under a
      right edge and eight left edges; its search result spans two bytes, and
      WriteBytes emits the low byte, the eight deepest edges, first. Walking
      that content from the root takes the first `false` to the leaf for
      byte 0, so the content of `[1]` does not decode to `[1]`, while the
      code stream does. */
  lemma DeepCodeMisdecodes()
    ensures var t := Node(0, None, LeafOf(FreqPair(0, 1)), Chain(8));
      && Full(t) && t.pair.None? && AllFound(t, [1]) && |RightFirstPath(t, 1)| == 9
      && Content(t, [1]) == Zeros(8) + [true]
      && WalkDecode(t, Content(t, [1])) != Some([1])
      && WalkDecode(t, CodeStream(t, [1])) == Some([1])
  {
    var t := Node(0, None, LeafOf(FreqPair(0, 1)), Chain(8));
    var p := RightFirstPath(t, 1);
    assert p == [true] + Zeros(8);
    assert EmitOrder(p) == p[1..] + EmitOrder(p[..1]);
    assert [1 as bv8][..0] == [];
    assert Content(t, [1]) == Content(t, []) + EmitOrder(p);
    var bits := Zeros(8) + [true];
    assert bits[0] == false && bits[1..] == Zeros(7) + [true];
    assert WalkLeaf(t, bits) == Some((0, 1));
    CodeStreamRoundTrip(t, [1]);
  }
}

=== FILE: freqtable.dfy ===
/**
 * `computeFreqTable` of pkg/huffman/encode.go (bytes) and of
 * pkg/huffman/huffman.go (runes): count every symbol in a map, list the map's
 * entries in its iteration order, and stable-sort the list by frequency.
 * Go leaves the iteration order of a map unspecified, so the model takes it
 * as a parameter: any order that lists every key once.
 */
module FreqTable {
  import opened SeqUtil
  import opened StableSort
  import opened HuffmanTree

  /** The counting map of the first loop, built one symbol at a time. */
  function CountTable<S(==,!new)>(input: seq<S>): (m: map<S, nat>)
    ensures forall x :: x in m <==> x in input
    ensures forall x :: x in m ==> m[x] == Count(input, x)
  {
    if |input| == 0 then map[]
    else
      var init, last := input[..|input| - 1], input[|input| - 1];
      assert input == init + [last];
      var m := CountTable(init);
      m[last := (if last in m then m[last] else 0) + 1]
  }

  /** `order` lists each distinct symbol of `input` exactly once: the keys of
      the counting map in some iteration order. */
  predicate KeyOrder<S(==,!new)>(order: seq<S>, input: seq<S>)
  {
    Distinct(order) && (forall x :: x in order ==> x in input) && (forall x :: x in input ==> x in order)
  }

  /** The entries of the counting map in iteration order, before sorting. */
  function Entries<S(==,!new)>(order: seq<S>, m: map<S, nat>): (r: seq<FreqPair<S>>)
    requires forall x :: x in order ==> x in m
    ensures |r| == |order| && forall i :: 0 <= i < |r| ==> r[i] == FreqPair(order[i], m[order[i]])
  {
    if |order| == 0 then [] else [FreqPair(order[0], m[order[0]])] + Entries(order[1..], m)
  }

  /** computeFreqTable: every distinct symbol of the input once, with its
      number of occurrences, sorted by that number. */
  function ComputeFreqTable<S(==,!new)>(input: seq<S>, order: seq<S>): (r: seq<FreqPair<S>>)
    requires KeyOrder(order, input)
    ensures |r| == |order|
    ensures SortedBy(r, PairFreq)
    ensures Distinct(Symbols(r))
    ensures forall x :: x in input <==> x in Symbols(r)
    ensures forall i :: 0 <= i < |r| ==> r[i].freq == Count(input, r[i].symbol) >= 1
  {
    var e := Entries(order, CountTable(input));
    var r := Sort(e, PairFreq);
    EntriesFacts(input, order);
    TablePermutation(input, e, r);
    r
  }

  /** The entries before sorting: the symbols of the input, once each, with
      their counts. */
  lemma EntriesFacts<S(!new)>(input: seq<S>, order: seq<S>)
    requires KeyOrder(order, input)
    ensures var e := Entries(order, CountTable(input));
      && Distinct(Symbols(e))
      && (forall x :: x in input <==> x in Symbols(e))
      && (forall p :: p in e ==> p.freq == Count(input, p.symbol) >= 1)
  {
    var e := Entries(order, CountTable(input));
    assert Symbols(e) == order;
    forall p | p in e
      ensures p.freq == Count(input, p.symbol) >= 1
    {
      assert p.symbol in input;
      assert p.symbol in multiset(input);
    }
  }

  /** A permutation of the entries keeps the symbols, their counts and their
      distinctness. */
  lemma TablePermutation<S(!new)>(input: seq<S>, e: seq<FreqPair<S>>, r: seq<FreqPair<S>>)
    requires multiset(r) == multiset(e) && Distinct(Symbols(e))
    requires forall x :: x in input <==> x in Symbols(e)
    requires forall p :: p in e ==> p.freq == Count(input, p.symbol) >= 1
    ensures Distinct(Symbols(r))
    ensures forall x :: x in input <==> x in Symbols(r)
    ensures forall i :: 0 <= i < |r| ==> r[i].freq == Count(input, r[i].symbol) >= 1
  {
    forall p
      ensures p in r <==> p in e
    {
      assert p in r <==> p in multiset(r);
      assert p in e <==> p in multiset(e);
    }
    forall x
      ensures x in Symbols(e) <==> x in Symbols(r)
    {
      if x in Symbols(e) {
        var i :| 0 <= i < |e| && Symbols(e)[i] == x;
        assert e[i] in r;
      }
      if x in Symbols(r) {
        var i :| 0 <= i < |r| && Symbols(r)[i] == x;
        assert r[i] in e;
      }
    }
    AtMostOnce(e);
    forall i, j | 0 <= i < j < |r|
      ensures r[i].symbol != r[j].symbol
    {
      TwoPositions(r, i, j);
      SameSymbolSameEntry(e, r[i], r[j]);
    }
  }

  /** With distinct symbols, no entry occurs twice. */
  lemma {:induction false} AtMostOnce<S>(e: seq<FreqPair<S>>)
    requires Distinct(Symbols(e))
    ensures forall p :: multiset(e)[p] <= 1
    decreases |e|
  {
    if |e| > 0 {
      var t := e[1..];
      assert Distinct(Symbols(t)) by {
        forall i, j | 0 <= i < j < |t|
          ensures Symbols(t)[i] != Symbols(t)[j]
        {
          assert Symbols(e)[i + 1] != Symbols(e)[j + 1];
        }
      }
      AtMostOnce(t);
      assert e == [e[0]] + t;
      assert e[0] !in t by {
        forall k | 0 <= k < |t|
          ensures t[k] != e[0]
        {
          assert Symbols(e)[k + 1] != Symbols(e)[0];
        }
      }
    }
  }

  /** An entry at two positions occurs at least twice. */
  lemma TwoPositions<T>(r: seq<T>, i: nat, j: nat)
    requires i < j < |r|
    ensures r[i] == r[j] ==> multiset(r)[r[i]] >= 2
  {
    assert r == r[..i] + [r[i]] + r[i + 1..j] + [r[j]] + r[j + 1..];
  }

  lemma SameSymbolSameEntry<S>(e: seq<FreqPair<S>>, p: FreqPair<S>, q: FreqPair<S>)
    requires Distinct(Symbols(e)) && p in e && q in e
    ensures p.symbol == q.symbol ==> p == q
  {
    var a :| 0 <= a < |e| && e[a] == p;
    var b :| 0 <= b < |e| && e[b] == q;
    assert Symbols(e)[a] == p.symbol && Symbols(e)[b] == q.symbol;
  }

  /** The number of positions of `input` holding a symbol of `order`. */
  function CountAll<S(==,!new)>(order: seq<S>, input: seq<S>): nat
  {
    if |order| == 0 then 0 else Count(input, order[0]) + CountAll(order[1..], input)
  }

  lemma {:induction false} CountAllCons<S(!new)>(order: seq<S>, y: S, rest: seq<S>)
    requires Distinct(order)
    ensures CountAll(order, [y] + rest) == (if y in order then 1 else 0) + CountAll(order, rest)
    decreases |order|
  {
    if |order| > 0 {
      assert ([y] + rest)[1..] == rest;
      CountAllCons(order[1..], y, rest);
      assert y in order <==> y == order[0] || y in order[1..];
      assert order[0] !in order[1..];
    }
  }

  /** Counting every distinct symbol counts every position once. */
  lemma {:induction false} CountAllTotal<S(!new)>(order: seq<S>, input: seq<S>)
    requires Distinct(order) && forall x :: x in input ==> x in order
    ensures CountAll(order, input) == |input|
    decreases |input|
  {
    if |input| == 0 {
      CountAllZero(order, input);
    } else {
      assert input == [input[0]] + input[1..];
      CountAllCons(order, input[0], input[1..]);
      CountAllTotal(order, input[1..]);
    }
  }

  lemma {:induction false} CountAllZero<S(!new)>(order: seq<S>, input: seq<S>)
    requires |input| == 0
    ensures CountAll(order, input) == 0
    decreases |order|
  {
    if |order| > 0 {
      CountAllZero(order[1..], input);
    }
  }

  lemma {:induction false} EntriesSum<S(!new)>(order: seq<S>, input: seq<S>)
    requires forall x :: x in order ==> x in input
    ensures Sum(Entries(order, CountTable(input)), PairFreq) == CountAll(order, input)
    decreases |order|
  {
    if |order| > 0 {
      EntriesSum(order[1..], input);
      assert Entries(order, CountTable(input))[1..] == Entries(order[1..], CountTable(input));
    }
  }

  /** The frequencies add up to the input length. */
  lemma FreqTableTotal<S(!new)>(input: seq<S>, order: seq<S>)
    requires KeyOrder(order, input)
    ensures Sum(ComputeFreqTable(input, order), PairFreq) == |input|
  {
    var e := Entries(order, CountTable(input));
    SumPermutation(ComputeFreqTable(input, order), e, PairFreq);
    EntriesSum(order, input);
    CountAllTotal(order, input);
  }

  /** Among equal frequencies the table keeps the map's iteration order; the
      order is all the choice there is. */
  lemma FreqTableTies<S(!new)>(input: seq<S>, order: seq<S>, k: nat)
    requires KeyOrder(order, input)
    ensures WithKey(ComputeFreqTable(input, order), PairFreq, k) == WithKey(Entries(order, CountTable(input)), PairFreq, k)
  {
    SortStable(Entries(order, CountTable(input)), PairFreq, k);
  }

  /** The distinct symbols in order of first occurrence: one iteration order
      the map may have. */
  function FirstOccurrences<S(==,!new)>(input: seq<S>): (r: seq<S>)
    ensures KeyOrder(r, input)
  {
    if |input| == 0 then []
    else
      var init, last := input[..|input| - 1], input[|input| - 1];
      assert input == init + [last];
      var d := FirstOccurrences(init);
      if last in d then d else d + [last]
  }
}

=== FILE: legacy.dfy ===
/**
 * The older variants of the search and the driver: `Search(rune)`,
 * `computeRightByte`, `maxDepth` and `Huffman` of pkg/huffman/huffman.go,
 * and the string-path `Search` and `maxDepth` of the root node.go. Their
 * `NewNode`/`makeTree` and `computeFreqTable` are Builder.NewNode and
 * FreqTable.ComputeFreqTable over runes, and their writer is BitWriter.Write.
 *
 * Both searches probe the left child first and give up at an inner node that
 * lacks a child. Runes are Dafny `char`s.
 */
module LegacySearch {
  import opened Wrappers
  import opened SeqUtil
  import opened BitOps
  import opened Masks
  import opened HuffmanTree
  import opened FreqTable
  import opened Builder
  import opened BitWriter
  import PathSearch
  import opened WalkDecoder

  /** The legacy searches find `b`: a leaf answers for its own symbol, an
      inner node needs both children and asks the left one first. */
  predicate LeftFound<S(==)>(t: Tree<S>, b: S)
  {
    match t
    case Nil => false
    case Node(_, pair, left, right) =>
      if pair.Some? then pair.value.symbol == b
      else left.Node? && right.Node? && (LeftFound(left, b) || LeftFound(right, b))
  }

  /** The root-first path the legacy searches take, `true` for a right edge. */
  function LeftFirstPath<S(==)>(t: Tree<S>, b: S): (p: seq<bool>)
    requires LeftFound(t, b)
    ensures PathSearch.LeadsTo(t, p, b)
  {
    if t.pair.Some? then []
    else if LeftFound(t.left, b) then [false] + LeftFirstPath(t.left, b)
    else [true] + LeftFirstPath(t.right, b)
  }

  /** The byte a `w`-edge path leaves in the single-byte search: the deepest
      eight edges, root side first, under zero padding. */
  function Tail8(p: seq<bool>): (r: seq<bool>)
    ensures |r| == 8
  {
    if |p| <= 8 then Zeros(8 - |p|) + p else p[|p| - 8..]
  }

  /** A byte shifted by 8 or more is 0. */
  lemma {:induction false} ShlPastTop(x: bv8, s: nat)
    requires s >= 8
    ensures Shl(x, s) == 0
    decreases s
  {
    if s == 8 {
      assert Shl(x, 8) == Shl(x << 1 << 1 << 1 << 1 << 1 << 1 << 1 << 1, 0);
    } else {
      assert Shl(x, s) == Shl(x << 1, s - 1);
      ShlPastTop(x << 1, s - 1);
    }
  }

  /** A left edge above a found byte leaves the byte as it is. */
  lemma {:induction false} PrependLeft(p: seq<bool>)
    ensures Tail8([false] + p) == Tail8(p)
  {
    var p' := [false] + p;
    if |p| < 8 {
      AppendAssoc(Zeros(7 - |p|), [false], p);
      assert Zeros(7 - |p|) + [false] == Zeros(8 - |p|);
    } else {
      assert p'[|p'| - 8..] == p[|p| - 8..];
    }
  }

  /** A right edge above a found byte sets the bit at the path's depth, while
      that still lies inside the byte. */
  lemma {:induction false} PrependRightShort(x: bv8, p: seq<bool>)
    requires |p| < 8 && ByteBits(x) == Zeros(8 - |p|) + p
    ensures ByteBits(x | Shl(1, |p|)) == Tail8([true] + p)
  {
    PathSearch.SetBit(x, |p|, p);
    AppendAssoc(Zeros(7 - |p|), [true], p);
  }

  /** Past the byte's top the right edge's bit is lost. */
  lemma {:induction false} PrependRightLong(x: bv8, p: seq<bool>)
    requires |p| >= 8 && ByteBits(x) == p[|p| - 8..]
    ensures ByteBits(x | Shl(1, |p|)) == Tail8([true] + p)
  {
    ShlPastTop(1, |p|);
    assert x | Shl(1, |p|) == x;
    var p' := [true] + p;
    assert p'[|p'| - 8..] == p[|p| - 8..];
  }

  lemma PrependRight(x: bv8, p: seq<bool>)
    requires ByteBits(x) == Tail8(p)
    ensures ByteBits(x | Shl(1, |p|)) == Tail8([true] + p)
  {
    if |p| < 8 {
      PrependRightShort(x, p);
    } else {
      PrependRightLong(x, p);
    }
  }

  /** Search(rune) of pkg/huffman/huffman.go: width -1 when the symbol is not
      found; otherwise the width is the leaf's depth and the byte holds the
      path's deepest eight edges, the edge above the leaf in bit 0. A right
      edge at depth `w` above the leaf sets `1 << w`, which a byte loses for
      `w >= 8`. The receiver is never nil (the source dereferences it). */
  function ByteSearch<S(==)>(t: Tree<S>, b: S): (r: (bv8, int))
    requires t.Node?
    ensures r.1 >= 0 <==> LeftFound(t, b)
    ensures !LeftFound(t, b) ==> r == (0, -1)
    ensures LeftFound(t, b) ==> r.1 == |LeftFirstPath(t, b)| && ByteBits(r.0) == Tail8(LeftFirstPath(t, b))
  {
    if t.pair.Some? then
      if t.pair.value.symbol == b then
        ZeroBits();
        (0, 0)
      else (0, -1)
    else if t.left.Nil? || t.right.Nil? then (0, -1)
    else
      var (leftByte, leftWidth) := ByteSearch(t.left, b);
      if leftWidth >= 0 then
        PrependLeft(LeftFirstPath(t.left, b));
        (leftByte, leftWidth + 1)
      else
        var (rightByte, rightWidth) := ByteSearch(t.right, b);
        if rightWidth >= 0 then
          PrependRight(rightByte, LeftFirstPath(t.right, b));
          (rightByte | Shl(1, rightWidth), rightWidth + 1)
        else (0, -1)
  }

  /** For a leaf at most eight edges deep, the byte is the path as a `w`-bit
      field, root edge first. */
  lemma ByteSearchField<S>(t: Tree<S>, b: S)
    requires t.Node? && LeftFound(t, b) && |LeftFirstPath(t, b)| <= 8
    ensures var (x, w) := ByteSearch(t, b);
      0 <= w <= 8 && Fits(x, w) && FieldBits(x, w) == LeftFirstPath(t, b)
  {
  }

  /** The '0'/'1' string of a path. */
  function PathString(p: seq<bool>): (s: string)
    ensures |s| == |p|
    ensures forall i :: 0 <= i < |p| ==> s[i] == (if p[i] then '1' else '0')
  {
    if |p| == 0 then "" else [if p[0] then '1' else '0'] + PathString(p[1..])
  }

  /** The path a '0'/'1' string spells, '1' for a right edge. */
  function StringPath(s: string): (p: seq<bool>)
    ensures |p| == |s|
    ensures forall i :: 0 <= i < |s| ==> p[i] == (s[i] == '1')
  {
    if |s| == 0 then [] else [s[0] == '1'] + StringPath(s[1..])
  }

  /** Search of the root node.go: the path as a string of '0' (left) and
      '1' (right), and whether the symbol was found. */
  function StringSearch<S(==)>(t: Tree<S>, b: S): (r: (string, bool))
    requires t.Node?
    ensures r.1 <==> LeftFound(t, b)
    ensures !r.1 ==> r.0 == ""
    ensures r.1 ==> r.0 == PathString(LeftFirstPath(t, b))
  {
    if t.pair.Some? then ("", t.pair.value.symbol == b)
    else if t.left.Nil? || t.right.Nil? then ("", false)
    else
      var (leftS, leftB) := StringSearch(t.left, b);
      if leftB then ("0" + leftS, leftB)
      else
        var (rightS, rightB) := StringSearch(t.right, b);
        if rightB then ("1" + rightS, rightB)
        else ("", false)
  }

  /** Following the string from the root, '0' left and '1' right, ends at the
      leaf holding the symbol. */
  lemma StringSearchWalks<S>(t: Tree<S>, b: S)
    requires t.Node? && StringSearch(t, b).1
    ensures PathSearch.LeadsTo(t, StringPath(StringSearch(t, b).0), b)
    ensures |StringSearch(t, b).0| == ByteSearch(t, b).1
  {
    var p := LeftFirstPath(t, b);
    assert StringPath(PathString(p)) == p;
  }

  /** maxDepth: `depth` for a nil tree, otherwise the tree's height; the
      `depth` argument is ignored below the root. */
  function MaxDepth<S>(depth: int, t: Tree<S>): (r: int)
    ensures t.Nil? ==> r == depth
    ensures t.Node? ==> r == Height(t)
    decreases t
  {
    if t.Nil? then depth
    else
      var leftDepth := if t.left.Node? then MaxDepth(0, t.left) else 0;
      var rightDepth := if t.right.Node? then MaxDepth(0, t.right) else 0;
      if leftDepth > rightDepth then leftDepth + 1 else rightDepth + 1
  }

  /** maxDepth of a tree is one more than the longest path from its root
      that ends at a node: every such path is shorter, and one reaches it. */
  lemma MaxDepthLongestWalk<S>(depth: int, t: Tree<S>)
    requires t.Node?
    ensures forall p :: Walk(t, p).Node? ==> |p| < MaxDepth(depth, t)
    ensures exists p :: Walk(t, p).Node? && |p| == MaxDepth(depth, t) - 1
  {
    forall p | Walk(t, p).Node?
      ensures |p| < Height(t)
    {
      WalkBelowHeight(t, p);
    }
    HeightReached(t);
  }

  /** computeRightByte of pkg/huffman/huffman.go, with its literal masks;
      widths outside 0..7 panic. It keeps the same bits as the onesMask
      version of pkg/huffman/encode.go. */
  function LegacyComputeRightByte(b: bv8, w: nat): (r: bv8)
    requires w <= 7
    ensures r == ComputeRightByte(b, w)
    ensures Fits(r, w) && FieldBits(r, w) == FieldBits(b, w)
  {
    ComputeRightByteField(b, w);
    match w
    case 0 => 0
    case 1 => b & 0x01
    case 2 => b & 0x03
    case 3 => b & 0x07
    case 4 => b & 0x0F
    case 5 => b & 0x1F
    case 6 => b & 0x3F
    case _ => b & 0x7F
  }

  // ---------------------------------------------------------------------------
  // Agreement with the right-first search

  /** On a full tree both searches find exactly the leaf symbols. */
  lemma {:induction false} FullFound<S>(t: Tree<S>, b: S)
    requires Full(t)
    ensures LeftFound(t, b) <==> b in LeafSymbols(t)
    ensures PathSearch.Holds(t, b) <==> b in LeafSymbols(t)
  {
    if t.pair.None? {
      FullFound(t.left, b);
      FullFound(t.right, b);
      InnerLeafSymbols(t);
    } else {
      assert Leaves(t) == [t.pair.value];
    }
  }

  /** On a full tree whose leaf symbols are distinct, the legacy path and the
      path of pkg/huffman/node.go's Search are the same: the one leaf is
      reached whichever side is asked first. */
  lemma {:induction false} SearchesAgree<S>(t: Tree<S>, b: S)
    requires Full(t) && Distinct(LeafSymbols(t)) && b in LeafSymbols(t)
    ensures LeftFound(t, b) && PathSearch.Holds(t, b)
    ensures LeftFirstPath(t, b) == PathSearch.RightFirstPath(t, b)
  {
    FullFound(t, b);
    if t.pair.None? {
      InnerLeafSymbols(t);
      var ls, rs := LeafSymbols(t.left), LeafSymbols(t.right);
      DistinctSplit(ls, rs);
      FullFound(t.left, b);
      FullFound(t.right, b);
      if b in ls {
        SearchesAgree(t.left, b);
      } else {
        SearchesAgree(t.right, b);
      }
    }
  }

  /** The halves of a sequence of distinct elements are distinct and share
      nothing. */
  lemma DistinctSplit<T>(a: seq<T>, b: seq<T>)
    requires Distinct(a + b)
    ensures Distinct(a) && Distinct(b)
    ensures forall x :: x in a ==> x !in b
  {
    forall i, j | 0 <= i < j < |a|
      ensures a[i] != a[j]
    {
      assert (a + b)[i] == a[i] && (a + b)[j] == a[j];
    }
    forall i, j | 0 <= i < j < |b|
      ensures b[i] != b[j]
    {
      assert (a + b)[|a| + i] == b[i] && (a + b)[|a| + j] == b[j];
    }
    forall i, j | 0 <= i < |a| && 0 <= j < |b|
      ensures a[i] != b[j]
    {
      assert (a + b)[i] == a[i] && (a + b)[|a| + j] == b[j];
    }
  }

  /** With a repeated symbol the two searches part: the legacy one takes the
      left leaf, pkg/huffman/node.go's the right one. */
  lemma DuplicateLeavesDisagree()
    ensures var t := Node(2, None, LeafOf(FreqPair('a', 1)), LeafOf(FreqPair('a', 1)));
      && LeftFirstPath(t, 'a') == [false]
      && PathSearch.RightFirstPath(t, 'a') == [true]
  {
  }

  // ---------------------------------------------------------------------------
  // The Huffman driver

  datatype HuffmanError =
    | TooFewRunes(cause: BuildError)      // NewNode panics on fewer than two table entries
    | PathTooDeep(symbol: char, width: nat, tree: Tree<char>) // a path longer than a byte, in this tree

  /** Every symbol of the input has a leaf at most eight edges deep. */
  predicate ShallowFor(t: Tree<char>, input: string)
  {
    forall i :: 0 <= i < |input| ==> LeftFound(t, input[i]) && |LeftFirstPath(t, input[i])| <= 8
  }

  /** The paths of the first `n` symbols, in input order. */
  function LegacyContent(t: Tree<char>, input: string): (r: seq<bool>)
    requires ShallowFor(t, input)
  {
    if |input| == 0 then []
    else LegacyContent(t, input[..|input| - 1]) + LeftFirstPath(t, input[|input| - 1])
  }

  /** The write loop: each rune's single-byte search result, in input order,
      to a fresh writer; the first rune deeper than a byte stops it. */
  method WriteRunes(t: Tree<char>, input: string) returns (r: Result<seq<bv8>, HuffmanError>)
    requires t.Node? && forall i :: 0 <= i < |input| ==> LeftFound(t, input[i])
    ensures r.Failure? ==> r.error.PathTooDeep? && r.error.width > 8 && r.error.symbol in input && r.error.tree == t
    ensures r.Failure? <==> !ShallowFor(t, input)
    ensures r.Success? ==> ShallowFor(t, input) && Packed(r.value, LegacyContent(t, input))
  {
    var wr := Empty;
    EmptyValid();
    var k := 0;
    while k < |input|
      invariant 0 <= k <= |input| && ShallowFor(t, input[..k])
      invariant Valid(wr) && Stream(wr) == LegacyContent(t, input[..k])
    {
      var x := input[k];
      var (b, w) := ByteSearch(t, x);
      if w > 8 {
        return Failure(PathTooDeep(x, w, t));
      }
      ByteSearchField(t, x);
      ShallowSnoc(t, input, k);
      wr := WriteEdges(wr, b, w, LeftFirstPath(t, x));
      k := k + 1;
    }
    assert input[..|input|] == input;
    ValidPacked(wr);
    return Success(wr.buffer);
  }

  /** One more rune keeps the prefix shallow and extends its content by the
      rune's path. */
  lemma ShallowSnoc(t: Tree<char>, input: string, k: nat)
    requires k < |input| && ShallowFor(t, input[..k])
    requires LeftFound(t, input[k]) && |LeftFirstPath(t, input[k])| <= 8
    ensures ShallowFor(t, input[..k + 1])
    ensures LegacyContent(t, input[..k + 1]) == LegacyContent(t, input[..k]) + LeftFirstPath(t, input[k])
  {
    assert input[..k + 1][..k] == input[..k];
  }

  /** Writing a found byte appends its path; an empty path writes nothing. */
  method WriteEdges(wr: Writer, b: bv8, w: int, path: seq<bool>) returns (r: Writer)
    requires Valid(wr) && 0 <= w <= 8 && Fits(b, w) && FieldBits(b, w) == path
    ensures Valid(r) && Stream(r) == Stream(wr) + path
  {
    if w == 0 {
      assert path == [];
      assert Stream(wr) + [] == Stream(wr);
      r := wr;
    } else {
      r := Write(wr, b, w);
    }
  }

  /** Huffman: build the tree of the input's runes and write each rune's
      single-byte search result in input order. A rune whose path is longer
      than eight edges stops the run (the single-byte result cannot hold it).
      The written stream is the concatenation of the root-first paths. */
  method Huffman(input: string, order: string) returns (r: Result<(Tree<char>, seq<bv8>), HuffmanError>)
    requires KeyOrder(order, input)
    ensures (r.Failure? && r.error.TooFewRunes?) <==> |order| < 2
    ensures r.Failure? && r.error.PathTooDeep? ==> r.error.width > 8 && r.error.symbol in input
    ensures r.Failure? && r.error.PathTooDeep? ==>
      && Full(r.error.tree) && Weighted(r.error.tree)
      && multiset(Leaves(r.error.tree)) == multiset(ComputeFreqTable(input, order))
      && Build(Items(ComputeFreqTable(input, order))) == [Sub(r.error.tree)]
      && !ShallowFor(r.error.tree, input)
    ensures r.Success? ==> Build(Items(ComputeFreqTable(input, order))) == [Sub(r.value.0)]
    ensures r.Success? ==> Full(r.value.0) && Weighted(r.value.0)
    ensures r.Success? ==> multiset(Leaves(r.value.0)) == multiset(ComputeFreqTable(input, order))
    ensures r.Success? ==> ShallowFor(r.value.0, input) && Packed(r.value.1, LegacyContent(r.value.0, input))
    ensures r.Success? ==>
      && Full(r.value.0) && r.value.0.pair.None?
      && WalkDecode(r.value.0, LegacyContent(r.value.0, input)) == Some(input)
  {
    var ordered := ComputeFreqTable(input, order);
    var built := NewNode(ordered);
    if built.Failure? {
      return Failure(TooFewRunes(built.error));
    }
    var tree := built.value;
    FoundInTable(input, order, tree);
    var written := WriteRunes(tree, input);
    if written.Failure? {
      return Failure(written.error);
    }
    LegacyRoundTrip(tree, input);
    return Success((tree, written.value));
  }

  /** Every rune of the input is a leaf of the tree built from its table. */
  lemma FoundInTable(input: string, order: string, t: Tree<char>)
    requires KeyOrder(order, input)
    requires Full(t) && multiset(Leaves(t)) == multiset(ComputeFreqTable(input, order))
    ensures forall i :: 0 <= i < |input| ==> LeftFound(t, input[i])
  {
    var table := ComputeFreqTable(input, order);
    forall i | 0 <= i < |input|
      ensures LeftFound(t, input[i])
    {
      assert input[i] in Symbols(table);
      var k :| 0 <= k < |table| && Symbols(table)[k] == input[i];
      assert table[k] in multiset(table);
      assert table[k] in Leaves(t);
      LeafInSymbols(Leaves(t), table[k]);
      FullFound(t, input[i]);
    }
  }

  lemma LeafInSymbols<S>(ps: seq<FreqPair<S>>, p: FreqPair<S>)
    requires p in ps
    ensures p.symbol in Symbols(ps)
  {
    var k :| 0 <= k < |ps| && ps[k] == p;
    assert Symbols(ps)[k] == p.symbol;
  }

  // ---------------------------------------------------------------------------
  // Reading the content back

  /** The paths of a run of symbols, then anything: the walk reads the symbols
      off in order and carries on with what follows. */
  lemma {:induction false} LegacyContentDecodes(t: Tree<char>, input: string, rest: seq<bool>)
    requires Full(t) && t.pair.None? && ShallowFor(t, input)
    ensures WalkDecode(t, LegacyContent(t, input) + rest) == Prepend(input, WalkDecode(t, rest))
    decreases |input|
  {
    if |input| == 0 {
      assert LegacyContent(t, input) + rest == rest;
      assert WalkDecode(t, rest).Some? ==> [] + WalkDecode(t, rest).value == WalkDecode(t, rest).value;
    } else {
      var init, x := input[..|input| - 1], input[|input| - 1];
      assert ShallowFor(t, init) by {
        forall i | 0 <= i < |init|
          ensures LeftFound(t, init[i]) && |LeftFirstPath(t, init[i])| <= 8
        {
          assert init[i] == input[i];
        }
      }
      var p := LeftFirstPath(t, x);
      AppendAssoc(LegacyContent(t, init), p, rest);
      LegacyContentDecodes(t, init, p + rest);
      CodewordFirst(t, p, x, rest);
      if WalkDecode(t, rest).Some? {
        AppendAssoc(init, [x], WalkDecode(t, rest).value);
        assert init + [x] == input;
      }
    }
  }

  /** The legacy content stream decodes, by walking the tree, to the input. */
  lemma LegacyRoundTrip(t: Tree<char>, input: string)
    requires Full(t) && t.pair.None? && ShallowFor(t, input)
    ensures WalkDecode(t, LegacyContent(t, input)) == Some(input)
  {
    LegacyContentDecodes(t, input, []);
    assert LegacyContent(t, input) + [] == LegacyContent(t, input);
    assert input + [] == input;
  }
}

=== FILE: masks.dfy ===
/** The mask helpers of pkg/huffman/encode.go, shared by the writer and the reader. */
module Masks {
  import opened BitOps

  /** onesMask: a byte whose `w` low bits are set. Widths above 8 panic in the source. */
  function OnesMask(w: nat): (r: bv8)
    requires w <= 8
    ensures r as int + 1 == Pow2(w)
  {
    match w
    case 0 => 0x00
    case 1 => 0x01
    case 2 => 0x03
    case 3 => 0x07
    case 4 => 0x0F
    case 5 => 0x1F
    case 6 => 0x3F
    case 7 => 0x7F
    case _ => 0xFF
  }

  /** computeRightByte: the low `w` bits of `b`. */
  function ComputeRightByte(b: bv8, w: nat): bv8
    requires w <= 8
  {
    b & OnesMask(w)
  }

  /** The mask sets exactly the last `w` bits. */
  lemma OnesBits(w: nat)
    requires w <= 8
    ensures forall j :: 0 <= j < 8 ==> ByteBits(OnesMask(w))[j] == (j >= 8 - w)
  {
    if w == 0 {} else if w == 1 {} else if w == 2 {} else if w == 3 {}
    else if w == 4 {} else if w == 5 {} else if w == 6 {} else if w == 7 {} else {}
  }

  /** computeRightByte keeps the low `w` bits of `b` and clears the others. */
  lemma ComputeRightByteBits(b: bv8, w: nat)
    requires w <= 8
    ensures ByteBits(ComputeRightByte(b, w)) == Zeros(8 - w) + FieldBits(b, w)
  {
    var m := OnesMask(w);
    var r := b & m;
    var expected := Zeros(8 - w) + ByteBits(b)[8 - w..];
    OnesBits(w);
    forall j | 0 <= j < 8
      ensures ByteBits(r)[j] == expected[j]
    {
      AndBit(b, m, j);
    }
    assert ByteBits(r) == expected;
  }

  /** ... so the result is a `w`-bit value carrying the field of `b`. */
  lemma ComputeRightByteField(b: bv8, w: nat)
    requires w <= 8
    ensures Fits(ComputeRightByte(b, w), w)
    ensures FieldBits(ComputeRightByte(b, w), w) == FieldBits(b, w)
  {
    ComputeRightByteBits(b, w);
  }
}

=== FILE: reader.dfy ===
/**
 * BitStringReader of pkg/huffman/bitstringreader.go: reads fields of up to
 * 8 bits, most significant bit first, from a cursor made of a byte index
 * (`currentByte`) and a bit offset inside that byte (`offset`).
 *
 * The reader is a pure state transformer: `Read` returns the value and the
 * advanced reader. The bits still to be read are `Rest(rd)`, the suffix of the
 * buffer's bitstream from position `8 * currentByte + offset`.
 *
 * A read that straddles two bytes computes its left part with the shift that
 * the source writes as `<< bs.offset`; that shift is right only for 8-bit
 * reads. `Read` uses the source's expression, `StraddleValueAsWritten`, and
 * states what it yields in every case; `StraddleValue` is the corrected
 * expression. The tree parser reads only 2 and 8 bits from even offsets, so
 * it never meets the narrow straddling read (`EvenReads`).
 */
module BitReader {
  import opened Wrappers
  import opened BitOps
  import opened Masks

  datatype Reader = Reader(buffer: seq<bv8>, offset: nat, currentByte: nat)

  datatype ReadError =
    | WidthTooLarge    // more than 8 bits requested; the source's explicit error
    | NoNextByte       // a straddling read at the last byte; the source's explicit error
    | IndexOutOfRange  // `buffer[currentByte]` past the end: a panic in the source
    | NegativeWidth    // `onesMask` of a negative width: a panic in the source

  /** The cursor as a bit position in the buffer's bitstream. */
  function Pos(rd: Reader): nat
  {
    8 * rd.currentByte + rd.offset
  }

  /** The reader states that `NewReader` and `Read` produce. */
  predicate Valid(rd: Reader)
  {
    rd.offset < 8 && Pos(rd) <= 8 * |rd.buffer|
  }

  /** The bits not read yet. */
  function Rest(rd: Reader): (r: seq<bool>)
    requires Valid(rd)
    ensures |r| == 8 * |rd.buffer| - Pos(rd)
  {
    Bits(rd.buffer)[Pos(rd)..]
  }

  /** NewBitStringReader: no reader for an empty input, otherwise a reader at
      the first bit. */
  function NewReader(input: seq<bv8>): (r: Option<Reader>)
    ensures r.None? <==> |input| == 0
    ensures r.Some? ==> Valid(r.value) && r.value.buffer == input && Rest(r.value) == Bits(input)
  {
    if |input| < 1 then None else Some(Reader(input, 0, 0))
  }

  /** addOffset: move the cursor `w` bits on, stepping to the next byte when
      the current one is used up. */
  function AddOffset(rd: Reader, w: nat): (r: Reader)
    requires rd.offset < 8 && w <= 8
    ensures r.buffer == rd.buffer && r.offset < 8 && Pos(r) == Pos(rd) + w
  {
    if w + rd.offset >= 8 then Reader(rd.buffer, rd.offset + w - 8, rd.currentByte + 1)
    else Reader(rd.buffer, rd.offset + w, rd.currentByte)
  }

  // ---------------------------------------------------------------------------
  // The values a read computes

  /** The non-straddling read: mask bits `off .. off + w - 1` of `b` and move
      them to the bottom. `s` is the shift `8 - (w + off)`. */
  function ExtractValue(b: bv8, w: nat, s: nat): bv8
    requires w + s <= 8
  {
    Shr(b & Shl(OnesMask(w), s), s)
  }

  /** The low `rightBits` bits of a straddling read: the top `rightBits` bits
      of the next byte, moved to the bottom. */
  function RightPart(b: bv8, rightBits: nat): bv8
    requires rightBits <= 8
  {
    var rightMaskShift := 8 - rightBits;
    Shr(b & Shl(OnesMask(rightBits), rightMaskShift), rightMaskShift)
  }

  /** The high part of a straddling read: the last `8 - off` bits of the
      current byte, moved left by `shift`. */
  function LeftPart(b: bv8, off: nat, shift: nat): bv8
    requires off <= 8
  {
    var leftBitsRemaining := 8 - off;
    Shl(b & OnesMask(leftBitsRemaining), shift)
  }

  /** The straddling read as the source writes it: the left part is shifted
      by the offset. */
  function StraddleValueAsWritten(b0: bv8, b1: bv8, off: nat, w: nat): bv8
    requires off < 8 < off + w && w <= 8
  {
    var leftBitsRemaining := 8 - off;
    LeftPart(b0, off, off) | RightPart(b1, w - leftBitsRemaining)
  }

  /** The straddling read corrected: the left part is shifted by the number of
      bits taken from the next byte, which makes room for exactly those bits.
      For `w == 8` the two shifts coincide. */
  function StraddleValue(b0: bv8, b1: bv8, off: nat, w: nat): bv8
    requires off < 8 < off + w && w <= 8
  {
    var leftBitsRemaining := 8 - off;
    var rightBits := w - leftBitsRemaining;
    LeftPart(b0, off, rightBits) | RightPart(b1, rightBits)
  }

  // ---------------------------------------------------------------------------
  // Bit-level facts about those values

  /** `Shl(OnesMask(w), s)` sets exactly the bits `8 - w - s .. 7 - s`. */
  lemma ShiftedOnesBits(w: nat, s: nat)
    requires w + s <= 8
    ensures forall j :: 0 <= j < 8 ==> ByteBits(Shl(OnesMask(w), s))[j] == (8 - w - s <= j < 8 - s)
  {
    var os := ByteBits(OnesMask(w));
    ShlBits(OnesMask(w), s);
    OnesBits(w);
    forall j | 0 <= j < 8
      ensures (os[s..] + Zeros(s))[j] == (8 - w - s <= j < 8 - s)
    {
      if j < 8 - s {
        assert (os[s..] + Zeros(s))[j] == os[j + s];
      }
    }
  }

  /** AND with a mask whose set bits are `lo .. hi - 1` keeps those bits. */
  lemma MaskWindow(b: bv8, m: bv8, lo: nat, hi: nat)
    requires forall j :: 0 <= j < 8 ==> ByteBits(m)[j] == (lo <= j < hi)
    ensures forall j :: 0 <= j < 8 ==> ByteBits(b & m)[j] == (lo <= j < hi && ByteBits(b)[j])
  {
    AndBits(b, m);
  }

  /** Moving a window `lo .. hi - 1` down to the bottom of a byte. */
  lemma ShiftedWindow(x: seq<bool>, y: seq<bool>, v: seq<bool>, lo: nat, hi: nat, s: nat)
    requires |x| == 8 && |y| == 8 && lo <= hi && hi + s == 8
    requires forall j :: 0 <= j < 8 ==> y[j] == (lo <= j < hi && x[j])
    requires v == Zeros(s) + y[..hi]
    ensures v[..8 - (hi - lo)] == Zeros(8 - (hi - lo))
    ensures v[8 - (hi - lo)..] == x[lo..hi]
  {
    assert v[8 - (hi - lo)..] == y[lo..hi];
  }

  /** Extracting bits `off .. off + w - 1` through a mask and a right shift,
      with every byte named. */
  lemma ExtractBits(b: bv8, c: bv8, v: bv8, off: nat, w: nat, s: nat)
    requires s == 8 - (w + off)
    requires forall j :: 0 <= j < 8 ==> ByteBits(c)[j] == (off <= j < off + w && ByteBits(b)[j])
    requires ByteBits(v) == Zeros(s) + ByteBits(c)[..8 - s]
    ensures Fits(v, w) && FieldBits(v, w) == ByteBits(b)[off..off + w]
  {
    ShiftedWindow(ByteBits(b), ByteBits(c), ByteBits(v), off, off + w, s);
  }

  /** A non-straddling read yields bits `off .. off + w - 1` of the byte. */
  lemma ExtractField(b: bv8, off: nat, w: nat, s: nat)
    requires s == 8 - (w + off)
    ensures Fits(ExtractValue(b, w, s), w)
    ensures FieldBits(ExtractValue(b, w, s), w) == ByteBits(b)[off..off + w]
  {
    var m := Shl(OnesMask(w), s);
    var c := b & m;
    assert 8 - w - s == off && 8 - s == off + w;
    ShiftedOnesBits(w, s);
    MaskWindow(b, m, off, off + w);
    ShrBits(c, s);
    assert 8 - s == off + w;
    ExtractBits(b, c, Shr(c, s), off, w, s);
  }

  /** The left part holds bits `off ..` of the byte, moved left by `rb`. */
  lemma LeftPartBits(b: bv8, off: nat, rb: nat)
    requires rb <= off < 8
    ensures ByteBits(LeftPart(b, off, rb)) == Zeros(off - rb) + ByteBits(b)[off..] + Zeros(rb)
  {
    var m := OnesMask(8 - off);
    var c := b & m;
    OnesBits(8 - off);
    MaskWindow(b, m, off, 8);
    ShlBits(c, rb);
    ShiftedLeft(b, c, Shl(c, rb), off, rb);
  }

  lemma ShiftedLeft(b: bv8, c: bv8, v: bv8, off: nat, rb: nat)
    requires rb <= off < 8
    requires forall j :: 0 <= j < 8 ==> ByteBits(c)[j] == (off <= j && ByteBits(b)[j])
    requires ByteBits(v) == ByteBits(c)[rb..] + Zeros(rb)
    ensures ByteBits(v) == Zeros(off - rb) + ByteBits(b)[off..] + Zeros(rb)
  {
    assert ByteBits(c)[rb..] == Zeros(off - rb) + ByteBits(b)[off..];
  }

  /** The right part holds the first `rb` bits of the byte at its bottom. */
  lemma RightPartBits(b: bv8, rb: nat)
    requires rb <= 8
    ensures ByteBits(RightPart(b, rb)) == Zeros(8 - rb) + ByteBits(b)[..rb]
  {
    var rightMaskShift := 8 - rb;
    var m := Shl(OnesMask(rb), rightMaskShift);
    var c := b & m;
    ShiftedOnesBits(rb, rightMaskShift);
    MaskWindow(b, m, 0, rb);
    ShrBits(c, rightMaskShift);
    ShiftedRight(b, c, Shr(c, rightMaskShift), rb);
  }

  lemma ShiftedRight(b: bv8, c: bv8, v: bv8, rb: nat)
    requires rb <= 8
    requires forall j :: 0 <= j < 8 ==> ByteBits(c)[j] == (j < rb && ByteBits(b)[j])
    requires ByteBits(v) == Zeros(8 - rb) + ByteBits(c)[..rb]
    ensures ByteBits(v) == Zeros(8 - rb) + ByteBits(b)[..rb]
  {
    assert ByteBits(c)[..rb] == ByteBits(b)[..rb];
  }

  /** The join of a straddling read on plain bit sequences. */
  lemma JoinBits(x0: seq<bool>, x1: seq<bool>, l: seq<bool>, r: seq<bool>, v: seq<bool>, off: nat, rb: nat)
    requires |x0| == 8 && |x1| == 8 && |v| == 8
    requires 0 < rb <= off < 8
    requires l == Zeros(off - rb) + x0[off..] + Zeros(rb)
    requires r == Zeros(8 - rb) + x1[..rb]
    requires forall j :: 0 <= j < 8 ==> v[j] == (l[j] || r[j])
    ensures v[..off - rb] == Zeros(off - rb)
    ensures v[off - rb..] == x0[off..] + x1[..rb]
  {
    forall j | 0 <= j < 8
      ensures v[j] == (Zeros(off - rb) + x0[off..] + x1[..rb])[j]
    {
      if j < 8 - rb {
        assert r[j] == false;
      } else {
        assert l[j] == false;
      }
    }
  }

  /** The join of a straddling read with every byte named. */
  lemma JoinBytes(b0: bv8, b1: bv8, left: bv8, right: bv8, off: nat, rb: nat)
    requires 0 < rb <= off < 8
    requires ByteBits(left) == Zeros(off - rb) + ByteBits(b0)[off..] + Zeros(rb)
    requires ByteBits(right) == Zeros(8 - rb) + ByteBits(b1)[..rb]
    ensures ByteBits(left | right)[..off - rb] == Zeros(off - rb)
    ensures ByteBits(left | right)[off - rb..] == ByteBits(b0)[off..] + ByteBits(b1)[..rb]
  {
    OrBits(left, right);
    JoinBits(ByteBits(b0), ByteBits(b1), ByteBits(left), ByteBits(right), ByteBits(left | right), off, rb);
  }

  /** The corrected straddling read yields the last `8 - off` bits of `b0`
      followed by the first `w - (8 - off)` bits of `b1`. */
  lemma StraddleField(b0: bv8, b1: bv8, off: nat, w: nat)
    requires off < 8 < off + w && w <= 8
    ensures Fits(StraddleValue(b0, b1, off, w), w)
    ensures FieldBits(StraddleValue(b0, b1, off, w), w) == ByteBits(b0)[off..] + ByteBits(b1)[..w - (8 - off)]
  {
    var rightBits := w - (8 - off);
    var left, right := LeftPart(b0, off, rightBits), RightPart(b1, rightBits);
    assert StraddleValue(b0, b1, off, w) == left | right;
    LeftPartBits(b0, off, rightBits);
    RightPartBits(b1, rightBits);
    JoinBytes(b0, b1, left, right, off, rightBits);
    LowBitsField(left | right, ByteBits(b0)[off..] + ByteBits(b1)[..rightBits], w, off - rightBits);
  }

  /** A byte whose first `k` bits are clear holds its last `8 - k` bits as a
      field of that width. */
  lemma LowBitsField(v: bv8, f: seq<bool>, w: nat, k: nat)
    requires w <= 8 && k == 8 - w
    requires ByteBits(v)[..k] == Zeros(k) && ByteBits(v)[k..] == f
    ensures Fits(v, w) && FieldBits(v, w) == f
  {
  }

  /** For whole-byte reads the source's straddling expression is the
      corrected one. */
  lemma StraddleAgreesOnBytes(b0: bv8, b1: bv8, off: nat)
    requires 0 < off < 8
    ensures StraddleValueAsWritten(b0, b1, off, 8) == StraddleValue(b0, b1, off, 8)
  {
  }

  /** The source's straddling expression is wrong for narrower reads: reading
      2 bits at offset 7 of `[0x01, 0x80]` must give the bits `1, 1`, that is
      3, but the left bit is shifted to the top of the byte and the result is
      0x81, which is not even a 2-bit value. */
  lemma StraddleAsWrittenCounterexample()
    ensures StraddleValueAsWritten(0x01, 0x80, 7, 2) == 0x81
    ensures StraddleValue(0x01, 0x80, 7, 2) == 0x03
    ensures ByteBits(0x01)[7..] + ByteBits(0x80)[..1] == FieldBits(0x03, 2)
    ensures !Fits(0x81, 2)
  {
    assert ByteBits(0x81)[0];
  }

  // ---------------------------------------------------------------------------
  // Windows of the bitstream

  /** The bitstream around byte `i`. */
  lemma BitsAround(buf: seq<bv8>, i: nat)
    requires i < |buf|
    ensures Bits(buf) == Bits(buf[..i]) + ByteBits(buf[i]) + Bits(buf[i + 1..])
  {
    var pre := buf[..i + 1];
    SplitAt(buf, i);
    BitsAppend(pre, buf[i + 1..]);
    assert Bits(pre) == Bits(buf[..i]) + ByteBits(buf[i]);
  }

  lemma SplitAt<T>(s: seq<T>, i: nat)
    requires i < |s|
    ensures s == s[..i + 1] + s[i + 1..]
    ensures s[..i + 1][..i] == s[..i] && s[..i + 1][i] == s[i] && |s[..i + 1]| == i + 1
  {
  }

  lemma SliceOf3<T>(a: seq<T>, b: seq<T>, c: seq<T>, lo: nat, n: nat)
    requires lo + n <= |b|
    ensures (a + b + c)[|a| + lo..][..n] == b[lo..lo + n]
  {
  }

  lemma SliceOf4<T>(a: seq<T>, b: seq<T>, c: seq<T>, d: seq<T>, lo: nat, n: nat)
    requires lo <= |b| < lo + n <= |b| + |c|
    ensures (a + b + (c + d))[|a| + lo..][..n] == b[lo..] + c[..n - (|b| - lo)]
  {
  }

  /** The next `w` bits when they lie in the current byte. */
  lemma WindowInByte(rd: Reader, w: nat)
    requires Valid(rd) && rd.currentByte < |rd.buffer| && rd.offset + w <= 8
    ensures Rest(rd)[..w] == ByteBits(rd.buffer[rd.currentByte])[rd.offset..rd.offset + w]
  {
    var buf, i := rd.buffer, rd.currentByte;
    BitsAround(buf, i);
    SliceOf3(Bits(buf[..i]), ByteBits(buf[i]), Bits(buf[i + 1..]), rd.offset, w);
  }

  /** The next `w` bits when they run into the following byte. */
  lemma WindowAcross(rd: Reader, w: nat)
    requires Valid(rd) && rd.currentByte + 1 < |rd.buffer| && rd.offset < 8 < rd.offset + w <= 16
    ensures Rest(rd)[..w] ==
      ByteBits(rd.buffer[rd.currentByte])[rd.offset..] + ByteBits(rd.buffer[rd.currentByte + 1])[..w - (8 - rd.offset)]
  {
    var buf, i := rd.buffer, rd.currentByte;
    var tail := buf[i + 1..];
    BitsAround(buf, i);
    BitsAround(tail, 0);
    assert tail[..0] == [] && tail[0] == buf[i + 1];
    SliceOf4(Bits(buf[..i]), ByteBits(buf[i]), ByteBits(buf[i + 1]), Bits(tail[1..]), rd.offset, w);
  }

  // ---------------------------------------------------------------------------
  // Read

  /** The source's straddling read, bit by bit: the `8 - off` bits left in
      `b0` at the top of the byte, then `8 - w` zero bits, then the first
      `w - (8 - off)` bits of `b1` at the bottom. Only a whole-byte read has
      no gap. */
  lemma StraddleAsWrittenBits(b0: bv8, b1: bv8, off: nat, w: nat)
    requires off < 8 < off + w && w <= 8
    ensures ByteBits(StraddleValueAsWritten(b0, b1, off, w)) ==
      ByteBits(b0)[off..] + Zeros(8 - w) + ByteBits(b1)[..w - (8 - off)]
  {
    var rightBits := w - (8 - off);
    var left, right := LeftPart(b0, off, off), RightPart(b1, rightBits);
    assert StraddleValueAsWritten(b0, b1, off, w) == left | right;
    LeftPartBits(b0, off, off);
    RightPartBits(b1, rightBits);
    GapBytes(b0, b1, left, right, off, rightBits);
    assert off - rightBits == 8 - w;
  }

  /** The source's join with every byte named. */
  lemma GapBytes(b0: bv8, b1: bv8, left: bv8, right: bv8, off: nat, rb: nat)
    requires 0 < rb <= off < 8
    requires ByteBits(left) == Zeros(0) + ByteBits(b0)[off..] + Zeros(off)
    requires ByteBits(right) == Zeros(8 - rb) + ByteBits(b1)[..rb]
    ensures ByteBits(left | right) == ByteBits(b0)[off..] + Zeros(off - rb) + ByteBits(b1)[..rb]
  {
    OrBits(left, right);
    GapBits(ByteBits(b0), ByteBits(b1), ByteBits(left), ByteBits(right), ByteBits(left | right), off, rb);
  }

  /** The source's join on plain bit sequences: the left part is not moved
      down, so a gap of `off - rb` zero bits separates the two parts. */
  lemma GapBits(x0: seq<bool>, x1: seq<bool>, l: seq<bool>, r: seq<bool>, v: seq<bool>, off: nat, rb: nat)
    requires |x0| == 8 && |x1| == 8 && |v| == 8
    requires 0 < rb <= off < 8
    requires l == Zeros(0) + x0[off..] + Zeros(off)
    requires r == Zeros(8 - rb) + x1[..rb]
    requires forall j :: 0 <= j < 8 ==> v[j] == (l[j] || r[j])
    ensures v == x0[off..] + Zeros(off - rb) + x1[..rb]
  {
    forall j | 0 <= j < 8
      ensures v[j] == (x0[off..] + Zeros(off - rb) + x1[..rb])[j]
    {
      if j < 8 - off {
        assert r[j] == false;
      } else if j < 8 - rb {
        assert l[j] == false && r[j] == false;
      } else {
        assert l[j] == false;
      }
    }
  }

  /** The split of a prefix `s[..w] == a + b` at `|a|`. */
  lemma PrefixSplit<T>(s: seq<T>, a: seq<T>, b: seq<T>, w: nat)
    requires w <= |s| && s[..w] == a + b
    ensures s[..|a|] == a && s[|a|..w] == b
  {
    assert s[..|a|] == s[..w][..|a|];
    assert s[|a|..w] == s[..w][|a|..];
  }

  /** What a straddling read of the source yields, against the stream: the
      bits left in the current byte, a gap of `8 - w` zeros, then the bits
      taken from the next byte. For `w == 8` that is exactly the next 8 bits. */
  lemma StraddleRead(rd: Reader, w: nat)
    requires Valid(rd) && rd.currentByte + 1 < |rd.buffer| && rd.offset < 8 < rd.offset + w && w <= 8
    ensures var v := StraddleValueAsWritten(rd.buffer[rd.currentByte], rd.buffer[rd.currentByte + 1], rd.offset, w);
            ByteBits(v) == Rest(rd)[..8 - rd.offset] + Zeros(8 - w) + Rest(rd)[8 - rd.offset..w]
            && (w == 8 ==> Fits(v, w) && FieldBits(v, w) == Rest(rd)[..w])
  {
    var b0, b1, off := rd.buffer[rd.currentByte], rd.buffer[rd.currentByte + 1], rd.offset;
    WindowAcross(rd, w);
    PrefixSplit(Rest(rd), ByteBits(b0)[off..], ByteBits(b1)[..w - (8 - off)], w);
    StraddleAsWrittenBits(b0, b1, off, w);
    if w == 8 {
      StraddleAgreesOnBytes(b0, b1, off);
      StraddleField(b0, b1, off, w);
    }
  }

  /** Read: the next `w` bits as the low bits of a byte, and the reader moved
      past them. More than 8 bits is an error; so is a read running past the
      last byte. The value is exactly the next `w` bits of the stream when
      they lie in the current byte or fill a whole byte; a narrower read
      across a byte boundary leaves, as the source does, a gap of zeros
      between the bits of the two bytes. */
  function Read(rd: Reader, w: int): (r: Result<(bv8, Reader), ReadError>)
    requires Valid(rd)
    ensures w > 8 ==> r == Failure(WidthTooLarge)
    ensures r.Success? <==> 0 <= w <= 8 && rd.currentByte < |rd.buffer| && w <= |Rest(rd)|
    ensures r.Failure? && 0 <= w <= 8 && rd.currentByte < |rd.buffer| ==> r.error == NoNextByte
    ensures r.Success? ==>
              && Valid(r.value.1) && r.value.1.buffer == rd.buffer && Pos(r.value.1) == Pos(rd) + w
              && Rest(r.value.1) == Rest(rd)[w..]
    ensures r.Success? && (rd.offset + w <= 8 || w == 8) ==>
              Fits(r.value.0, w) && FieldBits(r.value.0, w) == Rest(rd)[..w]
    ensures r.Success? && rd.offset + w > 8 ==>
              ByteBits(r.value.0) == Rest(rd)[..8 - rd.offset] + Zeros(8 - w) + Rest(rd)[8 - rd.offset..w]
  {
    if w > 8 then Failure(WidthTooLarge)
    else
      var leftBitsRemaining := 8 - rd.offset;
      if w > leftBitsRemaining then
        if rd.currentByte + 1 >= |rd.buffer| then Failure(NoNextByte)
        else
          var v := StraddleValueAsWritten(rd.buffer[rd.currentByte], rd.buffer[rd.currentByte + 1], rd.offset, w);
          StraddleRead(rd, w);
          Success((v, AddOffset(rd, w)))
      else if w < 0 then Failure(NegativeWidth)
      else if rd.currentByte >= |rd.buffer| then Failure(IndexOutOfRange)
      else
        var shift := 8 - (w + rd.offset);
        var v := ExtractValue(rd.buffer[rd.currentByte], w, shift);
        ExtractField(rd.buffer[rd.currentByte], rd.offset, w, shift);
        WindowInByte(rd, w);
        Success((v, AddOffset(rd, w)))
  }

  /** The cursor sits on an even bit of its byte. */
  predicate EvenOffset(rd: Reader)
  {
    rd.offset == 0 || rd.offset == 2 || rd.offset == 4 || rd.offset == 6
  }

  /** Moving an even number of bits keeps the offset even. */
  lemma EvenStep(rd: Reader, rd1: Reader, k: int)
    requires Valid(rd) && Valid(rd1) && EvenOffset(rd) && Pos(rd1) == Pos(rd) + 2 * k
    ensures EvenOffset(rd1)
  {
    var m := k + 4 * rd.currentByte - 4 * rd1.currentByte;
    assert rd1.offset == rd.offset + 2 * m;
  }

  /** Reads of 2 and 8 bits from an even offset leave the offset even, so a
      reader that starts at offset 0 and only reads 2 or 8 bits never makes a
      narrow straddling read, the one case where the source's expression
      differs from `StraddleValue`. */
  lemma EvenReads(rd: Reader, w: int)
    requires Valid(rd) && (w == 2 || w == 8)
    ensures EvenOffset(rd) ==> rd.offset + w <= 8 || w == 8
    ensures EvenOffset(rd) && Read(rd, w).Success? ==> EvenOffset(Read(rd, w).value.1)
  {
  }

  /** A field of 1..8 bits written next in the stream reads back as the same
      value, and the reader moves past exactly that field, provided the field
      lies in the current byte or fills a whole byte (see `StraddleMisreads`
      for the other reads). */
  lemma ReadBack(rd: Reader, v: bv8, w: nat, more: seq<bool>)
    requires Valid(rd) && 1 <= w <= 8 && (rd.offset + w <= 8 || w == 8)
    requires Fits(v, w) && Rest(rd) == FieldBits(v, w) + more
    ensures Read(rd, w).Success?
    ensures Read(rd, w).value.0 == v
    ensures Rest(Read(rd, w).value.1) == more
  {
    var rest := Rest(rd);
    assert rest[..w] == FieldBits(v, w) && rest[w..] == more;
    FieldBitsInjective(Read(rd, w).value.0, v, w);
  }

  /** The reads `ReadBack` leaves out do go wrong: a field narrower than a byte
      that runs into the next byte and starts with a set bit comes back with
      that bit at the top of the byte, so not as the value written. */
  lemma StraddleMisreads(rd: Reader, v: bv8, w: nat, more: seq<bool>)
    requires Valid(rd) && 1 <= w < 8 && rd.offset + w > 8
    requires Fits(v, w) && Rest(rd) == FieldBits(v, w) + more && FieldBits(v, w)[0]
    ensures Read(rd, w).Success?
    ensures Read(rd, w).value.0 != v
  {
    var r := Read(rd, w).value.0;
    assert ByteBits(r)[0] == Rest(rd)[0];
    assert ByteBits(v)[..8 - w][0] == Zeros(8 - w)[0];
  }
}

=== FILE: search.dfy ===
/**
 * `Node.Search` of pkg/huffman/node.go: the path from the root to the leaf
 * holding a byte, returned as a little-endian multi-byte bit field. Bit `k`
 * of the field (bit `k % 8` of byte `k / 8`) is the edge `k` levels above the
 * leaf, 1 for a right edge, so the root's edge is the top bit `w - 1`. The
 * search probes the right subtree before the left one.
 */
module PathSearch {
  import opened BitOps
  import opened SeqUtil
  import opened HuffmanTree
  import opened BitWriter

  /** The search finds `b`: a node with a pair answers for its own symbol
      only; any other node asks its right child and then its left child. */
  predicate Holds<S(==)>(t: Tree<S>, b: S)
  {
    match t
    case Nil => false
    case Node(_, pair, left, right) =>
      if pair.Some? then pair.value.symbol == b else Holds(right, b) || Holds(left, b)
  }

  /** Walking `path` from `t` ends at a node whose pair holds `b`. */
  predicate LeadsTo<S(==)>(t: Tree<S>, path: seq<bool>, b: S)
  {
    var n := Walk(t, path);
    n.Node? && n.pair.Some? && n.pair.value.symbol == b
  }

  /** The root-first path the search takes, `true` for a right edge. */
  function RightFirstPath<S(==)>(t: Tree<S>, b: S): (p: seq<bool>)
    requires Holds(t, b)
    ensures LeadsTo(t, p, b)
  {
    if t.pair.Some? then []
    else if Holds(t.right, b) then [true] + RightFirstPath(t.right, b)
    else [false] + RightFirstPath(t.left, b)
  }

  /** The search's result: the bytes of the field and its width, -1 when the
      byte is not in the tree. */
  datatype SearchResult = SearchResult(bytes: seq<bv8>, width: int)

  const NotFound := SearchResult([], -1)

  /** The number of bytes a `w`-bit result occupies: at least one. */
  function Span(w: nat): nat
  {
    if w <= 8 then 1 else (w + 7) / 8
  }

  /** The field as one bit sequence, most significant bit first: the last
      byte first, each byte's bits from the top. */
  function FieldOf(bytes: seq<bv8>): (r: seq<bool>)
    ensures |r| == 8 * |bytes|
  {
    if |bytes| == 0 then [] else ByteBits(bytes[|bytes| - 1]) + FieldOf(bytes[..|bytes| - 1])
  }

  /** A `w`-bit result holding `path` root-first below its zero padding. */
  predicate Encodes(r: SearchResult, path: seq<bool>)
  {
    && r.width == |path|
    && |r.bytes| == Span(|path|)
    && FieldOf(r.bytes) == Zeros(8 * |r.bytes| - |path|) + path
  }

  /** The step for a right edge: when the current top byte is full a zero
      byte is appended, then the bit above the field is set. */
  function PushRight(r: SearchResult): (s: SearchResult)
    requires r.width >= 0 && |r.bytes| == Span(r.width)
  {
    var adjusted := r.width - (|r.bytes| - 1) * 8;
    if adjusted >= 8 then SearchResult(SetTopBit(r.bytes + [0], adjusted - 8), r.width + 1)
    else SearchResult(SetTopBit(r.bytes, adjusted), r.width + 1)
  }

  /** `bytes[len(bytes)-1] |= 1 << shift`. */
  function SetTopBit(bytes: seq<bv8>, shift: nat): seq<bv8>
    requires |bytes| > 0
  {
    bytes[..|bytes| - 1] + [bytes[|bytes| - 1] | Shl(1, shift)]
  }

  /** The step for a left edge: only the growth to a new byte. */
  function PushLeft(r: SearchResult): (s: SearchResult)
    requires r.width >= 0 && |r.bytes| == Span(r.width)
  {
    var bytes := if r.width - (|r.bytes| - 1) * 8 >= 8 then r.bytes + [0] else r.bytes;
    SearchResult(bytes, r.width + 1)
  }

  /** Node.Search. */
  function Search(t: Tree<bv8>, b: bv8): (r: SearchResult)
    ensures Holds(t, b) ==> Encodes(r, RightFirstPath(t, b))
    ensures !Holds(t, b) ==> r == NotFound
  {
    match t
    case Nil => NotFound
    case Node(_, pair, left, right) =>
      if pair.Some? then
        if pair.value.symbol == b then
          assert FieldOf([0]) == Zeros(8) by { ZeroBits(); FieldSingle(0); }
          SearchResult([0], 0)
        else NotFound
      else
        var fromRight := if right.Node? then Search(right, b) else NotFound;
        if right.Node? && fromRight.width >= 0 then
          PushRightEncodes(fromRight, RightFirstPath(right, b));
          PushRight(fromRight)
        else if left.Node? then
          var fromLeft := Search(left, b);
          if fromLeft.width >= 0 then
            PushLeftEncodes(fromLeft, RightFirstPath(left, b));
            PushLeft(fromLeft)
          else NotFound
        else NotFound
  }

  // ---------------------------------------------------------------------------
  // The two steps

  lemma {:induction false} FieldSingle(x: bv8)
    ensures FieldOf([x]) == ByteBits(x)
  {
    assert [x][..0] == [];
  }

  /** The field of a buffer grown by one byte on top. */
  lemma {:induction false} FieldSnoc(bytes: seq<bv8>, x: bv8)
    ensures FieldOf(bytes + [x]) == ByteBits(x) + FieldOf(bytes)
  {
    assert (bytes + [x])[..|bytes|] == bytes;
  }

  /** The field of a buffer grown by one byte at the bottom. */
  lemma {:induction false} FieldCons(x: bv8, bytes: seq<bv8>)
    ensures FieldOf([x] + bytes) == FieldOf(bytes) + ByteBits(x)
    decreases |bytes|
  {
    if |bytes| == 0 {
      FieldSingle(x);
      assert [x] + bytes == [x];
    } else {
      var init, top := bytes[..|bytes| - 1], bytes[|bytes| - 1];
      assert [x] + bytes == ([x] + init) + [top];
      FieldSnoc([x] + init, top);
      FieldCons(x, init);
      FieldSnoc(init, top);
    }
  }

  /** Setting bit `shift` (from the bottom) of a byte whose bits above it are clear. */
  lemma {:induction false} SetBit(x: bv8, shift: nat, low: seq<bool>)
    requires shift < 8 && ByteBits(x) == Zeros(8 - shift) + low
    ensures ByteBits(x | Shl(1, shift)) == Zeros(7 - shift) + [true] + low
  {
    OneShifted(shift);
    OrBytes(x, Shl(1, shift), Zeros(8 - shift) + low, Zeros(7 - shift) + [true] + Zeros(shift));
    OrTopBit(shift, low);
  }

  lemma {:induction false} OneShifted(shift: nat)
    requires shift < 8
    ensures ByteBits(Shl(1, shift)) == Zeros(7 - shift) + [true] + Zeros(shift)
  {
    ShlBits(1, shift);
    assert ByteBits(1) == Zeros(7) + [true];
    assert (Zeros(7) + [true])[shift..] == Zeros(7 - shift) + [true];
  }

  lemma {:induction false} OrTopBit(shift: nat, low: seq<bool>)
    requires shift < 8 && |low| == shift
    ensures OrSeq(Zeros(8 - shift) + low, Zeros(7 - shift) + [true] + Zeros(shift)) == Zeros(7 - shift) + [true] + low
  {
  }

  lemma {:induction false} PushRightEncodes(r: SearchResult, path: seq<bool>)
    requires r.width >= 0 && Encodes(r, path)
    ensures Encodes(PushRight(r), [true] + path)
  {
    if |path| - (|r.bytes| - 1) * 8 >= 8 {
      PushRightNewByte(r, path);
    } else {
      PushRightSameByte(r, path);
    }
  }

  /** A full top byte: the new edge goes to bit 0 of a new byte. */
  lemma {:induction false} PushRightNewByte(r: SearchResult, path: seq<bool>)
    requires r.width >= 0 && Encodes(r, path) && |path| - (|r.bytes| - 1) * 8 >= 8
    ensures Encodes(PushRight(r), [true] + path)
  {
    var bytes := r.bytes + [0];
    assert bytes[..|bytes| - 1] == r.bytes && bytes[|bytes| - 1] == 0;
    ZeroBits();
    SetBit(0, 0, []);
    FieldSnoc(r.bytes, 0 | Shl(1, 0));
    assert 8 * |r.bytes| == |path|;
  }

  /** Room in the top byte: the new edge goes just above the field. */
  lemma {:induction false} PushRightSameByte(r: SearchResult, path: seq<bool>)
    requires r.width >= 0 && Encodes(r, path) && |path| - (|r.bytes| - 1) * 8 < 8
    ensures Encodes(PushRight(r), [true] + path)
  {
    var a := |path| - (|r.bytes| - 1) * 8;
    var path' := [true] + path;
    PushRightInPlace(r, a);
    SpanGrows(|r.bytes|, |path|);
    SetTopBitSets(r.bytes, path, a);
    EncodesOf(SearchResult(SetTopBit(r.bytes, a), r.width + 1), path', 7 - a);
  }

  lemma PushRightInPlace(r: SearchResult, a: nat)
    requires r.width >= 0 && |r.bytes| == Span(r.width) && a == r.width - (|r.bytes| - 1) * 8 < 8
    ensures PushRight(r) == SearchResult(SetTopBit(r.bytes, a), r.width + 1)
  {
  }

  lemma EncodesOf(s: SearchResult, path: seq<bool>, k: nat)
    requires s.width == |path| && |s.bytes| == Span(|path|)
    requires k == 8 * |s.bytes| - |path| && FieldOf(s.bytes) == Zeros(k) + path
    ensures Encodes(s, path)
  {
  }

  /** SetTopBitField, stated on the function. */
  lemma SetTopBitSets(bytes: seq<bv8>, path: seq<bool>, a: nat)
    requires |bytes| > 0 && a < 8 && 8 * (|bytes| - 1) + a == |path|
    requires FieldOf(bytes) == Zeros(8 - a) + path
    ensures |SetTopBit(bytes, a)| == |bytes|
    ensures FieldOf(SetTopBit(bytes, a)) == Zeros(7 - a) + ([true] + path)
  {
    SetTopBitField(bytes, path, a);
  }

  /** One more edge fits in the same number of bytes while the top byte has room. */
  lemma SpanGrows(n: nat, w: nat)
    requires n > 0 && n == Span(w) && w - (n - 1) * 8 < 8
    ensures Span(w + 1) == n
  {
  }

  lemma {:induction false} SetTopBitField(bytes: seq<bv8>, path: seq<bool>, a: nat)
    requires |bytes| > 0 && a < 8 && 8 * (|bytes| - 1) + a == |path|
    requires FieldOf(bytes) == Zeros(8 - a) + path
    ensures FieldOf(bytes[..|bytes| - 1] + [bytes[|bytes| - 1] | Shl(1, a)]) == Zeros(7 - a) + ([true] + path)
  {
    var init, top := bytes[..|bytes| - 1], bytes[|bytes| - 1];
    TopByte(bytes, path, a);
    SetBit(top, a, path[..a]);
    NewTopByte(init, top | Shl(1, a), path, a);
  }

  /** The top byte of a result holds the edges nearest the root. */
  lemma {:induction false} TopByte(bytes: seq<bv8>, path: seq<bool>, a: nat)
    requires |bytes| > 0 && a < 8 && 8 * (|bytes| - 1) + a == |path|
    requires FieldOf(bytes) == Zeros(8 - a) + path
    ensures ByteBits(bytes[|bytes| - 1]) == Zeros(8 - a) + path[..a]
    ensures FieldOf(bytes[..|bytes| - 1]) == path[a..]
  {
    var init, top := bytes[..|bytes| - 1], bytes[|bytes| - 1];
    assert bytes == init + [top];
    FieldSnoc(init, top);
    SplitTopByte(Zeros(8 - a), path, a, ByteBits(top), FieldOf(init));
  }

  lemma {:induction false} NewTopByte(init: seq<bv8>, top: bv8, path: seq<bool>, a: nat)
    requires a < 8 && a <= |path|
    requires ByteBits(top) == Zeros(7 - a) + [true] + path[..a] && FieldOf(init) == path[a..]
    ensures FieldOf(init + [top]) == Zeros(7 - a) + ([true] + path)
  {
    FieldSnoc(init, top);
    JoinTopByte(a, path, 7 - a);
  }

  /** Splitting padded bits at the byte boundary. */
  lemma {:induction false} SplitTopByte(zs: seq<bool>, path: seq<bool>, a: nat, hi: seq<bool>, lo: seq<bool>)
    requires |zs| == 8 - a && a <= |path| && |hi| == 8
    requires hi + lo == zs + path
    ensures hi == zs + path[..a] && lo == path[a..]
  {
    assert hi == (hi + lo)[..8] && lo == (hi + lo)[8..];
  }

  lemma {:induction false} JoinTopByte(a: nat, path: seq<bool>, z: nat)
    requires a < 8 && a <= |path| && z == 7 - a
    ensures Zeros(7 - a) + [true] + path[..a] + path[a..] == Zeros(z) + ([true] + path)
  {
    assert path[..a] + path[a..] == path;
  }

  lemma {:induction false} PushLeftEncodes(r: SearchResult, path: seq<bool>)
    requires r.width >= 0 && Encodes(r, path)
    ensures Encodes(PushLeft(r), [false] + path)
  {
    var w := |path|;
    if w - (|r.bytes| - 1) * 8 >= 8 {
      ZeroBits();
      FieldSnoc(r.bytes, 0);
      assert Zeros(8) + (Zeros(0) + path) == Zeros(7) + ([false] + path);
    } else {
      assert Zeros(8 * |r.bytes| - w) + path == Zeros(8 * |r.bytes| - (w + 1)) + ([false] + path);
    }
  }

  // ---------------------------------------------------------------------------
  // What WriteBytes emits for a search result

  /** The order in which `WriteBytes(bytes, w)` emits a root-first path held
      by a search result: byte 0, the deepest eight edges, comes first, and
      the top byte with the `w % 8` edges nearest the root comes last. A path
      of at most eight edges is emitted as it is. */
  function EmitOrder(path: seq<bool>): (r: seq<bool>)
    ensures |r| == |path|
    decreases |path|
  {
    if |path| <= 8 then path else path[|path| - 8..] + EmitOrder(path[..|path| - 8])
  }

  /** WriteBytes of a search result emits the path in EmitOrder, and the
      partial top byte fits its width. */
  lemma {:induction false} EncodesEmits(r: SearchResult, path: seq<bool>)
    requires Encodes(r, path)
    ensures (|path| + 7) / 8 <= |r.bytes|
    ensures TailFits(r.bytes, |path|)
    ensures BytesField(r.bytes, |path|) == EmitOrder(path)
    decreases |path|
  {
    if |path| <= 8 {
      EmitsOneByte(r, path);
    } else {
      var w := |path|;
      LowByte(r, path);
      EncodesEmits(SearchResult(r.bytes[1..], w - 8), path[..w - 8]);
      EmitsLowByteFirst(r.bytes, path);
    }
  }

  /** The step of EncodesEmits: byte 0 goes out first, then the rest as the
      shorter path's result. */
  lemma {:induction false} EmitsLowByteFirst(bytes: seq<bv8>, path: seq<bool>)
    requires |path| > 8 && |bytes| >= 2
    requires ByteBits(bytes[0]) == path[|path| - 8..]
    requires (|path| - 8 + 7) / 8 <= |bytes| - 1
    requires TailFits(bytes[1..], |path| - 8)
    requires BytesField(bytes[1..], |path| - 8) == EmitOrder(path[..|path| - 8])
    ensures (|path| + 7) / 8 <= |bytes|
    ensures TailFits(bytes, |path|)
    ensures BytesField(bytes, |path|) == EmitOrder(path)
  {
    BytesFieldCons(bytes, |path| - 8);
  }

  lemma {:induction false} EmitsOneByte(r: SearchResult, path: seq<bool>)
    requires Encodes(r, path) && |path| <= 8
    ensures (|path| + 7) / 8 <= |r.bytes|
    ensures TailFits(r.bytes, |path|)
    ensures BytesField(r.bytes, |path|) == EmitOrder(path)
  {
    var w, x := |path|, r.bytes[0];
    assert r.bytes == [x];
    FieldSingle(x);
    OneByteBits(x);
    SplitTopByte(Zeros(8 - w), path, w, ByteBits(x), []);
    if w == 8 {
      assert r.bytes[..1] == [x];
    } else {
      assert r.bytes[..0] == [];
    }
  }

  lemma {:induction false} OneByteBits(x: bv8)
    ensures Bits([x]) == ByteBits(x)
  {
    assert [x][..0] == [];
  }

  /** Byte 0 of a multi-byte result holds the eight deepest edges, and the
      other bytes hold the rest of the path. */
  lemma {:induction false} LowByte(r: SearchResult, path: seq<bool>)
    requires Encodes(r, path) && |path| > 8
    ensures |r.bytes| >= 2
    ensures ByteBits(r.bytes[0]) == path[|path| - 8..]
    ensures Encodes(SearchResult(r.bytes[1..], |path| - 8), path[..|path| - 8])
  {
    var w, bytes := |path|, r.bytes;
    var rest, x := bytes[1..], bytes[0];
    assert bytes == [x] + rest;
    FieldCons(x, rest);
    var z := 8 * |bytes| - w;
    assert FieldOf(rest) + ByteBits(x) == Zeros(z) + path[..w - 8] + path[w - 8..];
    assert |FieldOf(rest)| == z + (w - 8);
    SplitTail(FieldOf(rest), ByteBits(x), Zeros(z) + path[..w - 8], path[w - 8..]);
  }

  lemma {:induction false} SplitTail(a: seq<bool>, b: seq<bool>, c: seq<bool>, d: seq<bool>)
    requires |a| == |c| && a + b == c + d
    ensures a == c && b == d
  {
    assert a == (a + b)[..|a|] && b == (a + b)[|a|..];
  }

  /** WriteBytes of a buffer with one more low byte writes that byte first. */
  lemma {:induction false} BytesFieldCons(bytes: seq<bv8>, w: nat)
    requires |bytes| >= 1 && (w + 7) / 8 <= |bytes| - 1
    ensures BytesField(bytes, w + 8) == ByteBits(bytes[0]) + BytesField(bytes[1..], w)
    ensures TailFits(bytes[1..], w) ==> TailFits(bytes, w + 8)
  {
    var k := w / 8;
    assert (w + 8) / 8 == k + 1 && (w + 8) % 8 == w % 8;
    WholeBytesCons(bytes, k);
    var tail := if w % 8 == 0 then [] else FieldBits(bytes[1..][k], w % 8);
    assert BytesField(bytes, w + 8) == Bits(bytes[..k + 1]) + tail;
    AppendAssoc(ByteBits(bytes[0]), Bits(bytes[1..][..k]), tail);
  }

  /** The whole bytes of a prefix, starting from byte 0. */
  lemma {:induction false} WholeBytesCons(bytes: seq<bv8>, k: nat)
    requires k + 1 <= |bytes|
    ensures Bits(bytes[..k + 1]) == ByteBits(bytes[0]) + Bits(bytes[1..][..k])
  {
    assert bytes[..k + 1] == [bytes[0]] + bytes[1..][..k];
    BitsAppend([bytes[0]], bytes[1..][..k]);
    OneByteBits(bytes[0]);
  }

  /** The content an input byte contributes to the encoded stream. */
  lemma {:induction false} SearchEmits(t: Tree<bv8>, b: bv8)
    requires Holds(t, b)
    ensures var r := Search(t, b);
      && r.width == |RightFirstPath(t, b)|
      && (r.width + 7) / 8 <= |r.bytes|
      && TailFits(r.bytes, r.width)
      && BytesField(r.bytes, r.width) == EmitOrder(RightFirstPath(t, b))
  {
    EncodesEmits(Search(t, b), RightFirstPath(t, b));
  }

  /** A path of at most eight edges is emitted root first. */
  lemma {:induction false} ShortPathsInOrder(path: seq<bool>)
    requires |path| <= 8
    ensures EmitOrder(path) == path
  {
  }
}

=== FILE: sequtil.dfy ===
/**
 * Generic facts about sequences used by the tree builder, the frequency
 * table and the path encoding: sums and concatenations over a sequence, and
 * their invariance under permutation; occurrence counts; reversal.
 */
module SeqUtil {

  /** The sum of `g` over the elements of `s`. */
  function Sum<T>(s: seq<T>, g: T -> nat): nat
  {
    if |s| == 0 then 0 else g(s[0]) + Sum(s[1..], g)
  }

  /** The concatenation of `f` over the elements of `s`. */
  function Flatten<T, U>(s: seq<T>, f: T -> seq<U>): seq<U>
  {
    if |s| == 0 then [] else f(s[0]) + Flatten(s[1..], f)
  }

  /** The number of occurrences of `x` in `s`. */
  function Count<T(==)>(s: seq<T>, x: T): (r: nat)
    ensures r == multiset(s)[x]
  {
    if |s| == 0 then 0
    else
      assert s == [s[0]] + s[1..];
      (if s[0] == x then 1 else 0) + Count(s[1..], x)
  }

  /** No element occurs twice. */
  predicate Distinct<T(==)>(s: seq<T>)
  {
    forall i, j :: 0 <= i < j < |s| ==> s[i] != s[j]
  }

  lemma {:induction false} SumAppend<T>(a: seq<T>, b: seq<T>, g: T -> nat)
    ensures Sum(a + b, g) == Sum(a, g) + Sum(b, g)
    decreases |a|
  {
    if |a| == 0 {
      assert a + b == b;
    } else {
      assert (a + b)[1..] == a[1..] + b;
      SumAppend(a[1..], b, g);
    }
  }

  lemma {:induction false} FlattenAppend<T, U>(a: seq<T>, b: seq<T>, f: T -> seq<U>)
    ensures Flatten(a + b, f) == Flatten(a, f) + Flatten(b, f)
    decreases |a|
  {
    if |a| == 0 {
      assert a + b == b;
    } else {
      assert (a + b)[1..] == a[1..] + b;
      FlattenAppend(a[1..], b, f);
    }
  }

  /** Where the head of `a` sits in a permutation `b` of `a`, and what is left. */
  lemma MatchHead<T>(a: seq<T>, b: seq<T>) returns (i: nat)
    requires |a| > 0 && multiset(a) == multiset(b)
    ensures i < |b| && b[i] == a[0]
    ensures b == b[..i] + [a[0]] + b[i + 1..]
    ensures multiset(a[1..]) == multiset(b[..i] + b[i + 1..])
  {
    assert a[0] in multiset(b);
    i :| 0 <= i < |b| && b[i] == a[0];
    assert b == b[..i] + [b[i]] + b[i + 1..];
    assert a == [a[0]] + a[1..];
    assert multiset(b[..i] + b[i + 1..]) == multiset(b) - multiset{a[0]};
    assert multiset(a[1..]) == multiset(a) - multiset{a[0]};
  }

  /** Sums do not depend on the order of the elements. */
  lemma {:induction false} SumPermutation<T>(a: seq<T>, b: seq<T>, g: T -> nat)
    requires multiset(a) == multiset(b)
    ensures Sum(a, g) == Sum(b, g)
    decreases |a|
  {
    if |a| == 0 {
      assert |b| == |multiset(b)| == 0;
    } else {
      var i := MatchHead(a, b);
      var x, pre, post := a[0], b[..i], b[i + 1..];
      SumPermutation(a[1..], pre + post, g);
      SumAppend(pre + [x], post, g);
      SumAppend(pre, [x], g);
      SumAppend(pre, post, g);
      assert Sum([x], g) == g(x);
    }
  }

  /** The elements of a concatenation do not depend on the order of the parts. */
  lemma {:induction false} FlattenPermutation<T, U>(a: seq<T>, b: seq<T>, f: T -> seq<U>)
    requires multiset(a) == multiset(b)
    ensures multiset(Flatten(a, f)) == multiset(Flatten(b, f))
    decreases |a|
  {
    if |a| == 0 {
      assert |b| == |multiset(b)| == 0;
    } else {
      var i := MatchHead(a, b);
      var x, pre, post := a[0], b[..i], b[i + 1..];
      FlattenPermutation(a[1..], pre + post, f);
      FlattenAppend(pre + [x], post, f);
      FlattenAppend(pre, [x], f);
      FlattenAppend(pre, post, f);
      assert Flatten([x], f) == f(x);
    }
  }
}

=== FILE: stablesort.dfy ===
/**
 * sort.SliceStable with a less function comparing one integer key, as the
 * source uses it (`nodes[i].Freq() < nodes[j].Freq()`). The model is an
 * insertion sort; the lemmas show that its result is sorted, a permutation of
 * the input, and keeps the input order among equal keys. Those three
 * properties determine the result, so any stable sort gives the same list.
 */
module StableSort {
  import opened SeqUtil

  predicate SortedBy<T>(s: seq<T>, key: T -> nat)
  {
    forall i, j :: 0 <= i < j < |s| ==> key(s[i]) <= key(s[j])
  }

  /** The elements of `s` whose key is `k`, in order. */
  function WithKey<T>(s: seq<T>, key: T -> nat, k: int): seq<T>
  {
    if |s| == 0 then []
    else (if key(s[0]) == k then [s[0]] else []) + WithKey(s[1..], key, k)
  }

  /** Insert `x` before the first element whose key is not smaller. */
  function Insert<T>(x: T, s: seq<T>, key: T -> nat): (r: seq<T>)
    requires SortedBy(s, key)
    ensures |r| == |s| + 1 && multiset(r) == multiset(s) + multiset{x}
    ensures r[0] == x || (|s| > 0 && r[0] == s[0])
    ensures SortedBy(r, key)
  {
    if |s| == 0 || key(x) <= key(s[0]) then [x] + s
    else
      assert s == [s[0]] + s[1..];
      var rest := Insert(x, s[1..], key);
      SortedCons(s[0], rest, key);
      [s[0]] + rest
  }

  /** A sorted sequence stays sorted behind an element no larger than its head. */
  lemma SortedCons<T>(y: T, s: seq<T>, key: T -> nat)
    requires SortedBy(s, key) && (|s| > 0 ==> key(y) <= key(s[0]))
    ensures SortedBy([y] + s, key)
  {
    forall i, j | 0 <= i < j < |s| + 1
      ensures key(([y] + s)[i]) <= key(([y] + s)[j])
    {
      if i == 0 && j > 1 {
        assert key(s[0]) <= key(s[j - 1]);
      }
    }
  }

  /** The stable sort: sorts the tail, then inserts the head in front of the
      tail's elements of the same key. */
  function Sort<T>(s: seq<T>, key: T -> nat): (r: seq<T>)
    ensures |r| == |s| && multiset(r) == multiset(s)
    ensures SortedBy(r, key)
  {
    if |s| == 0 then []
    else
      assert s == [s[0]] + s[1..];
      Insert(s[0], Sort(s[1..], key), key)
  }

  lemma {:induction false} InsertWithKey<T>(x: T, s: seq<T>, key: T -> nat, k: int)
    requires SortedBy(s, key)
    ensures WithKey(Insert(x, s, key), key, k) == (if key(x) == k then [x] else []) + WithKey(s, key, k)
    decreases |s|
  {
    if |s| == 0 || key(x) <= key(s[0]) {
      assert ([x] + s)[1..] == s;
    } else {
      var rest := Insert(x, s[1..], key);
      assert Insert(x, s, key) == [s[0]] + rest;
      InsertWithKey(x, s[1..], key, k);
      assert ([s[0]] + rest)[1..] == rest;
      var head := if key(s[0]) == k then [s[0]] else [];
      assert WithKey([s[0]] + rest, key, k) == head + WithKey(rest, key, k);
      if key(x) == k {
        assert head == [];
      }
    }
  }

  /** Stability: for every key, the elements with that key keep their order. */
  lemma {:induction false} SortStable<T>(s: seq<T>, key: T -> nat, k: int)
    ensures WithKey(Sort(s, key), key, k) == WithKey(s, key, k)
    decreases |s|
  {
    if |s| > 0 {
      SortStable(s[1..], key, k);
      InsertWithKey(s[0], Sort(s[1..], key), key, k);
    }
  }

  /** An element placed in front goes before every element of the same key. */
  lemma FrontFirstAmongEqual<T>(x: T, s: seq<T>, key: T -> nat)
    ensures WithKey(Sort([x] + s, key), key, key(x)) == [x] + WithKey(s, key, key(x))
  {
    SortStable([x] + s, key, key(x));
    assert ([x] + s)[1..] == s;
  }

  /** Every element with key `k` sits at or after the head of a sorted list. */
  lemma {:induction false} WithKeyAbove<T>(a: seq<T>, key: T -> nat, k: int)
    requires SortedBy(a, key) && |WithKey(a, key, k)| > 0
    ensures |a| > 0 && key(a[0]) <= k
    decreases |a|
  {
    if key(a[0]) != k {
      WithKeyAbove(a[1..], key, k);
      assert key(a[0]) <= key(a[1..][0]);
    }
  }

  /** Two sorted lists with the same elements of every key, in the same order
      per key, are equal. */
  lemma {:induction false} SortedByKeysUnique<T>(a: seq<T>, b: seq<T>, key: T -> nat)
    requires SortedBy(a, key) && SortedBy(b, key)
    requires forall k :: WithKey(a, key, k) == WithKey(b, key, k)
    ensures a == b
    decreases |a| + |b|
  {
    if |a| == 0 {
      assert |b| == 0;
    } else {
      var k0 := key(a[0]);
      assert |WithKey(b, key, k0)| > 0 by {
        assert WithKey(a, key, k0)[0] == a[0];
      }
      WithKeyAbove(b, key, k0);
      assert |WithKey(a, key, key(b[0]))| > 0 by {
        assert WithKey(b, key, key(b[0]))[0] == b[0];
      }
      WithKeyAbove(a, key, key(b[0]));
      assert a[0] == b[0] by {
        assert WithKey(a, key, k0)[0] == a[0];
        assert WithKey(b, key, k0)[0] == b[0];
      }
      forall k
        ensures WithKey(a[1..], key, k) == WithKey(b[1..], key, k)
      {
        assert WithKey(a, key, k) == WithKey(b, key, k);
        if k == k0 {
          var wa, wb := WithKey(a[1..], key, k), WithKey(b[1..], key, k);
          assert WithKey(a, key, k) == [a[0]] + wa;
          assert WithKey(b, key, k) == [b[0]] + wb;
          assert wa == ([a[0]] + wa)[1..] && wb == ([b[0]] + wb)[1..];
        } else {
          assert WithKey(a, key, k) == WithKey(a[1..], key, k);
          assert WithKey(b, key, k) == WithKey(b[1..], key, k);
        }
      }
      SortedTail(a, key);
      SortedTail(b, key);
      SortedByKeysUnique(a[1..], b[1..], key);
      assert a == [a[0]] + a[1..] && b == [b[0]] + b[1..];
    }
  }

  lemma SortedTail<T>(a: seq<T>, key: T -> nat)
    requires SortedBy(a, key) && |a| > 0
    ensures SortedBy(a[1..], key)
  {
    forall i, j | 0 <= i < j < |a| - 1
      ensures key(a[1..][i]) <= key(a[1..][j])
    {
      assert key(a[i + 1]) <= key(a[j + 1]);
    }
  }

  /** sort.SliceStable is determined by its contract: a sorted list that keeps
      the order among equal keys is `Sort`'s result. */
  lemma StableSortUnique<T>(s: seq<T>, r: seq<T>, key: T -> nat)
    requires SortedBy(r, key)
    requires forall k :: WithKey(r, key, k) == WithKey(s, key, k)
    ensures r == Sort(s, key)
  {
    forall k
      ensures WithKey(r, key, k) == WithKey(Sort(s, key), key, k)
    {
      SortStable(s, key, k);
    }
    SortedByKeysUnique(r, Sort(s, key), key);
  }
}

=== FILE: tree.dfy ===
/**
 * The Huffman tree of pkg/huffman/node.go. A Go `*Node` is `Tree`, with `Nil`
 * for the nil pointer; a node holds its weight, an optional symbol with its
 * frequency (`freqPair`), and two children. The symbol type is a parameter:
 * the package uses bytes and the older variants use runes.
 */
module HuffmanTree {
  import opened Wrappers
  import opened SeqUtil

  /** freqPair: a symbol and its number of occurrences. */
  datatype FreqPair<S> = FreqPair(symbol: S, freq: nat)

  datatype Tree<S> = Nil | Node(freq: nat, pair: Option<FreqPair<S>>, left: Tree<S>, right: Tree<S>)

  function PairFreq<S>(p: FreqPair<S>): nat
  {
    p.freq
  }

  /** The leaf `NewNode` makes for a frequency pair. */
  function LeafOf<S>(p: FreqPair<S>): Tree<S>
  {
    Node(p.freq, Some(p), Nil, Nil)
  }

  /** A full binary tree: every node is a leaf holding a pair and no
      children, or an inner node with no pair and two full children. */
  predicate Full<S>(t: Tree<S>)
  {
    match t
    case Nil => false
    case Node(_, pair, left, right) =>
      if pair.Some? then left.Nil? && right.Nil? else Full(left) && Full(right)
  }

  /** The pairs held by the tree, left to right. */
  function Leaves<S>(t: Tree<S>): seq<FreqPair<S>>
  {
    match t
    case Nil => []
    case Node(_, pair, left, right) =>
      if pair.Some? then [pair.value] + Leaves(left) + Leaves(right)
      else Leaves(left) + Leaves(right)
  }

  /** Every leaf weighs its pair's frequency and every inner node the sum of
      its children's weights. */
  predicate Weighted<S>(t: Tree<S>)
  {
    match t
    case Nil => true
    case Node(freq, pair, left, right) =>
      if pair.Some? then freq == pair.value.freq
      else left.Node? && right.Node? && freq == left.freq + right.freq && Weighted(left) && Weighted(right)
  }

  /** The tree with every weight and frequency dropped: what the serialised
      form keeps. */
  function Strip<S>(t: Tree<S>): (r: Tree<S>)
    ensures r.Nil? <==> t.Nil?
  {
    match t
    case Nil => Nil
    case Node(_, pair, left, right) =>
      Node(0, if pair.Some? then Some(FreqPair(pair.value.symbol, 0)) else None, Strip(left), Strip(right))
  }

  /** The number of levels: 0 for nil, 1 for a leaf. */
  function Height<S>(t: Tree<S>): nat
  {
    match t
    case Nil => 0
    case Node(_, _, left, right) =>
      1 + (if Height(left) > Height(right) then Height(left) else Height(right))
  }

  /** The subtree reached by following `path` from `t`, `false` going left
      and `true` going right. */
  function Walk<S>(t: Tree<S>, path: seq<bool>): Tree<S>
    decreases |path|
  {
    if |path| == 0 || t.Nil? then t
    else Walk(if path[0] then t.right else t.left, path[1..])
  }

  /** A path that ends at a node is shorter than the height. */
  lemma {:induction false} WalkBelowHeight<S>(t: Tree<S>, p: seq<bool>)
    requires Walk(t, p).Node?
    ensures |p| < Height(t)
    decreases |p|
  {
    if |p| > 0 {
      WalkBelowHeight(if p[0] then t.right else t.left, p[1..]);
    }
  }

  /** Some path of length `Height(t) - 1` ends at a node: the height is
      reached. */
  lemma {:induction false} HeightReached<S>(t: Tree<S>)
    requires t.Node?
    ensures exists p :: Walk(t, p).Node? && |p| == Height(t) - 1
  {
    if t.left.Node? || t.right.Node? {
      var goRight := Height(t.right) > Height(t.left);
      var child := if goRight then t.right else t.left;
      HeightReached(child);
      var q :| Walk(child, q).Node? && |q| == Height(child) - 1;
      var p := [goRight] + q;
      assert p[1..] == q;
      assert Walk(t, p) == Walk(child, q);
    } else {
      assert Walk(t, []) == t;
    }
  }

  /** The symbols of a list of pairs, in order. */
  function Symbols<S>(ps: seq<FreqPair<S>>): (r: seq<S>)
    ensures |r| == |ps| && forall i :: 0 <= i < |ps| ==> r[i] == ps[i].symbol
  {
    if |ps| == 0 then [] else [ps[0].symbol] + Symbols(ps[1..])
  }

  /** The symbols held by the leaves, left to right. */
  function LeafSymbols<S>(t: Tree<S>): seq<S>
  {
    Symbols(Leaves(t))
  }

  /** The root weight of a weighted full tree is the total frequency of its
      leaves. */
  lemma {:induction false} WeightedRoot<S>(t: Tree<S>)
    requires Full(t) && Weighted(t)
    ensures t.freq == Sum(Leaves(t), PairFreq)
  {
    if t.pair.None? {
      WeightedRoot(t.left);
      WeightedRoot(t.right);
      SumAppend(Leaves(t.left), Leaves(t.right), PairFreq);
    } else {
      assert Leaves(t) == [t.pair.value];
      assert Sum([t.pair.value], PairFreq) == t.pair.value.freq;
    }
  }

  lemma {:induction false} SymbolsAppend<S>(a: seq<FreqPair<S>>, b: seq<FreqPair<S>>)
    ensures Symbols(a + b) == Symbols(a) + Symbols(b)
  {
  }

  /** The leaf symbols of an inner node of a full tree: the left subtree's,
      then the right subtree's. */
  lemma InnerLeafSymbols<S>(t: Tree<S>)
    requires Full(t) && t.pair.None?
    ensures LeafSymbols(t) == LeafSymbols(t.left) + LeafSymbols(t.right)
  {
    SymbolsAppend(Leaves(t.left), Leaves(t.right));
  }

  /** A full tree has at least one leaf. */
  lemma {:induction false} FullHasLeaves<S>(t: Tree<S>)
    requires Full(t)
    ensures |Leaves(t)| >= 1
  {
    if t.pair.None? {
      FullHasLeaves(t.left);
    }
  }
}

=== FILE: treecodec.dfy ===
/**
 * The serialised tree of pkg/huffman/node.go (`WriteBytes`) and its parser in
 * pkg/huffman/decode.go (`newNodeFromBytes`). The tree goes out depth first
 * in the grammar
 *
 *   node      = (leftChild rightChild) | freqPair
 *   leftChild = "11" node,  rightChild = "10" node,  freqPair = "01" byte
 *
 * with no weights. The writer always puts the left child first; the parser
 * accepts either order. A failed read, an unknown tag, a sibling with the
 * wrong tag and running out of input after the first child are panics in the
 * source and failures here.
 */
module TreeCodec {
  import opened Wrappers
  import opened BitOps
  import opened HuffmanTree
  import opened BitWriter
  import BitReader

  /** The 2-bit `ControlBit` tags. */
  const FreqPairTag: bv8 := 0x01
  const LeftTag: bv8 := 0x03
  const RightTag: bv8 := 0x02

  predicate IsTag(cb: bv8)
  {
    cb == FreqPairTag || cb == LeftTag || cb == RightTag
  }

  /** ControlBit.String: the name of a tag; any other value is a panic. */
  function TagName(cb: bv8): (r: Option<string>)
    ensures r.Some? <==> IsTag(cb)
    ensures r.Some? ==> |r.value| > 0
  {
    if cb == FreqPairTag then Some("freqPair")
    else if cb == LeftTag then Some("left")
    else if cb == RightTag then Some("right")
    else None
  }

  /** The bits a tag is written as. */
  function Tag(cb: bv8): (r: seq<bool>)
    ensures |r| == 2
  {
    FieldBits(cb, 2)
  }

  /** The three tags are 2-bit values with pairwise different bits and names. */
  lemma TagsDistinct()
    ensures Fits(FreqPairTag, 2) && Fits(LeftTag, 2) && Fits(RightTag, 2)
    ensures Tag(FreqPairTag) == [false, true]
    ensures Tag(LeftTag) == [true, true]
    ensures Tag(RightTag) == [true, false]
    ensures TagName(FreqPairTag) != TagName(LeftTag) && TagName(LeftTag) != TagName(RightTag)
    ensures TagName(RightTag) != TagName(FreqPairTag)
  {
    assert ByteBits(FreqPairTag) == [false, false, false, false, false, false, false, true];
    assert ByteBits(LeftTag) == [false, false, false, false, false, false, true, true];
    assert ByteBits(RightTag) == [false, false, false, false, false, false, true, false];
  }

  // ---------------------------------------------------------------------------
  // Serialising

  /** The bits WriteBytes emits for a tree: its pair, then its left child,
      then its right child, each only when present. */
  function TreeBits(t: Tree<bv8>): seq<bool>
    decreases t, 0
  {
    match t
    case Nil => []
    case Node(_, pair, left, right) => PairBits(pair) + ChildBits(LeftTag, left) + ChildBits(RightTag, right)
  }

  function PairBits(pair: Option<FreqPair<bv8>>): seq<bool>
  {
    if pair.Some? then Tag(FreqPairTag) + ByteBits(pair.value.symbol) else []
  }

  /** A child, when present, is its side's tag and its own bits. */
  function ChildBits(cb: bv8, child: Tree<bv8>): seq<bool>
    decreases child, 1
  {
    if child.Nil? then [] else Tag(cb) + TreeBits(child)
  }

  /** The grammar a full tree follows: a leaf is `01` and its byte, an inner
      node is `11`, the left subtree, `10`, the right subtree. */
  lemma FullTreeBits(t: Tree<bv8>)
    requires Full(t)
    ensures t.pair.Some? ==> TreeBits(t) == Tag(FreqPairTag) + ByteBits(t.pair.value.symbol)
    ensures t.pair.None? ==> TreeBits(t) == Tag(LeftTag) + TreeBits(t.left) + (Tag(RightTag) + TreeBits(t.right))
  {
    if t.pair.Some? {
      assert TreeBits(t) == PairBits(t.pair) + [] + [];
    } else {
      assert TreeBits(t) == [] + ChildBits(LeftTag, t.left) + ChildBits(RightTag, t.right);
    }
  }

  /** A full tree with `n` leaves takes `14n - 4` bits: ten per leaf and four
      per inner node. */
  lemma {:induction false} TreeBitsSize(t: Tree<bv8>)
    requires Full(t)
    ensures |TreeBits(t)| == 14 * |Leaves(t)| - 4
  {
    FullTreeBits(t);
    if t.pair.None? {
      TreeBitsSize(t.left);
      TreeBitsSize(t.right);
      FullHasLeaves(t.left);
      FullHasLeaves(t.right);
    }
  }

  /** Node.WriteBytes: the stream grows by the tree's bits. A nil tree writes
      nothing. */
  method WriteTree(wr: Writer, t: Tree<bv8>) returns (r: Writer)
    requires Writable(wr)
    ensures Writable(r)
    ensures t.Nil? ==> r == wr
    ensures Valid(wr) ==> Valid(r) && Stream(r) == Stream(wr) + TreeBits(t)
    decreases t, 0
  {
    if t.Nil? {
      return wr;
    }
    var r1 := WritePair(wr, t.pair);
    var r2 := WriteChild(r1, LeftTag, t.left);
    r := WriteChild(r2, RightTag, t.right);
    if Valid(wr) {
      AppendAssoc(Stream(wr) + PairBits(t.pair), ChildBits(LeftTag, t.left), ChildBits(RightTag, t.right));
      AppendAssoc(Stream(wr), PairBits(t.pair), ChildBits(LeftTag, t.left) + ChildBits(RightTag, t.right));
      AppendAssoc(PairBits(t.pair), ChildBits(LeftTag, t.left), ChildBits(RightTag, t.right));
    }
  }

  /** The `01` tag and the byte of a node's pair, if it has one. */
  method WritePair(wr: Writer, pair: Option<FreqPair<bv8>>) returns (r: Writer)
    requires Writable(wr)
    ensures Writable(r)
    ensures Valid(wr) ==> Valid(r) && Stream(r) == Stream(wr) + PairBits(pair)
  {
    if pair.None? {
      return wr;
    }
    TagsDistinct();
    var c := pair.value.symbol;
    var r1 := Write(wr, FreqPairTag, 2);
    r := Write(r1, c, 8);
    FieldBitsOfByte(c);
    if Valid(wr) {
      AppendAssoc(Stream(wr), Tag(FreqPairTag), ByteBits(c));
    }
  }

  /** A child's tag and the child, if there is one. */
  method WriteChild(wr: Writer, cb: bv8, child: Tree<bv8>) returns (r: Writer)
    requires Writable(wr) && IsTag(cb)
    ensures Writable(r)
    ensures Valid(wr) ==> Valid(r) && Stream(r) == Stream(wr) + ChildBits(cb, child)
    decreases child, 1
  {
    if child.Nil? {
      return wr;
    }
    TagsDistinct();
    var r1 := Write(wr, cb, 2);
    r := WriteTree(r1, child);
    if Valid(wr) {
      AppendAssoc(Stream(wr), Tag(cb), TreeBits(child));
    }
  }

  /** `tree.Bytes()` as its call in Encode means it: the serialised tree
      written to a fresh writer. The buffer holds the tree's bits padded with
      zeros to a whole byte. */
  method TreeBytes(t: Tree<bv8>) returns (bytes: seq<bv8>)
    ensures Packed(bytes, TreeBits(t))
  {
    EmptyValid();
    var wr := WriteTree(Empty, t);
    ValidPacked(wr);
    bytes := wr.buffer;
  }

  // ---------------------------------------------------------------------------
  // Parsing

  /** Why newNodeFromBytes gives up (a panic in the source). */
  datatype ParseError =
    | ReadFailed(cause: BitReader.ReadError)
    | UnknownTag(got: bv8)
    | NoInputRemaining
    | UnexpectedTag(expected: bv8, got: bv8)

  /** `InputRemaining`: the cursor is still inside the buffer. */
  predicate InputRemaining(rd: BitReader.Reader)
  {
    rd.currentByte < |rd.buffer|
  }

  /** newNodeFromBytes: one node of the grammar. A `01` tag gives a leaf
      holding the next byte; `11` or `10` gives the child on that side, then
      the other tag and the other child. The result is a full tree without
      weights, and the reader has moved past exactly its canonical bits. */
  function ParseNode(rd: BitReader.Reader): (r: Result<(Tree<bv8>, BitReader.Reader), ParseError>)
    requires BitReader.Valid(rd)
    ensures r.Success? ==> BitReader.Valid(r.value.1) && r.value.1.buffer == rd.buffer
    ensures r.Success? ==> Full(r.value.0) && Strip(r.value.0) == r.value.0
    ensures r.Success? ==> BitReader.Pos(r.value.1) == BitReader.Pos(rd) + |TreeBits(r.value.0)|
    decreases 8 * |rd.buffer| - BitReader.Pos(rd)
  {
    match BitReader.Read(rd, 2)
    case Failure(e) => Failure(ReadFailed(e))
    case Success((tag, rd1)) =>
      if tag == FreqPairTag then
        match BitReader.Read(rd1, 8)
        case Failure(e) => Failure(ReadFailed(e))
        case Success((c, rd2)) =>
          var leaf := Node(0, Some(FreqPair(c, 0)), Nil, Nil);
          assert TreeBits(leaf) == PairBits(leaf.pair) + [] + [];
          Success((leaf, rd2))
      else if tag == LeftTag || tag == RightTag then
        match ParseNode(rd1)
        case Failure(e) => Failure(e)
        case Success((first, rd2)) =>
          var sibling := if tag == LeftTag then RightTag else LeftTag;
          if !InputRemaining(rd2) then Failure(NoInputRemaining)
          else
            match BitReader.Read(rd2, 2)
            case Failure(e) => Failure(ReadFailed(e))
            case Success((tag2, rd3)) =>
              if tag2 != sibling then Failure(UnexpectedTag(sibling, tag2))
              else
                match ParseNode(rd3)
                case Failure(e) => Failure(e)
                case Success((second, rd4)) =>
                  var node := if tag == LeftTag then Node(0, None, first, second) else Node(0, None, second, first);
                  FullTreeBits(node);
                  Success((node, rd4))
      else Failure(UnknownTag(tag))
  }

  /** NewNodeFromBytes: a nil reader gives the nil tree; otherwise the root is
      parsed from the reader. */
  function NewNodeFromBytes(bs: Option<BitReader.Reader>): (r: Result<Tree<bv8>, ParseError>)
    requires bs.Some? ==> BitReader.Valid(bs.value)
    ensures bs.None? ==> r == Success(Nil)
    ensures bs.Some? && r.Success? ==> Full(r.value) && Strip(r.value) == r.value
  {
    match bs
    case None => Success(Nil)
    case Some(rd) =>
      match ParseNode(rd)
      case Failure(e) => Failure(e)
      case Success((t, _)) => Success(t)
  }

  datatype DecodeError = EmptyInput | MalformedTree(cause: ParseError)

  /** Decode: empty input is an error; otherwise the tree is parsed and
      nothing is decoded yet, so the output is empty. */
  function Decode(input: seq<bv8>): (r: Result<seq<bv8>, DecodeError>)
    ensures r == Failure(EmptyInput) <==> |input| == 0
    ensures r.Success? ==> r.value == []
    ensures r.Success? <==> |input| > 0 && NewNodeFromBytes(BitReader.NewReader(input)).Success?
  {
    if |input| < 1 then Failure(EmptyInput)
    else
      match NewNodeFromBytes(BitReader.NewReader(input))
      case Failure(e) => Failure(MalformedTree(e))
      case Success(_) => Success([])
  }

  /** The parser reads only 2 and 8 bits at a time, and a parsed tree has an
      even number of bits (`TreeBitsSize`), so from an even offset it stays at
      even offsets (`BitReader.EvenReads`) and never makes the narrow read
      across a byte boundary that the reader gets wrong. */
  lemma ParseKeepsEven(rd: BitReader.Reader)
    requires BitReader.Valid(rd) && BitReader.EvenOffset(rd)
    ensures ParseNode(rd).Success? ==> BitReader.EvenOffset(ParseNode(rd).value.1)
  {
    if ParseNode(rd).Success? {
      var (t, rd1) := ParseNode(rd).value;
      TreeBitsSize(t);
      BitReader.EvenStep(rd, rd1, 7 * |Leaves(t)| - 2);
    }
  }

  // ---------------------------------------------------------------------------
  // Round trips

  /** Reading a tag that is next in the stream, from an even offset. */
  lemma ReadTag(rd: BitReader.Reader, cb: bv8, more: seq<bool>)
    requires BitReader.Valid(rd) && BitReader.EvenOffset(rd) && IsTag(cb) && BitReader.Rest(rd) == Tag(cb) + more
    ensures BitReader.Read(rd, 2).Success?
    ensures BitReader.Read(rd, 2).value.0 == cb
    ensures BitReader.Rest(BitReader.Read(rd, 2).value.1) == more
  {
    TagsDistinct();
    ReadField2(rd, cb, more);
  }

  /** Reading any 2-bit field that is next in the stream, from an even
      offset, gives that field's value. */
  lemma ReadField2(rd: BitReader.Reader, v: bv8, more: seq<bool>)
    requires BitReader.Valid(rd) && BitReader.EvenOffset(rd) && Fits(v, 2) && BitReader.Rest(rd) == FieldBits(v, 2) + more
    ensures BitReader.Read(rd, 2).Success?
    ensures BitReader.Read(rd, 2).value.0 == v
    ensures BitReader.Rest(BitReader.Read(rd, 2).value.1) == more
  {
    BitReader.EvenReads(rd, 2);
    var rest := BitReader.Rest(rd);
    assert rest[..2] == FieldBits(v, 2) && rest[2..] == more;
    FieldBitsInjective(BitReader.Read(rd, 2).value.0, v, 2);
  }

  /** Reading a byte that is next in the stream. */
  lemma ReadSymbol(rd: BitReader.Reader, c: bv8, more: seq<bool>)
    requires BitReader.Valid(rd) && BitReader.Rest(rd) == ByteBits(c) + more
    ensures BitReader.Read(rd, 8).Success?
    ensures BitReader.Read(rd, 8).value.0 == c
    ensures BitReader.Rest(BitReader.Read(rd, 8).value.1) == more
  {
    var rest := BitReader.Rest(rd);
    assert rest[..8] == ByteBits(c) && rest[8..] == more;
    var v := BitReader.Read(rd, 8).value.0;
    FieldBitsOfByte(c);
    FieldBitsInjective(v, c, 8);
  }

  /** One leaf step of the parser. */
  lemma ParseLeafStep(rd: BitReader.Reader)
    requires BitReader.Valid(rd) && BitReader.Read(rd, 2).Success? && BitReader.Read(rd, 2).value.0 == FreqPairTag
    requires BitReader.Read(BitReader.Read(rd, 2).value.1, 8).Success?
    ensures var (c, rd2) := BitReader.Read(BitReader.Read(rd, 2).value.1, 8).value;
      ParseNode(rd) == Success((Node(0, Some(FreqPair(c, 0)), Nil, Nil), rd2))
  {
  }

  /** One inner step of the parser: the first child on the side of the tag
      just read, then the sibling tag and the other child. */
  lemma ParseInnerStep(rd: BitReader.Reader, tag: bv8, sibling: bv8)
    requires BitReader.Valid(rd) && BitReader.Read(rd, 2).Success? && BitReader.Read(rd, 2).value.0 == tag
    requires (tag == LeftTag && sibling == RightTag) || (tag == RightTag && sibling == LeftTag)
    requires ParseNode(BitReader.Read(rd, 2).value.1).Success?
    requires var rd2 := ParseNode(BitReader.Read(rd, 2).value.1).value.1;
      InputRemaining(rd2) && BitReader.Read(rd2, 2).Success? && BitReader.Read(rd2, 2).value.0 == sibling
      && ParseNode(BitReader.Read(rd2, 2).value.1).Success?
    ensures var (first, rd2) := ParseNode(BitReader.Read(rd, 2).value.1).value;
      var (second, rd4) := ParseNode(BitReader.Read(rd2, 2).value.1).value;
      ParseNode(rd) == Success((if tag == LeftTag then Node(0, None, first, second) else Node(0, None, second, first), rd4))
  {
  }

  /** One inner step that stops after the first child: nothing is left. */
  lemma ParseNoInputStep(rd: BitReader.Reader, tag: bv8)
    requires BitReader.Valid(rd) && BitReader.Read(rd, 2).Success? && BitReader.Read(rd, 2).value.0 == tag
    requires tag == LeftTag || tag == RightTag
    requires ParseNode(BitReader.Read(rd, 2).value.1).Success?
    requires !InputRemaining(ParseNode(BitReader.Read(rd, 2).value.1).value.1)
    ensures ParseNode(rd) == Failure(NoInputRemaining)
  {
  }

  /** One inner step that stops at the sibling tag: it is not the other side. */
  lemma ParseSiblingStep(rd: BitReader.Reader, tag: bv8, sibling: bv8)
    requires BitReader.Valid(rd) && BitReader.Read(rd, 2).Success? && BitReader.Read(rd, 2).value.0 == tag
    requires (tag == LeftTag && sibling == RightTag) || (tag == RightTag && sibling == LeftTag)
    requires ParseNode(BitReader.Read(rd, 2).value.1).Success?
    requires var rd2 := ParseNode(BitReader.Read(rd, 2).value.1).value.1;
      InputRemaining(rd2) && BitReader.Read(rd2, 2).Success? && BitReader.Read(rd2, 2).value.0 != sibling
    ensures var rd2 := ParseNode(BitReader.Read(rd, 2).value.1).value.1;
      ParseNode(rd) == Failure(UnexpectedTag(sibling, BitReader.Read(rd2, 2).value.0))
  {
  }

  /** Parsing the bits WriteBytes wrote for a full tree, from an even offset
      as every parse that starts at a byte boundary is, gives the tree back
      without its weights, and leaves the reader just after those bits. */
  lemma {:induction false} ParseWritten(t: Tree<bv8>, rd: BitReader.Reader, more: seq<bool>)
    requires Full(t) && BitReader.Valid(rd) && BitReader.EvenOffset(rd) && BitReader.Rest(rd) == TreeBits(t) + more
    ensures ParseNode(rd).Success?
    ensures ParseNode(rd).value.0 == Strip(t)
    ensures BitReader.Rest(ParseNode(rd).value.1) == more
    decreases Height(t), 1
  {
    FullTreeBits(t);
    if t.pair.Some? {
      var c := t.pair.value.symbol;
      AppendAssoc(Tag(FreqPairTag), ByteBits(c), more);
      ReadTag(rd, FreqPairTag, ByteBits(c) + more);
      ReadSymbol(BitReader.Read(rd, 2).value.1, c, more);
      ParseLeafStep(rd);
    } else {
      ParseChildren(t.left, t.right, rd, LeftTag, RightTag, more);
    }
  }

  /** The two children of an inner node, in the order their tags say. */
  lemma {:induction false} ParseChildren(first: Tree<bv8>, second: Tree<bv8>, rd: BitReader.Reader, tag: bv8, sibling: bv8, more: seq<bool>)
    requires Full(first) && Full(second) && BitReader.Valid(rd) && BitReader.EvenOffset(rd)
    requires (tag == LeftTag && sibling == RightTag) || (tag == RightTag && sibling == LeftTag)
    requires BitReader.Rest(rd) == Tag(tag) + TreeBits(first) + (Tag(sibling) + TreeBits(second)) + more
    ensures ParseNode(rd).Success?
    ensures ParseNode(rd).value.0 ==
      if tag == LeftTag then Node(0, None, Strip(first), Strip(second)) else Node(0, None, Strip(second), Strip(first))
    ensures BitReader.Rest(ParseNode(rd).value.1) == more
    decreases if Height(first) > Height(second) then Height(first) else Height(second), 2
  {
    var tf, ts := TreeBits(first), TreeBits(second);
    var after := Tag(sibling) + ts + more;
    AppendAssoc(Tag(tag) + tf, Tag(sibling) + ts, more);
    AppendAssoc(Tag(tag), tf, after);
    ReadTag(rd, tag, tf + after);
    BitReader.EvenReads(rd, 2);
    var rd1 := BitReader.Read(rd, 2).value.1;
    ParseWritten(first, rd1, after);
    ParseKeepsEven(rd1);
    var rd2 := ParseNode(rd1).value.1;
    AppendAssoc(Tag(sibling), ts, more);
    ReadTag(rd2, sibling, ts + more);
    BitReader.EvenReads(rd2, 2);
    var rd3 := BitReader.Read(rd2, 2).value.1;
    ParseWritten(second, rd3, more);
    ParseInnerStep(rd, tag, sibling);
  }

  /** A `00` tag is none of the three the grammar knows: the parse fails
      with `UnknownTag(0)`. */
  lemma UnknownTagFails(rd: BitReader.Reader, more: seq<bool>)
    requires BitReader.Valid(rd) && BitReader.EvenOffset(rd) && BitReader.Rest(rd) == [false, false] + more
    ensures ParseNode(rd) == Failure(UnknownTag(0))
  {
    ZeroBits();
    assert FieldBits(0, 2) == [false, false];
    ReadField2(rd, 0, more);
  }

  /** An inner tag and a complete first child with nothing after them: the
      parse fails with `NoInputRemaining` instead of reading the sibling. */
  lemma NoInputFails(first: Tree<bv8>, rd: BitReader.Reader, tag: bv8)
    requires Full(first) && BitReader.Valid(rd) && BitReader.EvenOffset(rd)
    requires tag == LeftTag || tag == RightTag
    requires BitReader.Rest(rd) == Tag(tag) + TreeBits(first)
    ensures ParseNode(rd) == Failure(NoInputRemaining)
  {
    TagsDistinct();
    var tf := TreeBits(first);
    ReadTag(rd, tag, tf);
    BitReader.EvenReads(rd, 2);
    var rd1 := BitReader.Read(rd, 2).value.1;
    assert BitReader.Rest(rd1) == tf + [];
    ParseWritten(first, rd1, []);
    ParseNoInputStep(rd, tag);
  }

  /** An inner tag and a complete first child followed by a 2-bit tag that
      is not the other side's: the parse fails with `UnexpectedTag`, naming
      the tag it wanted and the one it got. */
  lemma WrongSiblingFails(first: Tree<bv8>, rd: BitReader.Reader, tag: bv8, sibling: bv8, other: bv8, more: seq<bool>)
    requires Full(first) && BitReader.Valid(rd) && BitReader.EvenOffset(rd)
    requires (tag == LeftTag && sibling == RightTag) || (tag == RightTag && sibling == LeftTag)
    requires Fits(other, 2) && other != sibling
    requires BitReader.Rest(rd) == Tag(tag) + TreeBits(first) + (FieldBits(other, 2) + more)
    ensures ParseNode(rd) == Failure(UnexpectedTag(sibling, other))
  {
    var tf := TreeBits(first);
    var after := FieldBits(other, 2) + more;
    AppendAssoc(Tag(tag), tf, after);
    ReadTag(rd, tag, tf + after);
    BitReader.EvenReads(rd, 2);
    var rd1 := BitReader.Read(rd, 2).value.1;
    ParseWritten(first, rd1, after);
    ParseKeepsEven(rd1);
    var rd2 := ParseNode(rd1).value.1;
    ReadField2(rd2, other, more);
    assert InputRemaining(rd2);
    ParseSiblingStep(rd, tag, sibling);
  }

  /** The parser also takes the right child first: `10`, the right subtree,
      `11`, the left subtree gives the same tree. */
  lemma ParseRightFirst(left: Tree<bv8>, right: Tree<bv8>, rd: BitReader.Reader, more: seq<bool>)
    requires Full(left) && Full(right) && BitReader.Valid(rd) && BitReader.EvenOffset(rd)
    requires BitReader.Rest(rd) == Tag(RightTag) + TreeBits(right) + (Tag(LeftTag) + TreeBits(left)) + more
    ensures ParseNode(rd).Success?
    ensures ParseNode(rd).value.0 == Strip(Node(0, None, left, right))
    ensures BitReader.Rest(ParseNode(rd).value.1) == more
  {
    ParseChildren(right, left, rd, RightTag, LeftTag, more);
  }

  /** End to end: the bytes of a serialised full tree decode to the tree
      without weights, and Decode accepts them. */
  lemma TreeRoundTrip(t: Tree<bv8>, bytes: seq<bv8>)
    requires Full(t) && Packed(bytes, TreeBits(t))
    ensures NewNodeFromBytes(BitReader.NewReader(bytes)) == Success(Strip(t))
    ensures Decode(bytes) == Success([])
  {
    TreeBitsSize(t);
    FullHasLeaves(t);
    var rd := BitReader.NewReader(bytes).value;
    ParseWritten(t, rd, Zeros(8 * |bytes| - |TreeBits(t)|));
  }

  /** A nil reader, as NewBitStringReader gives for empty input, parses to the
      nil tree. */
  lemma EmptyInputNilTree()
    ensures NewNodeFromBytes(BitReader.NewReader([])) == Success(Nil)
    ensures Decode([]) == Failure(EmptyInput)
  {
  }
}

=== FILE: vectors.dfy ===
/**
 * Concrete bit patterns from the writer and search examples in the
 * repository's tests, derived from the general contracts.
 */
module KnownVectors {
  import opened BitOps
  import opened BitWriter
  import opened PathSearch
  import opened HuffmanTree

  function Ones(n: nat): (r: seq<bool>)
    ensures |r| == n && forall i :: 0 <= i < n ==> r[i]
  {
    seq(n, i => true)
  }

  lemma FullByte()
    ensures ByteBits(0xff) == Ones(8)
  {
  }

  /** WriteBytes of the 17-bit value held in `[0xff, 0xff, 0x01]` to a fresh
      writer leaves `[0xff, 0xff, 0x80]` with one bit used in the last byte. */
  method SeventeenBitsWritten() returns (r: Writer)
    ensures r == Writer([0xff, 0xff, 0x80], 1)
  {
    EmptyValid();
    var bytes: seq<bv8> := [0xff, 0xff, 0x01];
    SeventeenOnes(bytes);
    r := WriteBytes(Empty, bytes, 17);
    var want := Writer([0xff, 0xff, 0x80], 1);
    SeventeenOnesWritten(want);
    StreamDetermines(r, want);
  }

  lemma SeventeenOnes(bytes: seq<bv8>)
    requires bytes == [0xff, 0xff, 0x01]
    ensures TailFits(bytes, 17) && BytesField(bytes, 17) == Ones(17)
  {
    FullByte();
    assert ByteBits(0x01) == Zeros(7) + [true];
    assert bytes[..2] == [0xff, 0xff];
    assert Bits([0xff, 0xff]) == Bits([0xff]) + ByteBits(0xff);
  }

  lemma SeventeenOnesWritten(want: Writer)
    requires want == Writer([0xff, 0xff, 0x80], 1)
    ensures Valid(want) && Stream(want) == Ones(17)
  {
    FullByte();
    assert Init(want.buffer) == [0xff, 0xff];
    assert Bits([0xff, 0xff]) == Bits([0xff]) + ByteBits(0xff);
    assert ByteBits(0x80) == [true] + Zeros(7);
  }

  /** The eleven codes of "hello world" from the writer's examples, written
      one after another to a fresh writer, fill exactly four bytes:
      `[0x2E, 0xBE, 0x6F, 0x12]`. */
  method HelloWorldWritten() returns (r: Writer)
    ensures r == Writer([0x2E, 0xBE, 0x6F, 0x12], 8)
  {
    EmptyValid();
    r := WriteHello(Empty);
    r := WriteWorld(r);
    var want := Writer([0x2E, 0xBE, 0x6F, 0x12], 8);
    HelloWorldBits();
    FourBytes(want);
    StreamDetermines(r, want);
  }

  /** The codes of "hello " */
  method WriteHello(wr: Writer) returns (r: Writer)
    requires Valid(wr)
    ensures Valid(r) && Stream(r) == Stream(wr) + FieldBits(0x01, 3) + FieldBits(0x03, 3) + FieldBits(0x02, 2) + FieldBits(0x02, 2) + FieldBits(0x07, 3) + FieldBits(0x0C, 4)
  {
    CodesFit();
    r := wr;
    r := WriteCode(r, 0x01, 3); // h
    r := WriteCode(r, 0x03, 3); // e
    r := WriteCode(r, 0x02, 2); // l
    r := WriteCode(r, 0x02, 2); // l
    r := WriteCode(r, 0x07, 3); // o
    r := WriteCode(r, 0x0C, 4); // space
  }

  /** The codes of "world" */
  method WriteWorld(wr: Writer) returns (r: Writer)
    requires Valid(wr)
    ensures Valid(r) && Stream(r) == Stream(wr) + FieldBits(0x0D, 4) + FieldBits(0x07, 3) + FieldBits(0x00, 3) + FieldBits(0x02, 2) + FieldBits(0x02, 3)
  {
    CodesFit();
    r := wr;
    r := WriteCode(r, 0x0D, 4); // w
    r := WriteCode(r, 0x07, 3); // o
    r := WriteCode(r, 0x00, 3); // r
    r := WriteCode(r, 0x02, 2); // l
    r := WriteCode(r, 0x02, 3); // d
  }

  /** One code: Write of a field that fits its width. */
  method WriteCode(wr: Writer, b: bv8, w: nat) returns (r: Writer)
    requires Valid(wr) && 1 <= w <= 8 && Fits(b, w)
    ensures Valid(r) && Stream(r) == Stream(wr) + FieldBits(b, w)
  {
    r := Write(wr, b, w);
  }

  lemma CodesFit()
    ensures Fits(0x01, 3) && Fits(0x03, 3) && Fits(0x02, 2) && Fits(0x07, 3) && Fits(0x0C, 4)
    ensures Fits(0x0D, 4) && Fits(0x00, 3) && Fits(0x02, 3)
  {
    CodeBits();
  }

  lemma FourBytes(want: Writer)
    requires want == Writer([0x2E, 0xBE, 0x6F, 0x12], 8)
    ensures Valid(want) && Stream(want) == Bits([0x2E, 0xBE, 0x6F]) + ByteBits(0x12)
  {
    assert Init(want.buffer) == [0x2E, 0xBE, 0x6F];
    assert ByteBits(0x12)[..8] == ByteBits(0x12);
  }

  /** The bits of the codes, concatenated, are the bits of the four bytes. */
  lemma HelloWorldBits()
    ensures [] + FieldBits(0x01, 3) + FieldBits(0x03, 3) + FieldBits(0x02, 2) + FieldBits(0x02, 2) + FieldBits(0x07, 3) + FieldBits(0x0C, 4) + FieldBits(0x0D, 4) + FieldBits(0x07, 3) + FieldBits(0x00, 3) + FieldBits(0x02, 2) + FieldBits(0x02, 3)
      == Bits([0x2E, 0xBE, 0x6F]) + ByteBits(0x12)
  {
    CodeBits();
    OutputBits();
    LiteralConcat();
  }

  lemma CodeBits()
    ensures ByteBits(0x00) == [false, false, false, false, false, false, false, false]
    ensures ByteBits(0x01) == [false, false, false, false, false, false, false, true]
    ensures ByteBits(0x02) == [false, false, false, false, false, false, true, false]
    ensures ByteBits(0x03) == [false, false, false, false, false, false, true, true]
    ensures ByteBits(0x07) == [false, false, false, false, false, true, true, true]
    ensures ByteBits(0x0C) == [false, false, false, false, true, true, false, false]
    ensures ByteBits(0x0D) == [false, false, false, false, true, true, false, true]
  {
    assert ByteBits(0x00) == [false, false, false, false, false, false, false, false];
    assert ByteBits(0x01) == [false, false, false, false, false, false, false, true];
    assert ByteBits(0x02) == [false, false, false, false, false, false, true, false];
    assert ByteBits(0x03) == [false, false, false, false, false, false, true, true];
    assert ByteBits(0x07) == [false, false, false, false, false, true, true, true];
    assert ByteBits(0x0C) == [false, false, false, false, true, true, false, false];
    assert ByteBits(0x0D) == [false, false, false, false, true, true, false, true];
  }

  lemma OutputBits()
    ensures Bits([0x2E, 0xBE, 0x6F]) + ByteBits(0x12) == [false, false, true, false, true, true, true, false] + [true, false, true, true, true, true, true, false] + [false, true, true, false, true, true, true, true] + [false, false, false, true, false, false, true, false]
  {
    OutputBytes();
    assert Bits([0x2E, 0xBE, 0x6F]) == Bits([0x2E, 0xBE]) + ByteBits(0x6F);
    assert Bits([0x2E, 0xBE]) == Bits([0x2E]) + ByteBits(0xBE);
  }

  lemma OutputBytes()
    ensures ByteBits(0x2E) == [false, false, true, false, true, true, true, false]
    ensures ByteBits(0xBE) == [true, false, true, true, true, true, true, false]
    ensures ByteBits(0x6F) == [false, true, true, false, true, true, true, true]
    ensures ByteBits(0x12) == [false, false, false, true, false, false, true, false]
  {
    assert ByteBits(0x2E) == [false, false, true, false, true, true, true, false];
    assert ByteBits(0xBE) == [true, false, true, true, true, true, true, false];
    assert ByteBits(0x6F) == [false, true, true, false, true, true, true, true];
    assert ByteBits(0x12) == [false, false, false, true, false, false, true, false];
  }

  lemma LiteralConcat()
    ensures [] + [false, false, false, false, false, false, false, true][5..] + [false, false, false, false, false, false, true, true][5..] + [false, false, false, false, false, false, true, false][6..] + [false, false, false, false, false, false, true, false][6..] + [false, false, false, false, false, true, true, true][5..] + [false, false, false, false, true, true, false, false][4..] + [false, false, false, false, true, true, false, true][4..] + [false, false, false, false, false, true, true, true][5..] + [false, false, false, false, false, false, false, false][5..] + [false, false, false, false, false, false, true, false][6..] + [false, false, false, false, false, false, true, false][5..] == [false, false, true, false, true, true, true, false] + [true, false, true, true, true, true, true, false] + [false, true, true, false, true, true, true, true] + [false, false, false, true, false, false, true, false]
  {
  }

  /** A leaf reached by seventeen right edges is reported as the 17-bit
      field `[0xff, 0xff, 0x01]`, low byte first. */
  lemma SeventeenRights(t: Tree<bv8>, b: bv8)
    requires Holds(t, b) && RightFirstPath(t, b) == Ones(17)
    ensures Search(t, b) == SearchResult([0xff, 0xff, 0x01], 17)
  {
    var r := Search(t, b);
    assert |r.bytes| == 3;
    SeventeenOnesField(r.bytes);
    ThreeBytes(r.bytes);
  }

  lemma ThreeBytes(bytes: seq<bv8>)
    requires |bytes| == 3 && ByteBits(bytes[2]) == Zeros(7) + [true]
    requires ByteBits(bytes[1]) == Ones(8) && ByteBits(bytes[0]) == Ones(8)
    ensures bytes == [0xff, 0xff, 0x01]
  {
    FullByte();
    ByteBitsInjective(bytes[0], 0xff);
    ByteBitsInjective(bytes[1], 0xff);
    assert ByteBits(0x01) == Zeros(7) + [true];
    ByteBitsInjective(bytes[2], 0x01);
  }

  lemma SeventeenOnesField(bytes: seq<bv8>)
    requires |bytes| == 3 && FieldOf(bytes) == Zeros(7) + Ones(17)
    ensures ByteBits(bytes[2]) == Zeros(7) + [true]
    ensures ByteBits(bytes[1]) == Ones(8) && ByteBits(bytes[0]) == Ones(8)
  {
    assert FieldOf(bytes) == ByteBits(bytes[2]) + (ByteBits(bytes[1]) + ByteBits(bytes[0])) by {
      assert bytes[..2][..1] == bytes[..1];
      assert FieldOf(bytes[..1]) == ByteBits(bytes[0]) + FieldOf([]);
    }
    var f := FieldOf(bytes);
    assert ByteBits(bytes[2]) == f[..8];
    assert ByteBits(bytes[1]) == f[8..16];
    assert ByteBits(bytes[0]) == f[16..];
  }
}

=== FILE: walk.dfy ===
/**
 * Reading a content stream back: follow the bits from the root, `false` to
 * the left and `true` to the right, emit the symbol of each leaf reached and
 * start again at the root. Every symbol is written as its root-first path, so
 * this is the inverse of the encoders whenever those paths are what they
 * write.
 */
module WalkDecoder {
  import opened Wrappers
  import opened HuffmanTree
  import opened PathSearch

  /** The leaf reached from `n` by following `bits`, and how many bits it
      took; None when the walk falls off the tree or runs out of bits. */
  function WalkLeaf<S>(n: Tree<S>, bits: seq<bool>): (r: Option<(S, nat)>)
    ensures r.Some? ==> r.value.1 <= |bits|
  {
    if n.Nil? then None
    else if n.pair.Some? then Some((n.pair.value.symbol, 0))
    else if |bits| == 0 then None
    else
      match WalkLeaf(if bits[0] then n.right else n.left, bits[1..])
      case None => None
      case Some((s, k)) => Some((s, k + 1))
  }

  /** The symbols a stream spells, or None when it does not end on a leaf
      boundary. The root must be an inner node, so that every symbol takes at
      least one bit. */
  function WalkDecode<S>(t: Tree<S>, bits: seq<bool>): (r: Option<seq<S>>)
    requires t.Node? && t.pair.None?
    decreases |bits|
  {
    if |bits| == 0 then Some([])
    else
      match WalkLeaf(t, bits)
      case None => None
      case Some((s, k)) =>
        match WalkDecode(t, bits[k..])
        case None => None
        case Some(more) => Some([s] + more)
  }

  /** `prefix` in front of a decoded stream. */
  function Prepend<S>(prefix: seq<S>, o: Option<seq<S>>): Option<seq<S>>
  {
    if o.Some? then Some(prefix + o.value) else None
  }

  /** In a full tree a path that leads to `b` is walked to the end and no
      further, whatever bits follow it. */
  lemma {:induction false} WalkPath<S>(n: Tree<S>, p: seq<bool>, b: S, rest: seq<bool>)
    requires Full(n) && LeadsTo(n, p, b)
    ensures WalkLeaf(n, p + rest) == Some((b, |p|))
    decreases |p|
  {
    if |p| == 0 {
      assert p + rest == rest;
    } else if n.pair.Some? {
      assert Walk(n, p) == Walk(if p[0] then n.right else n.left, p[1..]);
      NilWalk(if p[0] then n.right else n.left, p[1..]);
    } else {
      var child := if p[0] then n.right else n.left;
      assert Walk(n, p) == Walk(child, p[1..]);
      assert (p + rest)[0] == p[0] && (p + rest)[1..] == p[1..] + rest;
      WalkPath(child, p[1..], b, rest);
    }
  }

  lemma {:induction false} NilWalk<S>(n: Tree<S>, p: seq<bool>)
    requires n.Nil?
    ensures Walk(n, p).Nil?
  {
  }

  /** One codeword in front of a stream decodes to its symbol in front of the
      stream's symbols. */
  lemma CodewordFirst<S>(t: Tree<S>, p: seq<bool>, b: S, rest: seq<bool>)
    requires Full(t) && t.pair.None? && LeadsTo(t, p, b)
    ensures |p| >= 1
    ensures WalkDecode(t, p + rest) == Prepend([b], WalkDecode(t, rest))
  {
    WalkPath(t, p, b, rest);
    assert (p + rest)[|p|..] == rest;
  }
}

=== FILE: wrappers.dfy ===
/** Failure-compatible wrappers: Go's `nil` results and `(value, error)` pairs. */
module Wrappers {

  datatype Option<+T> = None | Some(value: T) {
    predicate IsFailure() { None? }

    function PropagateFailure<U>(): Option<U>
      requires None?
    {
      None
    }

    function Extract(): T
      requires Some?
    {
      value
    }
  }

  datatype Result<+R, +E> = Success(value: R) | Failure(error: E) {
    predicate IsFailure() { Failure? }

    function PropagateFailure<U>(): Result<U, E>
      requires Failure?
    {
      Failure(error)
    }

    function Extract(): R
      requires Success?
    {
      value
    }
  }
}

=== FILE: writer.dfy ===
/**
 * BitStringWriter of pkg/huffman/bitstringwriter.go: packs fields of 1..8 bits
 * most-significant-bit first into a growing byte buffer. The writer is a pure
 * state transformer over `(buffer, offset)`, where `offset` counts the bits
 * already used in the last byte of the buffer.
 */
module BitWriter {
  import opened BitOps
  import opened Masks

  datatype Writer = Writer(buffer: seq<bv8>, offset: nat)

  /** The zero value `&BitStringWriter{}`. */
  const Empty: Writer := Writer([], 0)

  function Last(buf: seq<bv8>): bv8
    requires |buf| > 0
  {
    buf[|buf| - 1]
  }

  function Init(buf: seq<bv8>): seq<bv8>
    requires |buf| > 0
  {
    buf[..|buf| - 1]
  }

  /** No bit of `x` at or after position `off` is set. */
  predicate ClearFrom(x: bv8, off: nat)
  {
    forall j :: off <= j < 8 ==> !ByteBits(x)[j]
  }

  /** The states a writer reaches from `Empty`: the offset is 1..8 once a byte
      exists, and the bits past the cursor in the last byte are zero. */
  predicate Valid(wr: Writer)
  {
    if |wr.buffer| == 0 then wr.offset == 0
    else 1 <= wr.offset <= 8 && ClearFrom(Last(wr.buffer), wr.offset)
  }

  /** What `Write` needs so that it never indexes an empty buffer. */
  predicate Writable(wr: Writer)
  {
    0 < wr.offset < 8 ==> |wr.buffer| > 0
  }

  /** The abstract bitstream: every bit of the buffer up to the cursor. */
  function Stream(wr: Writer): seq<bool>
  {
    if |wr.buffer| == 0 then []
    else Bits(Init(wr.buffer)) + ByteBits(Last(wr.buffer))[..if wr.offset <= 8 then wr.offset else 8]
  }

  // ---------------------------------------------------------------------------
  // Byte-level lemmas

  /** The splice of PlaceField on plain bit sequences: `y` is `x` OR-ed with
      `v` moved left by `8 - off - w`, `x` is clear from `off` and `v` holds a
      `w`-bit field. */
  lemma SpliceBits(x: seq<bool>, v: seq<bool>, y: seq<bool>, off: nat, w: nat)
    requires |x| == 8 && |v| == 8 && |y| == 8 && off + w <= 8
    requires forall j :: off <= j < 8 ==> !x[j]
    requires v[..8 - w] == Zeros(8 - w)
    requires forall j :: 0 <= j < 8 ==> y[j] == (x[j] || (v[8 - off - w..] + Zeros(8 - off - w))[j])
    ensures y[..off + w] == x[..off] + v[8 - w..]
    ensures forall j :: off + w <= j < 8 ==> !y[j]
  {
    var s := 8 - off - w;
    forall j | 0 <= j < 8
      ensures y[j] == (if j < off then x[j] else j + s < 8 && v[j + s])
    {
      if j < off && j + s < 8 {
        assert v[j + s] == v[..8 - w][j + s];
      }
    }
  }

  /** OR-ing a `w`-bit field shifted left by `s = 8 - off - w` into a byte that
      is clear from `off` appends the field's bits and keeps the rest clear. */
  lemma PlaceField(x: bv8, v: bv8, off: nat, w: nat, s: nat)
    requires off + w <= 8 && s == 8 - off - w && Fits(v, w) && ClearFrom(x, off)
    ensures ByteBits(x | Shl(v, s))[..off + w] == ByteBits(x)[..off] + FieldBits(v, w)
    ensures ClearFrom(x | Shl(v, s), off + w)
  {
    var xs, vs, ys := ByteBits(x), ByteBits(v), ByteBits(x | Shl(v, s));
    OrShlBits(x, v, s);
    SpliceBits(xs, vs, ys, off, w);
  }

  /** OR-ing any byte shifted left by `s = 8 - off - w` into a byte that is
      clear from `off` leaves it clear from `off + w`: the shift fills the
      bottom `s` bits with zeros. */
  lemma PlaceClear(x: bv8, v: bv8, off: nat, w: nat, s: nat)
    requires off + w <= 8 && s == 8 - off - w && ClearFrom(x, off)
    ensures ClearFrom(x | Shl(v, s), off + w)
  {
    OrShlBits(x, v, s);
    ClearBits(ByteBits(x), ByteBits(v)[s..] + Zeros(s), ByteBits(x | Shl(v, s)), off, off + w);
  }

  /** PlaceClear on plain bit sequences: `y` is `x` OR-ed with `u`, `x` is
      clear from `off` and `u` from `k`. */
  lemma ClearBits(x: seq<bool>, u: seq<bool>, y: seq<bool>, off: nat, k: nat)
    requires |x| == 8 && |u| == 8 && |y| == 8 && off <= k <= 8
    requires forall j :: off <= j < 8 ==> !x[j]
    requires forall j :: k <= j < 8 ==> !u[j]
    requires forall j :: 0 <= j < 8 ==> y[j] == (x[j] || u[j])
    ensures forall j :: k <= j < 8 ==> !y[j]
  {
  }

  /** The split of SplitField on plain bit sequences: `hi` is `a` moved right
      by `r` and `lo` keeps the last `r` bits of `a`. */
  lemma SplitBits(a: seq<bool>, hi: seq<bool>, lo: seq<bool>, w: nat, r: nat)
    requires |a| == 8 && 0 < r < w <= 8
    requires hi == Zeros(r) + a[..8 - r] && lo == Zeros(8 - r) + a[8 - r..]
    requires a[..8 - w] == Zeros(8 - w)
    ensures a[8 - w..] == hi[8 - (w - r)..] + lo[8 - r..]
    ensures hi[..8 - (w - r)] == Zeros(8 - (w - r))
  {
    assert hi[8 - (w - r)..] == a[8 - w..8 - r];
    assert lo[8 - r..] == a[8 - r..];
    assert hi[..8 - (w - r)] == Zeros(r) + a[..8 - w];
    assert Zeros(r) + Zeros(8 - w) == Zeros(8 - (w - r));
  }

  /** A `w`-bit field is its top `w - r` bits followed by its low `r` bits. */
  lemma SplitField(v: bv8, w: nat, r: nat)
    requires 0 < r < w <= 8 && Fits(v, w)
    ensures FieldBits(v, w) == FieldBits(Shr(v, r), w - r) + FieldBits(ComputeRightByte(v, r), r)
    ensures Fits(Shr(v, r), w - r)
  {
    ShrBits(v, r);
    ComputeRightByteBits(v, r);
    SplitBits(ByteBits(v), ByteBits(Shr(v, r)), ByteBits(ComputeRightByte(v, r)), w, r);
  }

  // ---------------------------------------------------------------------------
  // Stream lemmas

  /** Replacing the last byte by `y`, whose first `wr.offset + w` bits are the
      old last byte's first `wr.offset` bits followed by `f`, appends `f`. */
  lemma ReplaceLastAppends(wr: Writer, y: bv8, w: nat, f: seq<bool>)
    requires |wr.buffer| > 0 && wr.offset + w <= 8
    requires ByteBits(y)[..wr.offset + w] == ByteBits(Last(wr.buffer))[..wr.offset] + f
    ensures Stream(Writer(Init(wr.buffer) + [y], wr.offset + w)) == Stream(wr) + f
  {
    var init := Init(wr.buffer);
    assert Init(init + [y]) == init && Last(init + [y]) == y;
    AppendAssoc(Bits(init), ByteBits(Last(wr.buffer))[..wr.offset], f);
  }

  // ---------------------------------------------------------------------------
  // The writer's operations

  /** addByte: append a zero byte and reset the cursor. On a writer whose last
      byte is full (or that has none) the stream is unchanged. */
  method AddByte(wr: Writer) returns (r: Writer)
    ensures |r.buffer| == |wr.buffer| + 1 && r.offset == 0
    ensures Init(r.buffer) == wr.buffer && Last(r.buffer) == 0
    ensures Valid(wr) && (wr.offset == 0 || wr.offset >= 8) ==> Stream(r) == Stream(wr) == Bits(wr.buffer)
  {
    r := Writer(wr.buffer + [0], 0);
    assert Init(r.buffer) == wr.buffer;
    if |wr.buffer| > 0 && wr.offset >= 8 {
      assert ByteBits(Last(wr.buffer))[..8] == ByteBits(Last(wr.buffer));
    }
  }

  /** writeToLastByte: OR `b` into the last byte so that its low `w` bits end
      at the cursor, and advance the cursor by `w`. When the cursor had only
      zero bits after it and `b` is a `w`-bit value, exactly those `w` bits are
      appended to the stream and the bits after the new cursor stay zero. */
  method WriteToLastByte(wr: Writer, b: bv8, w: nat) returns (r: Writer)
    requires |wr.buffer| > 0 && wr.offset + w <= 8
    ensures |r.buffer| == |wr.buffer| && r.offset == wr.offset + w
    ensures ClearFrom(Last(wr.buffer), wr.offset) ==> ClearFrom(Last(r.buffer), r.offset)
    ensures ClearFrom(Last(wr.buffer), wr.offset) && Fits(b, w) ==>
              Stream(r) == Stream(wr) + FieldBits(b, w) && ClearFrom(Last(r.buffer), r.offset)
  {
    var s := 7 - wr.offset - w + 1;
    var last := Last(wr.buffer) | Shl(b, s);
    r := Writer(Init(wr.buffer) + [last], wr.offset + w);
    LastByteWritten(wr, b, w, s, last, r);
  }

  /** What writeToLastByte does to the stream, with the new last byte named. */
  lemma LastByteWritten(wr: Writer, b: bv8, w: nat, s: nat, last: bv8, r: Writer)
    requires |wr.buffer| > 0 && wr.offset + w <= 8 && s == 8 - wr.offset - w
    requires last == Last(wr.buffer) | Shl(b, s) && r == Writer(Init(wr.buffer) + [last], wr.offset + w)
    ensures ClearFrom(Last(wr.buffer), wr.offset) ==> ClearFrom(Last(r.buffer), r.offset)
    ensures ClearFrom(Last(wr.buffer), wr.offset) && Fits(b, w) ==> Stream(r) == Stream(wr) + FieldBits(b, w)
  {
    assert Last(r.buffer) == last;
    if ClearFrom(Last(wr.buffer), wr.offset) {
      PlaceClear(Last(wr.buffer), b, wr.offset, w, s);
      if Fits(b, w) {
        LastByteAppends(wr, b, w, s, last);
      }
    }
  }

  lemma LastByteAppends(wr: Writer, b: bv8, w: nat, s: nat, last: bv8)
    requires |wr.buffer| > 0 && wr.offset + w <= 8 && s == 8 - wr.offset - w
    requires last == Last(wr.buffer) | Shl(b, s) && ClearFrom(Last(wr.buffer), wr.offset) && Fits(b, w)
    ensures Stream(Writer(Init(wr.buffer) + [last], wr.offset + w)) == Stream(wr) + FieldBits(b, w)
  {
    PlaceField(Last(wr.buffer), b, wr.offset, w, s);
    ReplaceLastAppends(wr, last, w, FieldBits(b, w));
  }

  /** The branch of Write where the field does not fit in the last byte: its
      top bits fill that byte and its low bits start a new one. */
  method WriteOverflow(wr: Writer, b: bv8, w: nat) returns (r: Writer)
    requires |wr.buffer| > 0 && wr.offset < 8 < wr.offset + w && w <= 8
    ensures |r.buffer| == |wr.buffer| + 1 && 1 <= r.offset <= 8
    ensures ClearFrom(Last(wr.buffer), wr.offset) ==> Valid(r)
    ensures ClearFrom(Last(wr.buffer), wr.offset) && Fits(b, w) ==>
              Valid(r) && Stream(r) == Stream(wr) + FieldBits(b, w)
  {
    var numBitsLeft := 8 - wr.offset;
    var left := Shr(b, w - numBitsLeft);
    var r2 := WriteToLastByte(wr, left, numBitsLeft);
    var r3 := AddByte(r2);
    var numBitsRight := w - numBitsLeft;
    var right := ComputeRightByte(b, numBitsRight);
    ZeroBits();
    r := WriteToLastByte(r3, right, numBitsRight);
    if ClearFrom(Last(wr.buffer), wr.offset) && Fits(b, w) {
      SplitField(b, w, numBitsRight);
      ComputeRightByteField(b, numBitsRight);
      assert Stream(r2) == Stream(wr) + FieldBits(left, numBitsLeft);
      assert Stream(r3) == Stream(r2) by {
        assert Valid(r2);
      }
      ZeroBits();
      AppendAssoc(Stream(wr), FieldBits(left, numBitsLeft), FieldBits(right, numBitsRight));
    }
  }

  /** Write: append the low `w` bits of `b`, most significant first. Widths
      below 1 are ignored; callers never pass widths above 8 (the source would
      shift by a negative amount). On a reachable writer and a `w`-bit value,
      the stream grows by exactly that field; any value keeps a reachable
      writer reachable. */
  method Write(wr: Writer, b: bv8, w: int) returns (r: Writer)
    requires w <= 8 && Writable(wr)
    ensures w < 1 ==> r == wr
    ensures w >= 1 ==> |r.buffer| > 0 && 1 <= r.offset <= 8
    ensures Valid(wr) && 1 <= w ==> Valid(r)
    ensures Valid(wr) && 1 <= w && Fits(b, w) ==> Valid(r) && Stream(r) == Stream(wr) + FieldBits(b, w)
  {
    if w < 1 {
      return wr;
    }
    var wr1 := wr;
    if wr.offset == 0 || wr.offset >= 8 {
      wr1 := AddByte(wr);
      ZeroBits();
    }
    var overflow := wr1.offset + w;
    if overflow > 8 {
      r := WriteOverflow(wr1, b, w);
    } else {
      r := WriteToLastByte(wr1, b, w);
    }
  }

  /** A `w`-bit value held in `bytes` the way WriteBytes reads it: whole bytes
      first, then the low `w % 8` bits of the next byte. */
  function BytesField(bytes: seq<bv8>, w: nat): (r: seq<bool>)
    requires (w + 7) / 8 <= |bytes|
    ensures |r| == w
  {
    Bits(bytes[..w / 8]) + if w % 8 == 0 then [] else FieldBits(bytes[w / 8], w % 8)
  }

  /** The last byte WriteBytes touches holds a `w % 8`-bit value. */
  predicate TailFits(bytes: seq<bv8>, w: nat)
    requires (w + 7) / 8 <= |bytes|
  {
    w % 8 != 0 ==> Fits(bytes[w / 8], w % 8)
  }

  /** The whole bytes of a prefix, one more byte at a time. */
  lemma BitsSnoc(bytes: seq<bv8>, k: nat)
    requires k < |bytes|
    ensures Bits(bytes[..k + 1]) == Bits(bytes[..k]) + ByteBits(bytes[k])
  {
    assert bytes[..k + 1][..k] == bytes[..k];
  }

  /** WriteBytes: write a `w`-bit value held in `bytes`, whole bytes first and
      then the low `w % 8` bits of the next byte. The stream grows by exactly
      that value. */
  method WriteBytes(wr: Writer, bytes: seq<bv8>, w: int) returns (r: Writer)
    requires Writable(wr)
    requires w <= 0 || (w + 7) / 8 <= |bytes|
    ensures Writable(r)
    ensures w <= 0 ==> r == wr
    ensures Valid(wr) && 0 <= w && TailFits(bytes, w) ==> Valid(r) && Stream(r) == Stream(wr) + BytesField(bytes, w)
  {
    ghost var good := Valid(wr) && 0 <= w && TailFits(bytes, w);
    r := wr;
    var currentByte := 0;
    var widthRemaining := w;
    while widthRemaining >= 8
      invariant widthRemaining == w - 8 * currentByte
      invariant 0 <= currentByte && (currentByte == 0 || widthRemaining >= 0)
      invariant Writable(r)
      invariant currentByte == 0 ==> r == wr
      invariant good ==> Valid(r) && Stream(r) == Stream(wr) + Bits(bytes[..currentByte])
      decreases widthRemaining
    {
      var r1 := Write(r, bytes[currentByte], 8);
      FieldBitsOfByte(bytes[currentByte]);
      BitsSnoc(bytes, currentByte);
      if good {
        AppendAssoc(Stream(wr), Bits(bytes[..currentByte]), ByteBits(bytes[currentByte]));
      }
      r := r1;
      currentByte := currentByte + 1;
      widthRemaining := widthRemaining - 8;
    }
    if widthRemaining > 0 {
      assert currentByte == w / 8 && widthRemaining == w % 8;
      var r1 := Write(r, bytes[currentByte], widthRemaining);
      if good {
        AppendAssoc(Stream(wr), Bits(bytes[..currentByte]), FieldBits(bytes[currentByte], widthRemaining));
      }
      r := r1;
    } else if good {
      assert currentByte == w / 8 && w % 8 == 0;
    }
  }

  /** A reachable writer's buffer holds its stream, padded with zero bits. */
  lemma ValidPacked(wr: Writer)
    requires Valid(wr)
    ensures Packed(wr.buffer, Stream(wr))
  {
    if |wr.buffer| > 0 {
      var init, x := Init(wr.buffer), Last(wr.buffer);
      assert wr.buffer == init + [x];
      assert ByteBits(x) == ByteBits(x)[..wr.offset] + Zeros(8 - wr.offset);
      AppendAssoc(Bits(init), ByteBits(x)[..wr.offset], Zeros(8 - wr.offset));
    }
  }

  lemma EmptyValid()
    ensures Valid(Empty) && Stream(Empty) == [] && Empty.buffer == []
  {
  }

  /** A reachable writer is determined by its stream. */
  lemma StreamDetermines(a: Writer, b: Writer)
    requires Valid(a) && Valid(b) && Stream(a) == Stream(b)
    ensures a == b
  {
    ValidPacked(a);
    ValidPacked(b);
    PackedUnique(a.buffer, b.buffer, Stream(a));
  }
}
